=== FILE: README.md ===
# fluxi core, modelled in Dafny

fluxi is a WhatsApp assistant platform. This project models four pieces of
its server:

- the **Pront client** (`pront_integration/pront_client.py`). This is the HTTP
  client of the Pront clinical-records API. It resolves its configuration and,
  for each backend capability, builds the request it sends.
- the **Pront tools** (`pront_integration/pront_tools.py`). This is the
  catalog of five tools offered to a function-calling model, and the adapters
  behind them. Each adapter normalises its arguments, calls the client, reads
  the `{success, data, error}` envelope and renders a Portuguese text for the
  model.
- the **agent service** (`agente/agente_service.py`). It builds the chat
  history and the system prompt and runs the bounded tool-call loop (at most 10
  LLM rounds). That loop routes tool names to MCP servers, to the knowledge base
  or to registered tools. The service also keeps agent codes unique per session
  and tool lists at 20 or fewer.
- the **LLM-provider service** (`llm_providers/llm_providers_service.py`). It
  cleans a configured base URL and derives the endpoint URLs. It detects an
  OpenAI-compatible or an Ollama server, reads model lists, tests connections,
  sends a chat request and keeps per-provider request counters.

Everything the code does outside itself becomes a parameter. That covers HTTP
answers, the LLM, the tool executors, the database rows and the clock. Each
operation is a pure function of those inputs. Each one returns what the
source would return, store or send, and Python exceptions become `Err`
values. `common.dfy` holds the Python semantics the four files lean on:
`int()`/`str()` of integers, `str.strip`, `str.split(sep, n)`, `in` on strings,
ASCII `lower()` and truthiness. `json.dfy` holds `json.dumps`, `repr`/`str`
of decoded JSON, `dict.get` and iteration over a decoded value.

## Model

| member | source | states |
|---|---|---|
| ProntClient.NewClient | pront_integration/pront_client.py:13-30 | The client exists exactly when an explicit or environment API key is non-empty, otherwise the configuration error. An explicit key or URL wins over the environment, and the URL falls back to the local default. The headers are exactly `X-API-Key` (the key) and `Content-Type: application/json`. |
| ProntClient.OptionalText | pront_integration/pront_client.py:66-67 | A query parameter is present, under its own key, exactly when the optional text is truthy. |
| ProntClient.OptionalNumber | pront_integration/pront_client.py:68-69 | A numeric parameter is present exactly when the number is truthy (zero is dropped), rendered as `str(n)`. |
| ProntClient.LookupAppend | pront_integration/pront_client.py:62-69 | Looking a key up in a concatenated query finds the first part's entry if it has one, else the second's. |
| ProntClient.ActionQueryKeys | pront_integration/pront_client.py:62-69 | A query built as `action` plus optional parts carries, position by position, only the keys of those parts. |
| ProntClient.ActionQueryLookups | pront_integration/pront_client.py:62-69 | In such a query each optional key reads back the value its own part gave. |
| ProntClient.ActionQuery | pront_integration/pront_client.py:173-181 | The query starts with `action`, has distinct keys drawn from the four names, and each key reads back its part's value. |
| ProntClient.NormalizeCpf | pront_integration/pront_client.py:64-65 | The CPF sent has no `.` or `-`, and every other character occurs as often as in the input. |
| ProntClient.NormalizeCpfIdempotent | pront_integration/pront_client.py:64-65 | Normalising a normalised CPF changes nothing. |
| ProntClient.NormalizeCpfPointwise | pront_integration/pront_client.py:64-65 | Normalisation works character by character: it distributes over concatenation and drops exactly `.` and `-`. |
| ProntClient.HealthCheck | pront_integration/pront_client.py:32-41 | The health check is a GET of `action=health` alone, with no body and a 10-second timeout. |
| ProntClient.BuscarPaciente | pront_integration/pront_client.py:43-78 | The search fails with the "inform at least one" message exactly when cpf, name and number are all falsy. Otherwise it is a GET of `action=paciente` with distinct keys. Only the truthy search keys are present, with the CPF normalised and the number as `str`. |
| ProntClient.CadastrarPaciente | pront_integration/pront_client.py:80-101 | Registering is a POST of `action=paciente` whose body is the patient data unchanged. |
| ProntClient.AtualizarPaciente | pront_integration/pront_client.py:103-123 | Updating is a PUT whose query has exactly `action=paciente` and `numero=str(n)`, with the data as body. |
| ProntClient.AgendarConsulta | pront_integration/pront_client.py:125-159 | Scheduling POSTs `action=agendar` with a six-field body: status `agendado`, the patient number, date and time, and professional and note (null when absent). |
| ProntClient.ListarAgendamentos | pront_integration/pront_client.py:161-190 | Listing appointments is a GET of `action=agendamentos` in which exactly the truthy filters appear, with their values. |
| ProntClient.TwoDigits | pront_integration/pront_client.py:213 | A clock field below 100 prints as two decimal digits. |
| ProntClient.FormatClock | pront_integration/pront_client.py:213 | `strftime('%H:%M:%S')` yields eight characters, colons at positions 2 and 5 and digits elsewhere. |
| ProntClient.TwoDigitsValue | pront_integration/pront_client.py:213 | Reading the two digits back gives the number printed. |
| ProntClient.FormatClockRoundTrip | pront_integration/pront_client.py:213 | Parsing a formatted clock gives back the same hours, minutes and seconds. |
| ProntClient.RegistrarPresenca | pront_integration/pront_client.py:192-225 | Attendance POSTs `action=registrar_presenca` with a five-field body. The time is the given one, or the current clock formatted when it is falsy. Type, patient, date and note are carried as given, and a missing type is sent as null. |
| ProntClient.ListarAniversariantes | pront_integration/pront_client.py:227-252 | Listing birthdays is a GET of `action=aniversariantes` in which month and day appear exactly when truthy. |
| ProntTools.ErrorText | pront_integration/pront_tools.py:187 | A missing `error` reads as the unknown-error text, and a string error is shown as is. |
| ProntTools.CreatedId | pront_integration/pront_tools.py:251 | Reading `data.get('id')` fails exactly when `data` is JSON null. An absent `data` or `id` shows as `None`, and a present `id` is shown as Python prints it. |
| ProntTools.RenderAll | pront_integration/pront_tools.py:197-217 | Rendering a list succeeds exactly when every item renders, item by item in order. A failure is the first failing item's error. |
| ProntTools.PatientBlock | pront_integration/pront_tools.py:197-217 | A rendered patient ends with the separator line. A patient without `numero` raises the `numero` KeyError. |
| ProntTools.AppointmentBlock | pront_integration/pront_tools.py:294-306 | A rendered appointment ends with the separator line. |
| ProntTools.BirthdayBlock | pront_integration/pront_tools.py:380-388 | A rendered birthday entry ends with the separator line. |
| ProntTools.ListingBlocks | pront_integration/pront_tools.py:197-217 | Only the first `limit` entries are rendered, each by its own block function. The listing fails exactly when one of those fails. |
| ProntTools.ConcatEndsWithSeparator | pront_integration/pront_tools.py:219 | Concatenated blocks that each end with the separator end with it too. |
| ProntTools.ListingTextStripped | pront_integration/pront_tools.py:219 | A successful non-empty listing is the header plus the blocks, right-stripped. |
| ProntTools.ListingTextReadsShownOnly | pront_integration/pront_tools.py:197-219 | The listing text depends only on the count and the entries shown. Entries past the limit never change it. |
| ProntTools.ListingTextFailure | pront_integration/pront_tools.py:186-222 | A listing reads as a failure exactly when the call raised, the backend said no, or the shown entries failed to render (the empty case only when its own text does). |
| ProntTools.ListedFailure | pront_integration/pront_tools.py:197-219 | A non-empty successful listing reads as a failure exactly when one of the shown entries fails to render. |
| ProntTools.NormalizeHorario | pront_integration/pront_tools.py:237-238 | A five-character time gets `:00` appended, and any other length is left alone. |
| ProntTools.NormalizeHorarioProperties | pront_integration/pront_tools.py:237-238 | `HH:MM` becomes `HH:MM:SS`, `HH:MM:SS` is kept, normalising is idempotent, and the first five characters never change. |
| ProntTools.NormalizeOptionalHorario | pront_integration/pront_tools.py:325-326 | Only a truthy time is normalised, and a time is given after exactly when it was given before. |
| ProntTools.BuscarPacientePront | pront_integration/pront_tools.py:176-222 | Without a client the text is the search error. A request is sent exactly when a client exists and some search key is given, and it is the client's search request. A raised call gives "❌ Erro ao buscar paciente: " and the message. A refusal gives "❌ Erro: " and the `error` text. An empty list gives the no-patients sentence. |
| ProntTools.AgendarConsultaPront | pront_integration/pront_tools.py:225-267 | A request is sent exactly when the client exists. It is the client's scheduling request with the normalised time. A missing client or a raised call gives "❌ Erro ao agendar consulta: " and the message. A refusal gives "❌ Erro ao agendar: " and the `error` text. A null `data` gives the same caught prefix and the `NoneType` attribute error. A success gives the success heading, then the id, patient and date, the given time cut to its first five characters, and the professional and note lines when given. |
| ProntTools.ConsultarAgendamentosPront | pront_integration/pront_tools.py:270-311 | A request is sent exactly when the client exists, and it is the client's appointment listing with the same filters. A missing client or a raised call gives "❌ Erro ao consultar agendamentos: " and the message. A refusal gives "❌ Erro: " and the `error` text. An empty list gives the no-appointments sentence. |
| ProntTools.RegistrarPresencaPront | pront_integration/pront_tools.py:314-354 | A request is sent exactly when the client exists. It is the client's attendance request with the normalised time and the given type, which is `PRESENCIAL` when the argument is omitted. A missing client or a raised call gives "❌ Erro ao registrar presença: " and the message. A refusal gives the same prefix and the `error` text. A null `data` gives that prefix and the `NoneType` attribute error. A success gives the success heading, then the id, patient and date. The time line shows the normalised time, or "Horário atual" when none was given. The type line shows `PRESENCIAL` when omitted, `None` when null, and the given text otherwise. The note line appears when a note is given. |
| ProntTools.RegistrarPresencaTipo | pront_integration/pront_tools.py:314-334 | The body's `tipo_atendimento` is `PRESENCIAL` when the argument is omitted, null when it is passed as null, and the given text otherwise. |
| ProntTools.MonthName | pront_integration/pront_tools.py:373-375 | `mes_nome[mes]` follows Python indexing of the 13-entry list. 0..12 index directly, -13..-1 count from the end, and anything else is an IndexError. |
| ProntTools.NoBirthdaysText | pront_integration/pront_tools.py:371-376 | The "no birthdays" text fails only for a given month outside -13..12, and otherwise is not a failure text. |
| ProntTools.NoBirthdays | pront_integration/pront_tools.py:371-376 | The sentence is "🎂 Nenhum aniversariante encontrado em ", the month's name (or "atual" when no month is given), " do dia " and the day when one is given, and a final period. A month outside -13..12 raises the list index error instead. |
| ProntTools.ListarAniversariantesPront | pront_integration/pront_tools.py:357-393 | A request is sent exactly when the client exists, and it is the client's birthday listing with the same month and day. A missing client or a raised call gives "❌ Erro ao listar aniversariantes: " and the message. A refusal gives "❌ Erro: " and the `error` text. An empty list gives the no-birthdays sentence, or the index error for an impossible month. |
| ProntTools.StartsWithMarker | pront_integration/pront_tools.py:187 | Text that begins with the failure marker stays a failure text whatever follows. |
| ProntTools.NoMarker | pront_integration/pront_tools.py:195 | A prefix that differs from the marker makes the whole text a non-failure. |
| ProntTools.PatientBlocksEndWithSeparator | pront_integration/pront_tools.py:197-217 | Every renderable patient block ends with the separator. |
| ProntTools.BuscarPacienteProntFailure | pront_integration/pront_tools.py:176-222 | The patient search reads as a failure exactly when the client is missing, no key was given, the call raised, the backend refused, or a shown patient failed to render. |
| ProntTools.ConsultarAgendamentosProntFailure | pront_integration/pront_tools.py:270-311 | The appointment listing reads as a failure exactly when the client is missing, the call raised, the backend refused, or a shown entry failed to render. |
| ProntTools.ListarAniversariantesProntFailure | pront_integration/pront_tools.py:357-393 | The birthday listing reads as a failure exactly in those cases, or when an empty answer names an impossible month. |
| ProntTools.AgendarConsultaProntFailure | pront_integration/pront_tools.py:225-267 | Scheduling reads as a failure exactly when the client is missing, the call raised, the backend refused, or a success carried a null `data`. |
| ProntTools.RegistrarPresencaProntFailure | pront_integration/pront_tools.py:314-354 | Registering attendance reads as a failure in exactly the corresponding cases. |
| ProntTools.EntryInStep | pront_integration/pront_tools.py:25-169 | Each catalog entry names an adapter. Its declared properties are that adapter's parameters in order, and its required list is exactly the parameters without a default. |
| ProntTools.CatalogInStep | pront_integration/pront_tools.py:400-406 | The catalog has five distinct names, these are exactly the keys of the function table, and every entry agrees with its adapter. |
| ProntTools.CatalogNamesDistinct | pront_integration/pront_tools.py:25-169 | No two catalog entries share a name. |
| ProntTools.CatalogNamesAreKeys | pront_integration/pront_tools.py:400-406 | The catalog's names are the keys of the function table. |
| Agente.DataUrlParts | agente/agente_service.py:245-247 | A data URL splits back into the mime type (JPEG when none is given) and the base64 payload. |
| Agente.MessageParts | agente/agente_service.py:235-253 | A stored message gives at most two parts. There is none exactly when it has neither text nor an image, the text comes first and the image data URL comes last. |
| Agente.ContentOf | agente/agente_service.py:255-259 | Several parts are sent as a list, and a single text part as a bare string. A single image part raises the `'text'` KeyError. |
| Agente.Entry | agente/agente_service.py:233-266 | A received message becomes a user entry and a sent message with a reply an assistant entry. The KeyError arises exactly for a received image without text. |
| Agente.HistoryOf | agente/agente_service.py:229-268 | The history has no more entries than messages read, all user or assistant. |
| Agente.History | agente/agente_service.py:229 | At most ten entries are ever produced. |
| Agente.ThenAssociative | agente/agente_service.py:229-268 | Chaining the contributions of message groups is associative. |
| Agente.HistoryOfAppend | agente/agente_service.py:229-268 | The history of a concatenation is the later group's contribution followed by the earlier one's, since the window is walked in reverse. |
| Agente.HistoryOfSingle | agente/agente_service.py:229-268 | A single message contributes its own entry, and appending one message puts its entry first. |
| Agente.HistorySkipsCurrent | agente/agente_service.py:230-231 | The message being answered is skipped wherever it sits in the window. |
| Agente.HistoryWindowOnly | agente/agente_service.py:229 | Messages past the first ten never affect the history. |
| Agente.HistoryReversed | agente/agente_service.py:229-268 | When every message yields an entry, the history is exactly those entries in reverse order. |
| Agente.CurrentContent | agente/agente_service.py:343-372 | The message being answered is sent like a history entry, or as `...` when it has no parts. |
| Agente.SystemPromptLines | agente/agente_service.py:206-219 | With single-line fields the system prompt splits into exactly the seven labelled lines, in order. |
| Agente.ConvertedTools | agente/agente_service.py:378-384 | Exactly the tools that converted are offered. |
| Agente.McpTools | agente/agente_service.py:391-400 | A tool is offered from MCP exactly when some connected client lists it. |
| Agente.OfferedTools | agente/agente_service.py:374-429 | No tool list is sent exactly when there are no registered tools, no MCP tools and no knowledge base. Otherwise registered tools come before MCP tools. |
| Agente.ParseMcpName | agente/agente_service.py:494-496 | A name parses exactly when `split('_', 2)` gives three parts with an integer middle, read over ASCII digits. The client id and tool name come from those parts, and joining them gives the name back. |
| Agente.IntToStringNoUnderscore | agente/agente_service.py:492-495 | A printed integer contains no underscore. |
| Agente.McpNameRoundTrip | agente/agente_service.py:492-496 | `mcp_<client>_<tool>` parses back to the same client id and tool name, even when the tool name has underscores. |
| Agente.RouteOf | agente/agente_service.py:491-513 | A name goes to MCP handling exactly when it starts with `mcp_`. It goes to the knowledge base exactly when it is the search tool, the agent has one and it is not an MCP name. |
| Agente.Contexts | agente/agente_service.py:546-551 | Each search hit gives one context, so a successful search has as many contexts as hits. |
| Agente.ContextsEach | agente/agente_service.py:546-551 | Each context is built from its own hit, in the hits' order. |
| Agente.ContextsFailure | agente/agente_service.py:546-566 | A failed search carries the error of one of its hits, and hits that can all be read never fail. |
| Agente.KnowledgeOutcome | agente/agente_service.py:517-566 | The search is called with `query` (default "") and `num_resultados` (default 3). A failed search, or a hit that cannot be read, gives `{"erro": "Erro ao buscar: " + message}`. Otherwise the `resultado` is `{sucesso: true, query, total_resultados: number of hits, contextos}`. Every outcome also carries `output: llm`. |
| Agente.Execute | agente/agente_service.py:486-575 | Arguments that do not decode and a missing name raise, as an LLM-processing error, before any executor is chosen. An MCP call returns the executor's result, and an executor error becomes the MCP error result. A malformed MCP name also becomes that error result. The knowledge-base tool gives `KnowledgeOutcome`. Only a registered tool can raise: its timeout gives the timeout text and any other exception the LLM-processing error with its message. |
| Agente.BadMcpNameReported | agente/agente_service.py:504-510 | A malformed MCP name reaches no executor. The model receives an `erro` result that goes to the model. |
| Agente.DeliveredNoticeText | agente/agente_service.py:610-616 | The notice for user-only output serialises to the exact `status`/`mensagem` JSON object. |
| Agente.ToolContent | agente/agente_service.py:593-617 | A result for the model is its JSON, followed by the instruction when one is given. A user-only result is replaced by the delivered notice. |
| Agente.Answer | agente/agente_service.py:577-617 | One call yields a `tool` message for that call's id and a usage record exactly when its execution returns. Otherwise it fails with that execution's error. |
| Agente.RunCalls | agente/agente_service.py:485-618 | A completed round has exactly one message and one usage record per call. |
| Agente.RunCallsContents | agente/agente_service.py:485-618 | Each message and usage record is its own call's answer, in call order. A failed round carries the error of one of its calls. |
| Agente.RunCallsOk | agente/agente_service.py:485-618 | A round whose every call can be answered completes. |
| Agente.ToolMessages | agente/agente_service.py:485-618 | Each `tool` message of a completed round answers its own call's id, and every execution returned. A failed round carries one execution's error. If registered tools never raise and every call is readable, every round completes. |
| Agente.Round | agente/agente_service.py:441-649 | A tool round adds the assistant turn and one tool message per call. An answer with content adds the assistant turn and ends with that content. A timeout of the model gives the timeout text, and a final answer with null content fails on `len`. Every failure is the timeout or LLM-error text. |
| Agente.StepperShaped | agente/agente_service.py:441-627 | Every round of the service hands on a state of the shape the loop relies on: one more round, one assistant turn, one tool message per call, and the answer text in the final turn. |
| Agente.Run | agente/agente_service.py:436-441 | The loop uses at most its budget of rounds and at least one. The message count grows by one per round plus one per tool call, and failures keep their form. |
| Agente.RunFinished | agente/agente_service.py:623-627 | A round that answers ends the loop with the state that round left. |
| Agente.RunContinues | agente/agente_service.py:620-622 | A tool round hands over to the next round with one fewer iteration left. |
| Agente.EndsAfterRound | agente/agente_service.py:441-627 | A run that ends as recorded after one more round also ends as recorded from before it. |
| Agente.RunEnding | agente/agente_service.py:441-627 | With rounds of that shape, a finished loop ends on a tool message (budget exhausted) or on the assistant turn whose content is the final text. |
| Agente.ServiceRunEnding | agente/agente_service.py:441-627 | The service's own loop ends that way. |
| Agente.FirstAnswerEnds | agente/agente_service.py:623-627 | If the first reply calls no tools and has content, the loop ends after one round with that content. |
| Agente.RoundContinues | agente/agente_service.py:482-622 | If the model always calls tools with readable calls and registered tools never raise, every round continues. |
| Agente.RunExhausts | agente/agente_service.py:436-441 | When every round continues, the loop uses up its whole budget and the answer stays empty. |
| Agente.AlwaysToolsExhausts | agente/agente_service.py:436-441 | A model that always calls tools uses up the whole budget, and the final text stays empty. |
| Agente.Opening | agente/agente_service.py:362-372 | The first round's messages are the system prompt, then at most ten history entries, then the current user message. |
| Agente.ProcessMessage | agente/agente_service.py:292-640 | Without an agent the call fails with the no-agent text. A failure building the opening messages is returned as it is. Otherwise the result is the loop (`Converse`) run on those messages. A success used 1 to 10 rounds and reports tools only when some were used. |
| Agente.Converse | agente/agente_service.py:436-640 | The loop, from the opening messages, succeeds with 1 to 10 rounds and reports tools only when some were used. Its text and token totals are stated by `ProcessFirstAnswer`, `ToolsThenAnswer` and `ProcessExhausts` for one round, two rounds and all ten. |
| Agente.ProcessFirstAnswer | agente/agente_service.py:459-640 | A first reply without tool calls is the whole answer: its content is the text, its token counts are the totals, one round was used and no tools are reported. |
| Agente.ToolsThenAnswer | agente/agente_service.py:436-640 | A first reply whose tool calls all run, followed by a reply without tool calls, takes two rounds. The text is the second reply's content, the token totals are the sums of both replies' counts, and the first round's tool usages are reported. |
| Agente.ProcessNullAnswer | agente/agente_service.py:623-649 | A first reply without tool calls whose content is null fails the message with the LLM-processing error for `len(None)`. |
| Agente.ProcessTimeout | agente/agente_service.py:440-643 | A model call that times out fails the message with the timeout text. |
| Agente.ToolTimeoutStops | agente/agente_service.py:567-643 | A registered tool that times out in a round's first call ends the loop with the timeout text, not the LLM-processing error. |
| Agente.ProcessExhausts | agente/agente_service.py:436-640 | A model that always calls tools, with registered tools that never raise, uses all ten rounds: the text is empty and the tools used are reported. |
| Agente.Create | agente/agente_service.py:53-65 | Creation fails exactly when the session already has that code, with the duplicate-code message. Otherwise the new agent is stored under the next id. |
| Agente.Apply | agente/agente_service.py:82-83 | Updating keeps the agent's id and session, and the code changes only when a new one is given. |
| Agente.Modify | agente/agente_service.py:67-87 | An unknown id gives no agent. A change to a code taken in the session fails with the duplicate message. Otherwise only that agent is replaced. |
| Agente.CreatePreserves | agente/agente_service.py:56-65 | Creating keeps ids as keys and codes unique per session. |
| Agente.ModifyPreserves | agente/agente_service.py:76-87 | Updating keeps ids as keys and codes unique per session. |
| Agente.FirstUnknown | agente/agente_service.py:119-123 | No unknown tool id is reported exactly when every id is known. A reported id is in the list and unknown. |
| Agente.SetTools | agente/agente_service.py:100-134 | More than 20 tools is refused first. The update succeeds exactly when the agent exists and every tool is known, and then it replaces that agent's list. |
| Agente.SetToolsKeepsLimit | agente/agente_service.py:106-107 | No agent ever ends up with more than 20 tools. |
| Json.Iterate | llm_providers/llm_providers_service.py:202-216 | Iterating a decoded value works exactly for lists, dicts and strings. A list yields its items, a dict its keys and a string its characters. |
| Json.ReprListContains | llm_providers/llm_providers_service.py:222 | If a string in a list contains a text, so does `str()` of the list. |
| Json.UnescapeEscape | agente/agente_service.py:593 | The string escaping of `json.dumps` can be undone. |
| LlmProviders.RemoveFirstSuffix | llm_providers/llm_providers_service.py:116-120 | Removing a suffix leaves a prefix of the URL. |
| LlmProviders.RemoveFirstSuffixSpec | llm_providers/llm_providers_service.py:116-120 | When the k-th endpoint is the first one the URL ends with, exactly that endpoint is removed. |
| LlmProviders.RemoveNoSuffix | llm_providers/llm_providers_service.py:116-120 | A URL that ends with none of the endpoints is kept. |
| LlmProviders.NormalizeBaseUrl | llm_providers/llm_providers_service.py:114-120 | The cleaned base URL is a prefix of the configured one. |
| LlmProviders.NormalizeNotIdempotent | llm_providers/llm_providers_service.py:116-120 | Only one endpoint is removed, so cleaning `a/v1/v1` twice gives different results. |
| LlmProviders.EndpointLeadsBack | llm_providers/llm_providers_service.py:157-163 | A base URL with any of the five endpoints appended cleans back to that base. |
| LlmProviders.DerivedUrlsLeadBack | llm_providers/llm_providers_service.py:171-172 | Every URL the service derives cleans back to the base it came from. |
| LlmProviders.IdsOf | llm_providers/llm_providers_service.py:132-134 | No more ids than entries are collected. |
| LlmProviders.IdsOfAppend | llm_providers/llm_providers_service.py:132-134 | Ids of a concatenation are the ids of each part, in order, and an error in the first part wins. |
| LlmProviders.IdsOfOne | llm_providers/llm_providers_service.py:133-134 | One entry contributes its `id` when it has one and nothing when it has none; an entry on which `in` or `model["id"]` raises abandons the whole listing. |
| LlmProviders.ModelIds | llm_providers/llm_providers_service.py:122-140 | No answer, a non-2xx status or an unreadable body gives the empty list. In a 2xx dict body, a `data` that cannot be iterated, or an entry on which `in` or `model["id"]` raises, also gives the empty list. A `data` list that can be walked gives that list's ids. |
| LlmProviders.ModelIdsOf | llm_providers/llm_providers_service.py:128-140 | A body that is not a dict, or has no `data`, gives the empty list. So does a `data` that cannot be iterated, or an entry on which `in` or `model["id"]` raises. A `data` list that can be walked gives its ids. |
| LlmProviders.IdsOfObjects | llm_providers/llm_providers_service.py:131-134 | A list of dicts never makes the extraction fail. |
| LlmProviders.IdsOfKeyed | llm_providers/llm_providers_service.py:131-134 | A list of dicts that all carry an `id` gives exactly those ids, one per entry, in order. |
| LlmProviders.Detect | llm_providers/llm_providers_service.py:177-196 | A server is detected exactly when one of the two probes answered 200. |
| LlmProviders.Contacted | llm_providers/llm_providers_service.py:177-192 | The first endpoint is always asked, and at most the second besides. |
| LlmProviders.DetectOrder | llm_providers/llm_providers_service.py:177-192 | A 200 from the OpenAI endpoint wins whatever Ollama would say, and only then is Ollama not asked. Ollama is detected only when OpenAI gave no 200. |
| LlmProviders.DetectFailure | llm_providers/llm_providers_service.py:242-254 | With no 200 the error shows the last response received (Ollama's, else OpenAI's), or "Nenhuma resposta do servidor" with status N/A. |
| LlmProviders.OllamaImagesLlava | llm_providers/llm_providers_service.py:207-208 | An Ollama model takes images exactly when its lower-cased name contains `llava` (`bakllava` adds nothing). |
| LlmProviders.ImagesIgnoreCase | llm_providers/llm_providers_service.py:207-221 | The image flags ignore the case of the model name. |
| LlmProviders.ToolsCapability | llm_providers/llm_providers_service.py:222 | A `tools` entry among an OpenAI model's capabilities marks it as tool-capable. |
| LlmProviders.OllamaModel | llm_providers/llm_providers_service.py:202-213 | An entry is read exactly when it is a dict whose `details` is a dict and whose `name` is a string. Such a model never supports tools, its id and name are both its `name`, and it takes images exactly when that name contains `llava`. |
| LlmProviders.OpenAiModel | llm_providers/llm_providers_service.py:216-226 | An entry is read exactly when it is a dict whose `id` is a string. Its id and name are both that `id`, its context is `context_length`, it takes images exactly when the lower-cased id contains `vision`, it offers tools exactly when `str()` of its capabilities contains `tools`, and size and quantisation are null. |
| LlmProviders.ModelsFrom | llm_providers/llm_providers_service.py:202-216 | One model per listed entry. |
| LlmProviders.ModelsFromEach | llm_providers/llm_providers_service.py:202-226 | The list is read exactly when every entry is. Each model is that entry's own reading, in order. |
| LlmProviders.TestConnection | llm_providers/llm_providers_service.py:143-273 | An unknown provider gets "Provedor não encontrado" and nothing changes. Otherwise the provider ends active exactly on success, and exactly then are its cached models replaced, by the models reported. |
| LlmProviders.TestConnectionSucceeds | llm_providers/llm_providers_service.py:194-241 | A test succeeds exactly when a server was detected and its model list was read. The message names the kind and the count, and the endpoints asked are the detection's. |
| LlmProviders.TestConnectionFails | llm_providers/llm_providers_service.py:242-273 | Without a 200 the failed test reports the status and text of the latest answer received. With a 200 whose body or model list cannot be read it reports `Erro: ` and that error. |
| LlmProviders.Record | llm_providers/llm_providers_service.py:418-433 | Each update adds one to the total and one to the successes or the errors. |
| LlmProviders.RecordBalanced | llm_providers/llm_providers_service.py:429-433 | `total == sucesso + erro` is preserved by every update. |
| LlmProviders.NewStatsBalanced | llm_providers/llm_providers_service.py:425-427 | A fresh record, with its counters at zero as assumed under Left out, is balanced and has no requests. |
| LlmProviders.AttemptOf | llm_providers/llm_providers_service.py:352-397 | A request gets no answer exactly when neither endpoint answered 200. It is answered exactly when a server answered 200 with a body that reads as that server's reply. An answer carries the requested model. |
| LlmProviders.SendRequest | llm_providers/llm_providers_service.py:306-416 | A missing or inactive provider is refused before any request and leaves the counters alone. An answer carries the requested model. |
| LlmProviders.FailedRequestCountsTwice | llm_providers/llm_providers_service.py:408-416 | A request that got no 200 adds two to the total and two errors. |
| LlmProviders.SendCounts | llm_providers/llm_providers_service.py:387-416 | A successful request counts once, as a success, and the counters stay balanced. Success means a server answered 200 with a readable reply. |
| LlmProviders.SendRequestOnce | llm_providers/llm_providers_service.py:306-416 | The corrected request: the same refusals and answers as the code. |
| LlmProviders.SendRequestOnceCounts | llm_providers/llm_providers_service.py:399-416 | Corrected, every request to an active provider adds exactly one to the total, as a success exactly when it succeeded, and gives the same answer as the code. |

## Findings

| source | as written | input that shows it | evidently intended | confidence | as-written member | corrected member |
|---|---|---|---|---|---|---|
| llm_providers/llm_providers_service.py:408-416 | When neither endpoint answers 200, the failure is counted at line 409. Then the exception raised at line 412 is caught at line 414 and counted again. | An active provider whose `/v1/chat/completions` and `/api/chat` both answer 500. The total rises by 2 and the errors by 2. | One request, one count | high; not executed | LlmProviders.FailedRequestCountsTwice | LlmProviders.SendRequestOnceCounts |

## Left out

- HTTP, JSON decoding and async. The answers of `httpx` calls are inputs (`Probe` values and `Reply` envelopes), with the decoded body or the decoding error, and raised exceptions are `Err` messages.
- An `httpx` response is treated as truthy whenever one was received, so `not response` means "no response"; `raise_for_status` fails on every non-2xx status.
- The database. Stored agents, tool links, model caches and provider statistics are values passed in and returned; `obter_*`, `listar_*`, `deletar` and `_salvar_modelos` are not separate members (the cache replacement is the `cached` field of `TestConnection`).
- The LLM, the MCP service, the RAG search and the registered-tool executor are function parameters; what they do inside is not part of this model, and the RAG metric registration (agente_service.py:533-543) is left out as pure bookkeeping.
- Clocks. `datetime.now()` in the Pront client is a parameter; `tempo_ms`, `tempo_resposta_ms`, `tempo_geracao_ms`, `ultimo_teste`, `ultima_requisicao` and the running average `tempo_medio_ms` (floating point) are not modelled.
- Model and sampling-parameter selection in `processar_mensagem` (agente_service.py:302-331): configuration lookups and float parsing, outside the loop's logic.
- `criar_agente_padrao` (agente_service.py:155-203): configuration defaults only; it is `criar` plus `atualizar_ferramentas`, both modelled.
- The contents of the request bodies sent to providers (payload fields, sampling options, `Authorization` and `Content-Type` headers).
- The `httpx.TimeoutException` branch of `testar_conexao` (lines 256-264): both probes swallow their own exceptions, so no timeout reaches it from the probes the model takes as input.
- The `get_pront_client` singleton (pront_tools.py:13-18) and all `print` logging.
- `repr()` escaping: `Json.Repr` and the `int()` error text quote strings with single quotes and do not escape quotes or backslashes inside them.
- Duplicate keys in a decoded JSON object: `Get` reads the first occurrence, where `json.loads` keeps the last.
- Tool-call arguments that decode to something other than a JSON object, or that arrive already decoded as a non-object, are not modelled; `args` is a list of fields or the decoder's error.
- pydantic validation of `ModeloLLM` and `RespostaLLM`: the fields are kept as the decoded JSON values, not coerced or rejected.
- LlmProviders.SendCounts: assumes `RespostaLLM` accepts the answer read. Its schema is not part of this model. If pydantic rejects the answer (a null content, say), the code has already counted a success at line 399. The handler at line 414 then counts an error as well.
- LlmProviders.NewStatsBalanced: assumes a new statistics row starts its three counters at zero. The column defaults of `EstatisticasProvedor` are declared outside the modelled files. If they are SQLAlchemy column defaults, which apply only at flush, the first `+= 1` at line 429 meets `None` and raises; the model does not represent that.
- Agente.ParseMcpName: Python's `int()` also accepts non-ASCII decimal digits, so `mcp_٥_x` names client 5. The model reads ASCII digits only and reports such a name as malformed.
- Floating-point JSON numbers: `Json` has integers only, so a float `num_resultados`, `context_length` or token count is not modelled.
- LlmProviders.ModelIds: the element type of the returned list is not checked to be a string.
- LlmProviders.ToolsCapability: states only the direction "a `tools` entry implies tool support"; the converse fails because `in` on `str()` of the list also matches `tools` inside other capability names.
- Agente.Run: its bounds are stated for any round function that keeps the shape of a round (`RoundShape`), so they hold for the service once `StepperShaped` is applied; the loop itself does not depend on which round function drives it.

=== FILE: agente.dfy ===
/**
  The agent service: the chat history handed to the model, the system prompt,
  the bounded tool-call loop with its routing of tool names (MCP, knowledge
  base, registered tools), and the rules that keep agent codes unique per
  session and tool lists within their limit. The LLM, the tool executors and
  the database are parameters: each is a function from its inputs to the
  result it would return.
 */
module Agente {
  import opened Common
  import opened Json

  // ---------------------------------------------------------------------------
  // Messages
  // ---------------------------------------------------------------------------

  const Received := "recebida"
  const Sent := "enviada"
  const ImageType := "imagem"
  const DefaultMime := "image/jpeg"

  /** How many stored messages the history reads, and how many LLM rounds the loop allows. */
  const HistoryWindow := 10
  const MaxIterations := 10

  /** A stored WhatsApp message, with the columns the history reads; `None` is SQL NULL. */
  datatype StoredMessage = StoredMessage(
    id: int,
    direcao: string,
    tipo: string,
    texto: Option<string>,
    imagemBase64: Option<string>,
    mimeType: Option<string>,
    respostaTexto: Option<string>)

  datatype Part = TextPart(text: string) | ImagePart(url: string)

  /** A user message's content: a bare string, or a list of parts. */
  datatype Content = Plain(text: string) | Parts(parts: seq<Part>)

  /**
    A tool call as the model returned it. `name` is `None` when the call has
    no function name; `args` is `arguments` after `json.loads`, or the
    message of the error the decoder raised.
   */
  datatype ToolCall = ToolCall(id: Option<string>, name: Option<string>, arguments: Json,
                               args: Result<seq<(string, Json)>>)

  datatype ChatMessage =
    | System(text: string)
    | User(content: Content)
    /** An assistant reply taken from the stored history. */
    | Assistant(text: string)
    /** An assistant turn produced in the loop, with its `tool_calls` entry. */
    | AssistantTurn(contentText: Option<string>, toolCalls: Option<seq<ToolCall>>)
    | Tool(toolCallId: Option<string>, result: string)

  /** `data:<mime>;base64,<payload>`, the mime type defaulting to JPEG. */
  function DataUrl(mime: Option<string>, payload: string): string {
    "data:" + (if Given(mime) then mime.value else DefaultMime) + ";base64," + payload
  }

  /**
    The URL can be taken apart again: splitting after `data:` at the first
    `;` gives the mime type and `base64,` followed by the payload.
   */
  lemma {:induction false} DataUrlParts(mime: Option<string>, payload: string)
    requires Given(mime) ==> ';' !in mime.value
    ensures var m := if Given(mime) then mime.value else DefaultMime;
            SplitAtMost(DataUrl(mime, payload)[5..], ';', 1) == [m, "base64," + payload]
  {
    var m := if Given(mime) then mime.value else DefaultMime;
    var b := "base64," + payload;
    var u := DataUrl(mime, payload);
    assert u == "data:" + (m + ";base64," + payload);
    assert u[5..] == m + ";base64," + payload;
    assert m + ";base64," + payload == m + [';'] + b;
    assert Join([m, b], ';') == m + [';'] + b;
    SplitAtMostJoin([m, b], ';');
  }

  /** The parts of a message: its text when truthy, then its image when it is an image message. */
  function MessageParts(m: StoredMessage): (ps: seq<Part>)
    ensures |ps| <= 2
    ensures |ps| == 0 <==> !Given(m.texto) && !(m.tipo == ImageType && Given(m.imagemBase64))
    ensures Given(m.texto) ==> ps[0] == TextPart(m.texto.value)
    ensures m.tipo == ImageType && Given(m.imagemBase64)
            ==> ps[|ps| - 1] == ImagePart(DataUrl(m.mimeType, m.imagemBase64.value))
  {
    (if Given(m.texto) then [TextPart(m.texto.value)] else [])
    + (if m.tipo == ImageType && Given(m.imagemBase64)
       then [ImagePart(DataUrl(m.mimeType, m.imagemBase64.value))] else [])
  }

  const TextKeyError := KeyErrorText("text")

  /**
    `conteudo if len(conteudo) > 1 else conteudo[0]["text"]`: a single image
    part has no `text` key, which raises.
   */
  function ContentOf(ps: seq<Part>): (r: Result<Content>)
    requires |ps| > 0
    ensures |ps| > 1 ==> r == Ok(Parts(ps))
    ensures |ps| == 1 && ps[0].TextPart? ==> r == Ok(Plain(ps[0].text))
    ensures r.Err? <==> |ps| == 1 && ps[0].ImagePart?
    ensures r.Err? ==> r.msg == TextKeyError
  {
    if |ps| > 1 then Ok(Parts(ps))
    else match ps[0]
      case TextPart(t) => Ok(Plain(t))
      case ImagePart(_) => Err(TextKeyError)
  }

  /**
    What one stored message contributes to the history: a user message for
    a received message with a text or an image, an assistant message for a
    sent message with a truthy reply, nothing otherwise. An image-only
    received message raises.
   */
  function Entry(m: StoredMessage): (r: Result<Option<ChatMessage>>)
    ensures r.Err? <==> m.direcao == Received && !Given(m.texto) && m.tipo == ImageType && Given(m.imagemBase64)
    ensures r.Err? ==> r.msg == TextKeyError
    ensures r.Ok? && r.value.Some? && r.value.value.User? <==>
              r.Ok? && m.direcao == Received && |MessageParts(m)| > 0
    ensures r.Ok? && r.value.Some? && r.value.value.Assistant? <==>
              m.direcao != Received && m.direcao == Sent && Given(m.respostaTexto)
    ensures r.Ok? && r.value.Some? ==> r.value.value.User? || (m.respostaTexto.Some? && r.value.value == Assistant(m.respostaTexto.value))
  {
    if m.direcao == Received then
      var ps := MessageParts(m);
      if |ps| == 0 then Ok(None)
      else
        var c :- ContentOf(ps);
        Ok(Some(User(c)))
    else if m.direcao == Sent && Given(m.respostaTexto) then Ok(Some(Assistant(m.respostaTexto.value)))
    else Ok(None)
  }

  function Emit(e: Option<ChatMessage>): seq<ChatMessage> {
    if e.Some? then [e.value] else []
  }

  /**
    The history of a window of stored messages, read from its last message
    to its first; the message being answered contributes nothing, and the
    first failure met in that order is the one raised.
   */
  function HistoryOf(window: seq<StoredMessage>, current: int): (r: Result<seq<ChatMessage>>)
    ensures r.Ok? ==> |r.value| <= |window|
    ensures r.Ok? ==> forall i :: 0 <= i < |r.value| ==> r.value[i].User? || r.value[i].Assistant?
  {
    if |window| == 0 then Ok([])
    else
      var m := window[|window| - 1];
      var e :- if m.id == current then Ok(None) else Entry(m);
      var rest :- HistoryOf(window[..|window| - 1], current);
      Ok(Emit(e) + rest)
  }

  /** `construir_historico_mensagens`: the first ten stored messages, in reverse. */
  function History(msgs: seq<StoredMessage>, current: int): (r: Result<seq<ChatMessage>>)
    ensures r.Ok? ==> |r.value| <= HistoryWindow && |r.value| <= |msgs|
  {
    HistoryOf(Take(msgs, HistoryWindow), current)
  }

  /** What one message contributes, the message being answered contributing nothing. */
  function Contribution(m: StoredMessage, current: int): Result<seq<ChatMessage>> {
    if m.id == current then Ok([])
    else match Entry(m)
      case Err(e) => Err(e)
      case Ok(e) => Ok(Emit(e))
  }

  /** Appending `b`'s history in front of `a`'s, the later part's failure winning. */
  function Then(hb: Result<seq<ChatMessage>>, ha: Result<seq<ChatMessage>>): Result<seq<ChatMessage>> {
    match hb
    case Err(e) => Err(e)
    case Ok(xb) =>
      match ha
      case Err(e) => Err(e)
      case Ok(xa) => Ok(xb + xa)
  }

  lemma {:induction false} ThenAssociative(x: Result<seq<ChatMessage>>, y: Result<seq<ChatMessage>>, z: Result<seq<ChatMessage>>)
    ensures Then(Then(x, y), z) == Then(x, Then(y, z))
  {
    if x.Ok? && y.Ok? && z.Ok? {
      assert (x.value + y.value) + z.value == x.value + (y.value + z.value);
    }
  }

  /**
    History reverses the window: the history of `a + b` is the history of
    `b` followed by the history of `a`, and a single message contributes
    exactly its own entry.
   */
  lemma {:induction false} HistoryOfAppend(a: seq<StoredMessage>, b: seq<StoredMessage>, current: int)
    ensures HistoryOf(a + b, current) == Then(HistoryOf(b, current), HistoryOf(a, current))
    decreases |b|
  {
    if |b| == 0 {
      assert a + b == a;
      if HistoryOf(a, current).Ok? {
        assert [] + HistoryOf(a, current).value == HistoryOf(a, current).value;
      }
    } else {
      var last := b[|b| - 1];
      var front := b[..|b| - 1];
      assert a + b == (a + front) + [last];
      assert b == front + [last];
      HistoryOfAppend(a, front, current);
      HistoryOfSingle(last, current);
      assert HistoryOf(a + b, current) == Then(Contribution(last, current), HistoryOf(a + front, current));
      assert HistoryOf(b, current) == Then(Contribution(last, current), HistoryOf(front, current));
      ThenAssociative(Contribution(last, current), HistoryOf(front, current), HistoryOf(a, current));
    }
  }

  lemma {:induction false} HistoryOfSingle(m: StoredMessage, current: int)
    ensures HistoryOf([m], current) == Contribution(m, current)
    ensures forall rest: seq<StoredMessage> {:trigger HistoryOf(rest + [m], current)} ::
              HistoryOf(rest + [m], current) == Then(Contribution(m, current), HistoryOf(rest, current))
  {
    assert [m][..0] == [];
    if Contribution(m, current).Ok? {
      assert Contribution(m, current).value + [] == Contribution(m, current).value;
    }
    forall rest: seq<StoredMessage>
      ensures HistoryOf(rest + [m], current) == Then(Contribution(m, current), HistoryOf(rest, current))
    {
      assert (rest + [m])[..|rest|] == rest;
      if HistoryOf(rest, current).Ok? && Contribution(m, current).Ok? {
        var e := if m.id == current then Ok(None) else Entry(m);
        assert Emit(e.value) == Contribution(m, current).value;
      }
    }
  }

  /** The message being answered never shows up: removing it leaves the history unchanged. */
  lemma {:induction false} HistorySkipsCurrent(a: seq<StoredMessage>, m: StoredMessage, b: seq<StoredMessage>, current: int)
    requires m.id == current
    ensures HistoryOf(a + [m] + b, current) == HistoryOf(a + b, current)
  {
    HistoryOfAppend(a + [m], b, current);
    HistoryOfAppend(a, [m], current);
    HistoryOfAppend(a, b, current);
    HistoryOfSingle(m, current);
    if HistoryOf(a, current).Ok? {
      assert [] + HistoryOf(a, current).value == HistoryOf(a, current).value;
    }
  }

  /** Messages past the tenth are never read. */
  lemma {:induction false} HistoryWindowOnly(msgs: seq<StoredMessage>, more: seq<StoredMessage>, current: int)
    requires |msgs| >= HistoryWindow
    ensures History(msgs + more, current) == History(msgs, current)
  {
    assert Take(msgs + more, HistoryWindow) == Take(msgs, HistoryWindow);
  }

  /**
    When every message of the window contributes one entry, the history
    holds them all, newest stored position first.
   */
  lemma {:induction false} HistoryReversed(window: seq<StoredMessage>, current: int)
    requires forall i :: 0 <= i < |window| ==> window[i].id != current && Entry(window[i]).Ok?
                                                && Entry(window[i]).value.Some?
    ensures HistoryOf(window, current).Ok?
    ensures |HistoryOf(window, current).value| == |window|
    ensures forall j :: 0 <= j < |window| ==>
              HistoryOf(window, current).value[j] == Entry(window[|window| - 1 - j]).value.value
  {
    if |window| > 0 {
      var front := window[..|window| - 1];
      HistoryReversed(front, current);
      var h := HistoryOf(window, current).value;
      var hf := HistoryOf(front, current).value;
      assert h == [Entry(window[|window| - 1]).value.value] + hf;
      forall j | 0 < j < |window|
        ensures h[j] == Entry(window[|window| - 1 - j]).value.value
      {
        assert h[j] == hf[j - 1];
        assert front[|front| - 1 - (j - 1)] == window[|window| - 1 - j];
      }
    }
  }

  const Ellipsis := "..."

  /** The content of the message being answered; with no text and no image it is `...`. */
  function CurrentContent(m: StoredMessage): (r: Result<Content>)
    ensures |MessageParts(m)| == 0 ==> r == Ok(Plain(Ellipsis))
    ensures |MessageParts(m)| > 0 ==> r == ContentOf(MessageParts(m))
  {
    var ps := MessageParts(m);
    if |ps| == 0 then Ok(Plain(Ellipsis)) else ContentOf(ps)
  }

  // ---------------------------------------------------------------------------
  // System prompt
  // ---------------------------------------------------------------------------

  /** The agent's persona columns, `None` when NULL. */
  datatype Profile = Profile(
    papel: Option<string>,
    objetivo: Option<string>,
    politicas: Option<string>,
    tarefa: Option<string>,
    objetivoExplicito: Option<string>,
    publico: Option<string>,
    restricoes: Option<string>)

  /** How an f-string renders an optional text column. */
  function PyText(o: Option<string>): string {
    if o.Some? then o.value else "None"
  }

  function Labelled(caption: string, o: Option<string>): string {
    caption + PyText(o) + "."
  }

  /** The seven lines of the prompt, one per persona column, in order. */
  function PromptLines(p: Profile): seq<string> {
    [Labelled("Você é: ", p.papel),
     Labelled("Objetivo: ", p.objetivo),
     Labelled("Políticas: ", p.politicas),
     Labelled("Tarefa: ", p.tarefa),
     Labelled("Objetivo explícito: ", p.objetivoExplicito),
     Labelled("Público/usuário-alvo: ", p.publico),
     Labelled("Restrições e políticas: ", p.restricoes)]
  }

  /** `construir_system_prompt`. */
  function SystemPrompt(p: Profile): string {
    Join(PromptLines(p), '\n')
  }

  predicate SingleLine(o: Option<string>) {
    o.Some? ==> '\n' !in o.value
  }

  /** With single-line columns, the prompt has exactly its seven lines, in order. */
  lemma {:induction false} SystemPromptLines(p: Profile)
    requires SingleLine(p.papel) && SingleLine(p.objetivo) && SingleLine(p.politicas) && SingleLine(p.tarefa)
    requires SingleLine(p.objetivoExplicito) && SingleLine(p.publico) && SingleLine(p.restricoes)
    ensures SplitAtMost(SystemPrompt(p), '\n', 6) == PromptLines(p)
    ensures |PromptLines(p)| == 7
  {
    var ls := PromptLines(p);
    LabelledSingleLine("Você é: ", p.papel);
    LabelledSingleLine("Objetivo: ", p.objetivo);
    LabelledSingleLine("Políticas: ", p.politicas);
    LabelledSingleLine("Tarefa: ", p.tarefa);
    LabelledSingleLine("Objetivo explícito: ", p.objetivoExplicito);
    LabelledSingleLine("Público/usuário-alvo: ", p.publico);
    assert forall i :: 0 <= i < |ls| - 1 ==> '\n' !in ls[i];
    SplitAtMostJoin(ls, '\n');
  }

  lemma {:induction false} LabelledSingleLine(caption: string, o: Option<string>)
    requires forall i :: 0 <= i < |caption| ==> caption[i] != '\n'
    requires SingleLine(o)
    ensures '\n' !in Labelled(caption, o)
  {
    assert Labelled(caption, o) == caption + PyText(o) + ".";
  }

  // ---------------------------------------------------------------------------
  // Offered tools
  // ---------------------------------------------------------------------------

  const KnowledgeTool := "buscar_base_conhecimento"

  /** A tool definition in OpenAI format, identified by its function name. */
  datatype ToolDef = ToolDef(name: string)

  /** An MCP client of the agent: whether it is connected, and its active tools already converted. */
  datatype McpClient = McpClient(connected: bool, tools: seq<ToolDef>)

  function ConvertedTools(converted: seq<Option<ToolDef>>): (r: seq<ToolDef>)
    ensures |r| <= |converted|
    ensures forall t :: t in r <==> Some(t) in converted
  {
    if |converted| == 0 then []
    else (if converted[0].Some? then [converted[0].value] else []) + ConvertedTools(converted[1..])
  }

  function McpTools(clients: seq<McpClient>): (r: seq<ToolDef>)
    ensures forall t :: t in r <==> exists i :: 0 <= i < |clients| && clients[i].connected && t in clients[i].tools
  {
    if |clients| == 0 then []
    else
      var rest := McpTools(clients[1..]);
      assert forall i :: 1 <= i < |clients| ==> clients[i] == clients[1..][i - 1];
      (if clients[0].connected then clients[0].tools else []) + rest
  }

  /**
    The `tools` argument of every LLM call: `None` unless the agent has
    registered tools, a connected MCP client with tools, or a knowledge base.
    Registered tools whose conversion is empty are dropped, yet still turn
    `None` into a list.
   */
  function OfferedTools(registered: seq<Option<ToolDef>>, clients: seq<McpClient>, hasKnowledgeBase: bool)
    : (r: Option<seq<ToolDef>>)
    ensures r.None? <==> |registered| == 0 && |McpTools(clients)| == 0 && !hasKnowledgeBase
    ensures r.Some? ==> r.value == ConvertedTools(registered) + McpTools(clients)
                                   + (if hasKnowledgeBase then [ToolDef(KnowledgeTool)] else [])
  {
    var base: Option<seq<ToolDef>> := if |registered| > 0 then Some(ConvertedTools(registered)) else None;
    var withMcp := if |McpTools(clients)| > 0 then Some((if base.Some? then base.value else []) + McpTools(clients))
                   else base;
    if hasKnowledgeBase then Some((if withMcp.Some? then withMcp.value else []) + [ToolDef(KnowledgeTool)])
    else withMcp
  }

  // ---------------------------------------------------------------------------
  // Tool names
  // ---------------------------------------------------------------------------

  const McpPrefix := "mcp_"
  const McpErrorPrefix := "Erro ao executar tool MCP: "

  function IntLiteralError(s: string): string {
    "invalid literal for int() with base 10: '" + s + "'"
  }

  const IndexErrorText := "list index out of range"

  /** `function_name.split("_", 2)`, then `int(parts[1])` and `parts[2]`. */
  function ParseMcpName(name: string): (r: Result<(int, string)>)
    ensures var parts := SplitAtMost(name, '_', 2);
            r.Ok? <==> |parts| == 3 && ParseInt(parts[1]).Some?
    ensures var parts := SplitAtMost(name, '_', 2);
            r.Ok? ==> r.value == (ParseInt(parts[1]).value, parts[2]) && Join(parts, '_') == name
  {
    var parts := SplitAtMost(name, '_', 2);
    JoinSplitAtMost(name, '_', 2);
    if |parts| < 2 then Err(IndexErrorText)
    else match ParseInt(parts[1])
      case None => Err(IntLiteralError(parts[1]))
      case Some(n) => if |parts| < 3 then Err(IndexErrorText) else Ok((n, parts[2]))
  }

  /** The name under which an MCP tool is offered. */
  function McpName(client: int, tool: string): string {
    McpPrefix + IntToString(client) + "_" + tool
  }

  lemma {:induction false} IntToStringNoUnderscore(i: int)
    ensures '_' !in IntToString(i)
  {
    var s := IntToString(i);
    if i < 0 {
      assert s == "-" + NatToString(-i);
      assert forall k :: 1 <= k < |s| ==> IsDigit(s[k]) by {
        forall k | 1 <= k < |s| ensures IsDigit(s[k]) {
          assert s[k] == NatToString(-i)[k - 1];
        }
      }
    }
  }

  /**
    Parsing the offered name gives back the client id and the tool name,
    even when the tool name itself contains underscores.
   */
  lemma {:induction false} McpNameRoundTrip(client: int, tool: string)
    ensures ParseMcpName(McpName(client, tool)) == Ok((client, tool))
  {
    var id := IntToString(client);
    IntToStringNoUnderscore(client);
    assert Join([id, tool], '_') == id + ['_'] + tool;
    assert Join(["mcp", id, tool], '_') == "mcp" + ['_'] + (id + ['_'] + tool);
    assert McpName(client, tool) == "mcp" + ['_'] + (id + ['_'] + tool);
    SplitAtMostJoin(["mcp", id, tool], '_');
    ParseIntRoundTrip(client);
  }

  /** Where a tool call goes. */
  datatype Route =
    | ToMcp(client: int, tool: string)
    | McpNameError(msg: string)
    | ToKnowledgeBase
    | ToRegistered

  function RouteOf(name: string, hasKnowledgeBase: bool): (r: Route)
    ensures r.ToMcp? || r.McpNameError? <==> McpPrefix <= name
    ensures r.ToKnowledgeBase? <==> !(McpPrefix <= name) && name == KnowledgeTool && hasKnowledgeBase
  {
    if McpPrefix <= name then
      match ParseMcpName(name)
      case Ok((n, t)) => ToMcp(n, t)
      case Err(m) => McpNameError(m)
    else if name == KnowledgeTool && hasKnowledgeBase then ToKnowledgeBase
    else ToRegistered
  }

  // ---------------------------------------------------------------------------
  // Executing one tool call
  // ---------------------------------------------------------------------------

  /** The dict a tool execution returns (`resultado_completo`). */
  type Outcome = seq<(string, Json)>

  function Field(key: string, value: Json): (string, Json) { (key, value) }

  function McpFailure(msg: string): Outcome {
    [Field("resultado", JObject([Field("erro", JStr(McpErrorPrefix + msg))])),
     Field("output", JStr("llm")),
     Field("enviado_usuario", JBool(false))]
  }

  function KnowledgeFailure(msg: string): Outcome {
    [Field("resultado", JObject([Field("erro", JStr("Erro ao buscar: " + msg))])),
     Field("output", JStr("llm"))]
  }

  /** One search hit turned into `{"conteudo": ..., "fonte": ...}`. */
  function Context(hit: Json): Result<Json> {
    var h :- Fields(hit);
    var metadata :- Fields(Get(h, "metadata", JObject([])));
    Ok(JObject([Field("conteudo", Get(h, "context", JStr(""))), Field("fonte", Get(metadata, "source", JStr("")))]))
  }

  /** The hits turned into contexts one by one, in order; the first hit that cannot be read fails the search. */
  function Contexts(hits: seq<Json>): (r: Result<seq<Json>>)
    ensures r.Ok? ==> |r.value| == |hits|
  {
    if |hits| == 0 then Ok([])
    else
      var c :- Context(hits[0]);
      var rest :- Contexts(hits[1..]);
      Ok([c] + rest)
  }

  /** Each context is its own hit's, in the hits' order. */
  lemma {:induction false} ContextsEach(hits: seq<Json>)
    ensures var r := Contexts(hits);
            r.Ok? ==> forall i :: 0 <= i < |hits| ==> Context(hits[i]) == Ok(r.value[i])
  {
    if |hits| > 0 {
      ContextsEach(hits[1..]);
      var r := Contexts(hits);
      var rest := Contexts(hits[1..]);
      if r.Ok? {
        forall i | 0 <= i < |hits| ensures Context(hits[i]) == Ok(r.value[i]) {
          if i > 0 {
            assert hits[i] == hits[1..][i - 1];
            assert r.value[i] == rest.value[i - 1];
          }
        }
      }
    }
  }

  /** A failed search is the failure of some hit, and hits that can all be read never fail. */
  lemma {:induction false} ContextsFailure(hits: seq<Json>)
    ensures var r := Contexts(hits);
            r.Err? ==> exists i :: 0 <= i < |hits| && Context(hits[i]) == Err(r.msg)
    ensures (forall i :: 0 <= i < |hits| ==> Context(hits[i]).Ok?) ==> Contexts(hits).Ok?
  {
    if |hits| > 0 {
      ContextsFailure(hits[1..]);
      assert forall i :: 0 < i < |hits| ==> hits[i] == hits[1..][i - 1];
      var r := Contexts(hits);
      var rest := Contexts(hits[1..]);
      if r.Err? && Context(hits[0]).Ok? {
        var j :| 0 <= j < |hits[1..]| && Context(hits[1..][j]) == Err(rest.msg);
        assert Context(hits[j + 1]) == Err(r.msg);
      }
    }
  }

  /**
    The knowledge-base branch: search for `query` (default empty) with
    `num_resultados` (default 3), then report the contexts found; a failed
    search or an unreadable hit is reported as `Erro ao buscar: ...`, not raised.
   */
  function KnowledgeOutcome(args: seq<(string, Json)>, search: (Json, Json) -> Result<seq<Json>>): (o: Outcome)
    ensures |o| == 2 && o[1] == Field("output", JStr("llm"))
    ensures o[0].0 == "resultado"
    ensures var hits := search(Get(args, "query", JStr("")), Get(args, "num_resultados", JInt(3)));
            hits.Err? ==> o == KnowledgeFailure(hits.msg)
    ensures var hits := search(Get(args, "query", JStr("")), Get(args, "num_resultados", JInt(3)));
            hits.Ok? && Contexts(hits.value).Err? ==> o == KnowledgeFailure(Contexts(hits.value).msg)
    ensures var hits := search(Get(args, "query", JStr("")), Get(args, "num_resultados", JInt(3)));
            hits.Ok? && Contexts(hits.value).Ok? ==>
              var cs := Contexts(hits.value).value;
              o[0].1 == JObject([Field("sucesso", JBool(true)), Field("query", Get(args, "query", JStr(""))),
                                 Field("total_resultados", JInt(|hits.value|)), Field("contextos", JArray(cs))])
  {
    var query := Get(args, "query", JStr(""));
    var count := Get(args, "num_resultados", JInt(3));
    var found := match search(query, count)
      case Err(m) => Err(m)
      case Ok(hits) => Contexts(hits);
    match found
    case Err(m) => KnowledgeFailure(m)
    case Ok(cs) =>
      [Field("resultado", JObject([Field("sucesso", JBool(true)), Field("query", query),
                                   Field("total_resultados", JInt(|cs|)), Field("contextos", JArray(cs))])),
       Field("output", JStr("llm"))]
  }

  /** How a registered tool's execution ends: with its result dict, or by raising. */
  datatype ToolRun = Returned(outcome: Outcome) | RaisedTimeout | Raised(msg: string)

  /** The tool executors the loop calls. */
  datatype Executors = Executors(
    mcp: (int, string, seq<(string, Json)>) -> Result<Outcome>,
    search: (Json, Json) -> Result<seq<Json>>,
    registered: (string, seq<(string, Json)>) -> ToolRun)

  const TimeoutText := "Timeout ao conectar com OpenRouter"
  const LlmErrorPrefix := "Erro ao processar com LLM: "
  /** What Python says when `startswith` is called on a missing name. */
  const NoNameText := "'NoneType' object has no attribute 'startswith'"

  /** The call has a function name and its arguments decoded. */
  predicate Readable(call: ToolCall) {
    call.args.Ok? && call.name.Some?
  }

  /**
    Runs one tool call. Arguments that do not decode and a missing name
    raise before any executor is chosen. MCP and knowledge-base failures
    become an error outcome; what a registered tool raises propagates. An
    error carries the text the service fails with: the timeout text for a
    timeout, otherwise the LLM error prefix and the exception's message.
   */
  function Execute(call: ToolCall, hasKnowledgeBase: bool, ex: Executors): (r: Result<Outcome>)
    ensures call.args.Err? ==> r == Err(LlmErrorPrefix + call.args.msg)
    ensures call.args.Ok? && call.name.None? ==> r == Err(LlmErrorPrefix + NoNameText)
    ensures r.Err? ==> r.msg == TimeoutText || LlmErrorPrefix <= r.msg
    ensures r.Err? && Readable(call) ==> RouteOf(call.name.value, hasKnowledgeBase).ToRegistered?
    ensures Readable(call) && RouteOf(call.name.value, hasKnowledgeBase).ToMcp? ==>
              var route := RouteOf(call.name.value, hasKnowledgeBase);
              var sent := ex.mcp(route.client, route.tool, call.args.value);
              (sent.Ok? ==> r == sent) && (sent.Err? ==> r == Ok(McpFailure(sent.msg)))
    ensures Readable(call) && RouteOf(call.name.value, hasKnowledgeBase).ToKnowledgeBase? ==>
              r == Ok(KnowledgeOutcome(call.args.value, ex.search))
    ensures Readable(call) && RouteOf(call.name.value, hasKnowledgeBase).McpNameError? ==>
              r == Ok(McpFailure(RouteOf(call.name.value, hasKnowledgeBase).msg))
    ensures Readable(call) && RouteOf(call.name.value, hasKnowledgeBase).ToRegistered? ==>
              var run := ex.registered(call.name.value, call.args.value);
              (run.Returned? ==> r == Ok(run.outcome))
              && (run.RaisedTimeout? ==> r == Err(TimeoutText))
              && (run.Raised? ==> r == Err(LlmErrorPrefix + run.msg))
  {
    match call.args
    case Err(m) => Err(LlmErrorPrefix + m)
    case Ok(args) =>
      match call.name
      case None => Err(LlmErrorPrefix + NoNameText)
      case Some(name) =>
        match RouteOf(name, hasKnowledgeBase)
        case ToMcp(n, t) =>
          (match ex.mcp(n, t, args)
           case Err(m) => Ok(McpFailure(m))
           case Ok(o) => Ok(o))
        case McpNameError(m) => Ok(McpFailure(m))
        case ToKnowledgeBase => Ok(KnowledgeOutcome(args, ex.search))
        case ToRegistered =>
          match ex.registered(name, args)
          case Returned(o) => Ok(o)
          case RaisedTimeout => Err(TimeoutText)
          case Raised(m) => Err(LlmErrorPrefix + m)
  }

  /** A malformed MCP name never reaches an executor: the model gets an error result instead. */
  lemma {:induction false} BadMcpNameReported(call: ToolCall, hasKnowledgeBase: bool, ex: Executors)
    requires Readable(call) && McpPrefix <= call.name.value && ParseMcpName(call.name.value).Err?
    ensures Execute(call, hasKnowledgeBase, ex) == Ok(McpFailure(ParseMcpName(call.name.value).msg))
    ensures IsFailure(ResultFor(McpFailure(ParseMcpName(call.name.value).msg)))
    ensures SendsToModel(McpFailure(ParseMcpName(call.name.value).msg))
  {
    var o := McpFailure(ParseMcpName(call.name.value).msg);
    LookupFirst(o, 0);
    LookupFirst(o, 1);
    assert ResultFor(o).fields[0].0 == "erro";
  }

  // ---------------------------------------------------------------------------
  // Tool-result messages
  // ---------------------------------------------------------------------------

  const InstructionSeparator := "\n\nInstrução: "
  const DeliveredStatus := "enviado_ao_usuario"
  const DeliveredMessage := "Resultado enviado diretamente " + "ao usuário via WhatsApp"

  /** `resultado_completo.get("resultado", resultado_completo)`. */
  function ResultFor(o: Outcome): Json {
    Get(o, "resultado", JObject(o))
  }

  /** A result object carrying an `erro` entry. */
  predicate IsFailure(j: Json) {
    j.JObject? && "erro" in KeysOf(j.fields)
  }

  function OutputOf(o: Outcome): Json {
    Get(o, "output", JStr("llm"))
  }

  /** `output_type in ["llm", "both"]`. */
  predicate SendsToModel(o: Outcome) {
    OutputOf(o) == JStr("llm") || OutputOf(o) == JStr("both")
  }

  /** What the model is told when the result went straight to the user. */
  function DeliveredNotice(): Json {
    JObject([Field("status", JStr(DeliveredStatus)), Field("mensagem", JStr(DeliveredMessage))])
  }

  lemma {:induction false} DeliveredNoticeText()
    ensures Dumps(DeliveredNotice())
            == "{" + PlainMember("status", DeliveredStatus) + ", " + PlainMember("mensagem", DeliveredMessage) + "}"
  {
    NoticeKeysPlain();
    NoticeValuesPlain();
    DumpsPair("status", DeliveredStatus, "mensagem", DeliveredMessage);
  }

  lemma {:induction false} NoticeKeysPlain()
    ensures NothingToEscape("status") && NothingToEscape("mensagem")
  {
  }

  lemma {:induction false} NoticeValuesPlain()
    ensures NothingToEscape(DeliveredStatus) && NothingToEscape(DeliveredMessage)
  {
    NoticeHeadPlain();
    NoticeTailPlain();
    NothingToEscapeConcat("Resultado enviado diretamente ", "ao usuário via WhatsApp");
  }

  lemma {:induction false} NoticeHeadPlain()
    ensures NothingToEscape(DeliveredStatus) && NothingToEscape("Resultado enviado diretamente ")
  {
  }

  lemma {:induction false} NoticeTailPlain()
    ensures NothingToEscape("ao usuário via WhatsApp")
  {
  }

  predicate NothingToEscape(s: string) {
    forall i :: 0 <= i < |s| ==> !NeedsEscape(s[i])
  }

  lemma {:induction false} NothingToEscapeConcat(a: string, b: string)
    requires NothingToEscape(a) && NothingToEscape(b)
    ensures NothingToEscape(a + b)
  {
    forall i | 0 <= i < |a + b| ensures !NeedsEscape((a + b)[i]) {
      if i >= |a| {
        assert (a + b)[i] == b[i - |a|];
      }
    }
  }

  /** The content of the `tool` message for one outcome. */
  function ToolContent(o: Outcome): (c: string)
    ensures !SendsToModel(o) ==> c == Dumps(DeliveredNotice())
    ensures SendsToModel(o) && !JTruthy(Get(o, "post_instruction", JNull)) ==> c == Dumps(ResultFor(o))
    ensures SendsToModel(o) && Get(o, "post_instruction", JNull).JStr? && JTruthy(Get(o, "post_instruction", JNull))
            ==> c == Dumps(ResultFor(o)) + InstructionSeparator + Get(o, "post_instruction", JNull).s
  {
    var post := Get(o, "post_instruction", JNull);
    if SendsToModel(o) then
      Dumps(ResultFor(o)) + (if JTruthy(post) then InstructionSeparator + PyStr(post) else "")
    else Dumps(DeliveredNotice())
  }

  /** The usage record kept for every executed tool call. */
  datatype Usage = Usage(nome: Option<string>, argumentos: Json, resultado: Json, output: Json, enviadoUsuario: Json)

  function UsageOf(call: ToolCall, o: Outcome): Usage {
    Usage(call.name, call.arguments, ResultFor(o), OutputOf(o), Get(o, "enviado_usuario", JBool(false)))
  }

  /** The `tool` message and the usage record one call produces, or the error its execution raised. */
  function Answer(call: ToolCall, hasKnowledgeBase: bool, ex: Executors): (r: Result<(ChatMessage, Usage)>)
    ensures r.Ok? <==> Execute(call, hasKnowledgeBase, ex).Ok?
    ensures r.Ok? ==> r.value.0.Tool? && r.value.0.toolCallId == call.id
    ensures r.Err? ==> r == Err(Execute(call, hasKnowledgeBase, ex).msg)
  {
    var o :- Execute(call, hasKnowledgeBase, ex);
    Ok((Tool(call.id, ToolContent(o)), UsageOf(call, o)))
  }

  function Answerer(hasKnowledgeBase: bool, ex: Executors): ToolCall -> Result<(ChatMessage, Usage)> {
    call => Answer(call, hasKnowledgeBase, ex)
  }

  /**
    Runs the calls of one round in order, each answered by `answer`: every
    call appends exactly one message and one usage record, and the first
    failing call fails the round.
   */
  function RunCalls(calls: seq<ToolCall>, answer: ToolCall -> Result<(ChatMessage, Usage)>)
    : (r: Result<(seq<ChatMessage>, seq<Usage>)>)
    ensures r.Ok? ==> |r.value.0| == |calls| && |r.value.1| == |calls|
  {
    if |calls| == 0 then Ok(([], []))
    else
      var a :- answer(calls[0]);
      var rest :- RunCalls(calls[1..], answer);
      Ok(([a.0] + rest.0, [a.1] + rest.1))
  }

  /** Each message and usage record is the one `answer` gives for its call. */
  ghost predicate AnsweredBy(calls: seq<ToolCall>, answer: ToolCall -> Result<(ChatMessage, Usage)>,
                             msgs: seq<ChatMessage>, usages: seq<Usage>) {
    |msgs| == |calls| && |usages| == |calls|
    && forall i :: 0 <= i < |calls| ==>
         answer(calls[i]).Ok? && msgs[i] == answer(calls[i]).value.0 && usages[i] == answer(calls[i]).value.1
  }

  lemma {:induction false} AnsweredByCons(calls: seq<ToolCall>, answer: ToolCall -> Result<(ChatMessage, Usage)>,
                                        msgs: seq<ChatMessage>, usages: seq<Usage>)
    requires |calls| > 0 && answer(calls[0]).Ok?
    requires AnsweredBy(calls[1..], answer, msgs, usages)
    ensures AnsweredBy(calls, answer, [answer(calls[0]).value.0] + msgs, [answer(calls[0]).value.1] + usages)
  {
    var ms := [answer(calls[0]).value.0] + msgs;
    var us := [answer(calls[0]).value.1] + usages;
    forall i | 0 <= i < |calls|
      ensures answer(calls[i]).Ok? && ms[i] == answer(calls[i]).value.0 && us[i] == answer(calls[i]).value.1
    {
      if i > 0 {
        assert calls[i] == calls[1..][i - 1];
      }
    }
  }

  /**
    The message and the usage record of each call are that call's own
    answer; a round fails with the error of one of its calls.
   */
  lemma {:induction false} RunCallsContents(calls: seq<ToolCall>, answer: ToolCall -> Result<(ChatMessage, Usage)>)
    ensures var r := RunCalls(calls, answer); r.Ok? ==> AnsweredBy(calls, answer, r.value.0, r.value.1)
    ensures var r := RunCalls(calls, answer);
            r.Err? ==> exists i :: 0 <= i < |calls| && answer(calls[i]) == Err(r.msg)
  {
    if |calls| > 0 {
      RunCallsContents(calls[1..], answer);
      var r := RunCalls(calls, answer);
      var rest := RunCalls(calls[1..], answer);
      if r.Ok? {
        AnsweredByCons(calls, answer, rest.value.0, rest.value.1);
      } else if answer(calls[0]).Ok? {
        var j :| 0 <= j < |calls[1..]| && answer(calls[1..][j]) == Err(rest.msg);
        assert calls[1..][j] == calls[j + 1];
      }
    }
  }

  /** Calls answered one by one with `msgs` and `usages` complete with exactly those. */
  lemma {:induction false} RunCallsAnswered(calls: seq<ToolCall>, answer: ToolCall -> Result<(ChatMessage, Usage)>,
                                            msgs: seq<ChatMessage>, usages: seq<Usage>)
    requires AnsweredBy(calls, answer, msgs, usages)
    ensures RunCalls(calls, answer) == Ok((msgs, usages))
  {
    RunCallsOk(calls, answer);
    RunCallsContents(calls, answer);
    var r := RunCalls(calls, answer).value;
    assert r.0 == msgs;
    assert r.1 == usages;
  }

  /** A round whose every call can be answered completes. */
  lemma {:induction false} RunCallsOk(calls: seq<ToolCall>, answer: ToolCall -> Result<(ChatMessage, Usage)>)
    requires forall i :: 0 <= i < |calls| ==> answer(calls[i]).Ok?
    ensures RunCalls(calls, answer).Ok?
  {
    if |calls| > 0 {
      assert forall i :: 0 <= i < |calls[1..]| ==> calls[1..][i] == calls[i + 1];
      RunCallsOk(calls[1..], answer);
    }
  }

  /** The registered-tool executor never raises. */
  ghost predicate RegisteredNeverFail(ex: Executors) {
    forall name, args :: ex.registered(name, args).Returned?
  }

  /**
    The service's rounds of calls: each `tool` message answers its own
    call's id with that call's execution; a failed round carries the error
    one execution raised; only an unreadable call or a registered tool can
    make a round fail.
   */
  lemma {:induction false} ToolMessages(calls: seq<ToolCall>, hasKnowledgeBase: bool, ex: Executors)
    ensures var r := RunCalls(calls, Answerer(hasKnowledgeBase, ex));
            r.Ok? ==> forall i :: 0 <= i < |calls| ==>
                        r.value.0[i].Tool? && r.value.0[i].toolCallId == calls[i].id
                        && Execute(calls[i], hasKnowledgeBase, ex).Ok?
    ensures var r := RunCalls(calls, Answerer(hasKnowledgeBase, ex));
            r.Err? ==> exists i :: 0 <= i < |calls| && Execute(calls[i], hasKnowledgeBase, ex) == Err(r.msg)
    ensures RegisteredNeverFail(ex) && (forall i :: 0 <= i < |calls| ==> Readable(calls[i])) ==>
              RunCalls(calls, Answerer(hasKnowledgeBase, ex)).Ok?
  {
    var answer := Answerer(hasKnowledgeBase, ex);
    forall c ensures answer(c) == Answer(c, hasKnowledgeBase, ex) {
    }
    RunCallsContents(calls, answer);
    if RegisteredNeverFail(ex) && forall i :: 0 <= i < |calls| ==> Readable(calls[i]) {
      forall i | 0 <= i < |calls| ensures answer(calls[i]).Ok? {
        assert Execute(calls[i], hasKnowledgeBase, ex).Ok?;
      }
      RunCallsOk(calls, answer);
    }
  }

  // ---------------------------------------------------------------------------
  // The loop
  // ---------------------------------------------------------------------------

  const ToolCallsReason := "tool_calls"
  /** What Python says when `len` is applied to a null answer. */
  const NoLenText := "object of type 'NoneType' has no len()"
  const NoAgentText := "Nenhum agente ativo configurado para esta sessão"

  /**
    One LLM answer: `conteudo` and `finish_reason` with their defaults
    (`""` and `"stop"`) already applied; `conteudo` is `None` when the answer
    carries a null content.
   */
  datatype LlmReply = LlmReply(
    conteudo: Option<string>,
    toolCalls: Option<seq<ToolCall>>,
    finishReason: string,
    tokensInput: Option<int>,
    tokensOutput: Option<int>)

  datatype LlmResult = Answered(reply: LlmReply) | TimedOut | Failed(msg: string)

  type Llm = (seq<ChatMessage>, Option<seq<ToolDef>>) -> LlmResult

  /** The reply asks for tools: it has a non-empty `tool_calls` and `finish_reason == "tool_calls"`. */
  predicate CallsTools(rep: LlmReply) {
    rep.toolCalls.Some? && |rep.toolCalls.value| > 0 && rep.finishReason == ToolCallsReason
  }

  /** The loop state: the messages so far, token totals, usage records and rounds done. */
  datatype LoopState = LoopState(
    texto: string,
    tokensIn: int,
    tokensOut: int,
    usages: seq<Usage>,
    messages: seq<ChatMessage>,
    rounds: nat)

  function AddTokens(total: int, n: Option<int>): int {
    if GivenInt(n) then total + n.value else total
  }

  /** How one round of the loop ends. */
  datatype RoundResult =
    | Continue(next: LoopState)   // the model asked for tools and they all ran
    | Finished(last: LoopState)   // the model answered: its content is the answer
    | Stopped(msg: string)        // the model call or a tool failed

  /**
    One round: call the model once and append its turn. A reply that asks for
    tools runs them and adds one `tool` message per call; any other reply
    ends the loop with its content as the answer, and fails when that
    content is null.
   */
  function Round(s: LoopState, llm: Llm, tools: Option<seq<ToolDef>>, hasKnowledgeBase: bool, ex: Executors)
    : (r: RoundResult)
    ensures r.Continue? ==>
              r.next.texto == "" && r.next.rounds == s.rounds + 1
              && |r.next.usages| > |s.usages|
              && |r.next.messages| == |s.messages| + 1 + (|r.next.usages| - |s.usages|)
              && r.next.messages[|r.next.messages| - 1].Tool?
    ensures r.Finished? ==>
              llm(s.messages, tools).Answered? && r.last.rounds == s.rounds + 1 && r.last.usages == s.usages
              && |r.last.messages| == |s.messages| + 1
              && llm(s.messages, tools).reply.conteudo == Some(r.last.texto)
              && r.last.messages[|s.messages|] == AssistantTurn(Some(r.last.texto), llm(s.messages, tools).reply.toolCalls)
    ensures r.Stopped? ==> r.msg == TimeoutText || LlmErrorPrefix <= r.msg
    ensures llm(s.messages, tools).TimedOut? ==> r == Stopped(TimeoutText)
    ensures (llm(s.messages, tools).Answered? && !CallsTools(llm(s.messages, tools).reply)
             && llm(s.messages, tools).reply.conteudo.None?) ==> r == Stopped(LlmErrorPrefix + NoLenText)
  {
    match llm(s.messages, tools)
    case TimedOut => Stopped(TimeoutText)
    case Failed(m) => Stopped(LlmErrorPrefix + m)
    case Answered(rep) =>
      if CallsTools(rep) then
        ToolMessages(rep.toolCalls.value, hasKnowledgeBase, ex);
        match RunCalls(rep.toolCalls.value, Answerer(hasKnowledgeBase, ex))
        case Err(m) => Stopped(m)
        case Ok(done) => Continue(AfterTools(s, rep, done))
      else
        match rep.conteudo
        case None => Stopped(LlmErrorPrefix + NoLenText)
        case Some(texto) => Finished(AfterAnswer(s, rep, texto))
  }

  /** The state after a round that asked for tools: the turn, then one `tool` message per call. */
  function AfterTools(s: LoopState, rep: LlmReply, done: (seq<ChatMessage>, seq<Usage>)): LoopState {
    LoopState("", AddTokens(s.tokensIn, rep.tokensInput), AddTokens(s.tokensOut, rep.tokensOutput),
              s.usages + done.1, s.messages + [AssistantTurn(rep.conteudo, rep.toolCalls)] + done.0, s.rounds + 1)
  }

  /** The state after the final round: its content `texto` is the answer. */
  function AfterAnswer(s: LoopState, rep: LlmReply, texto: string): LoopState {
    LoopState(texto, AddTokens(s.tokensIn, rep.tokensInput), AddTokens(s.tokensOut, rep.tokensOutput),
              s.usages, s.messages + [AssistantTurn(rep.conteudo, rep.toolCalls)], s.rounds + 1)
  }

  /** One round as a function of the state alone; the loop is driven by `Stepper`. */
  type Step = LoopState -> RoundResult

  /** The round the service runs, with the model, tools and executors fixed. */
  function Stepper(llm: Llm, tools: Option<seq<ToolDef>>, hasKnowledgeBase: bool, ex: Executors): Step {
    t => Round(t, llm, tools, hasKnowledgeBase, ex)
  }

  /** What every round promises about the state it hands on, whatever the model says. */
  ghost predicate RoundShape(s: LoopState, r: RoundResult) {
    && (r.Continue? ==>
          r.next.texto == "" && r.next.rounds == s.rounds + 1
          && |r.next.usages| > |s.usages|
          && |r.next.messages| == |s.messages| + 1 + (|r.next.usages| - |s.usages|)
          && r.next.messages[|r.next.messages| - 1].Tool?)
    && (r.Finished? ==>
          r.last.rounds == s.rounds + 1 && r.last.usages == s.usages
          && |r.last.messages| == |s.messages| + 1
          && r.last.messages[|s.messages|].AssistantTurn? && r.last.messages[|s.messages|].contentText == Some(r.last.texto))
    && (r.Stopped? ==> r.msg == TimeoutText || LlmErrorPrefix <= r.msg)
  }

  ghost predicate Shaped(step: Step) {
    forall t :: RoundShape(t, step(t))
  }

  /** Every round of the service keeps the shape `Run` relies on. */
  lemma {:induction false} StepperShaped(llm: Llm, tools: Option<seq<ToolDef>>, hasKnowledgeBase: bool, ex: Executors)
    ensures Shaped(Stepper(llm, tools, hasKnowledgeBase, ex))
  {
    forall t ensures RoundShape(t, Stepper(llm, tools, hasKnowledgeBase, ex)(t)) {
      assert Stepper(llm, tools, hasKnowledgeBase, ex)(t) == Round(t, llm, tools, hasKnowledgeBase, ex);
    }
  }

  /**
    Up to `fuel` more rounds. When the rounds run out the state is returned
    as it stands, with whatever answer text it holds.
   */
  function Run(fuel: nat, s: LoopState, step: Step): (r: Result<LoopState>)
    ensures Shaped(step) && r.Ok? ==> s.rounds <= r.value.rounds <= s.rounds + fuel
    ensures Shaped(step) && r.Ok? ==> |s.usages| <= |r.value.usages|
    ensures Shaped(step) && r.Ok? ==>
              |r.value.messages| == |s.messages| + (r.value.rounds - s.rounds) + (|r.value.usages| - |s.usages|)
    ensures Shaped(step) && r.Ok? && fuel > 0 ==> r.value.rounds > s.rounds
    ensures Shaped(step) && r.Err? ==> r.msg == TimeoutText || LlmErrorPrefix <= r.msg
    decreases fuel
  {
    if fuel == 0 then Ok(s)
    else
      match step(s)
      case Stopped(m) => Err(m)
      case Finished(t) => Ok(t)
      case Continue(n) => Run(fuel - 1, n, step)
  }

  /** A round that answers ends the loop with that round's state. */
  lemma {:induction false} RunFinished(fuel: nat, s: LoopState, step: Step)
    requires fuel > 0 && step(s).Finished?
    ensures Run(fuel, s, step) == Ok(step(s).last)
  {
  }

  /** A round that ran tools hands the next state to the remaining rounds. */
  lemma {:induction false} RunContinues(fuel: nat, s: LoopState, step: Step)
    requires fuel > 0 && step(s).Continue?
    ensures Run(fuel, s, step) == Run(fuel - 1, step(s).next, step)
  {
  }

  /** A round that ran tools followed by one that answered ends the loop with the second round's state. */
  lemma {:induction false} RunTwoRounds(fuel: nat, s: LoopState, step: Step)
    requires fuel > 1 && step(s).Continue? && step(step(s).next).Finished?
    ensures Run(fuel, s, step) == Ok(step(step(s).next).last)
  {
    RunContinues(fuel, s, step);
    RunFinished(fuel - 1, step(s).next, step);
  }

  /** How a run ends, in terms of its last message; see `RunEnding`. */
  ghost predicate EndsAsRecorded(s: LoopState, fuel: nat, r: Result<LoopState>) {
    r.Ok? && |r.value.messages| > 0 ==>
      var last := r.value.messages[|r.value.messages| - 1];
      (last.Tool? ==> r.value.texto == "" && r.value.rounds == s.rounds + fuel)
      && (!last.Tool? ==> last.AssistantTurn? && last.contentText == Some(r.value.texto))
  }

  lemma {:induction false} EndsAfterRound(s: LoopState, next: LoopState, fuel: nat, r: Result<LoopState>)
    requires fuel > 1 && next.rounds == s.rounds + 1 && EndsAsRecorded(next, fuel - 1, r)
    ensures EndsAsRecorded(s, fuel, r)
  {
  }

  /**
    How the loop ended can be read off its last message: a `tool` message
    means every round asked for tools and the answer is empty; otherwise
    the last message is the final assistant turn and its text is the answer.
   */
  lemma {:induction false} RunEnding(fuel: nat, s: LoopState, step: Step)
    requires fuel > 0 && Shaped(step)
    ensures EndsAsRecorded(s, fuel, Run(fuel, s, step))
    decreases fuel
  {
    var round := step(s);
    assert RoundShape(s, round);
    if round.Continue? {
      RunContinues(fuel, s, step);
      if fuel > 1 {
        RunEnding(fuel - 1, round.next, step);
        EndsAfterRound(s, round.next, fuel, Run(fuel - 1, round.next, step));
      }
    } else if round.Finished? {
      RunFinished(fuel, s, step);
    }
  }

  /** The service's loop ends as recorded; see `RunEnding`. */
  lemma {:induction false} ServiceRunEnding(fuel: nat, s: LoopState, llm: Llm, tools: Option<seq<ToolDef>>,
                                            hasKnowledgeBase: bool, ex: Executors)
    requires fuel > 0
    ensures EndsAsRecorded(s, fuel, Run(fuel, s, Stepper(llm, tools, hasKnowledgeBase, ex)))
  {
    StepperShaped(llm, tools, hasKnowledgeBase, ex);
    RunEnding(fuel, s, Stepper(llm, tools, hasKnowledgeBase, ex));
  }

  /** A reply whose tool calls all run continues the loop with the turn and the tool messages appended. */
  lemma {:induction false} RoundRunsTools(s: LoopState, llm: Llm, tools: Option<seq<ToolDef>>, hasKnowledgeBase: bool,
                                          ex: Executors)
    requires llm(s.messages, tools).Answered? && CallsTools(llm(s.messages, tools).reply)
    requires RunCalls(llm(s.messages, tools).reply.toolCalls.value, Answerer(hasKnowledgeBase, ex)).Ok?
    ensures var rep := llm(s.messages, tools).reply;
            Round(s, llm, tools, hasKnowledgeBase, ex)
            == Continue(AfterTools(s, rep, RunCalls(rep.toolCalls.value, Answerer(hasKnowledgeBase, ex)).value))
  {
  }

  /** A reply without tool calls and with content finishes the loop with that content as the answer. */
  lemma {:induction false} RoundAnswers(s: LoopState, llm: Llm, tools: Option<seq<ToolDef>>, hasKnowledgeBase: bool,
                                        ex: Executors)
    requires llm(s.messages, tools).Answered? && !CallsTools(llm(s.messages, tools).reply)
    requires llm(s.messages, tools).reply.conteudo.Some?
    ensures var rep := llm(s.messages, tools).reply;
            Round(s, llm, tools, hasKnowledgeBase, ex) == Finished(AfterAnswer(s, rep, rep.conteudo.value))
  {
  }

  /** A first reply without tool calls ends the loop after one round, with that reply as the answer. */
  lemma {:induction false} FirstAnswerEnds(fuel: nat, s: LoopState, llm: Llm, tools: Option<seq<ToolDef>>,
                                           hasKnowledgeBase: bool, ex: Executors)
    requires fuel > 0
    requires llm(s.messages, tools).Answered? && !CallsTools(llm(s.messages, tools).reply)
    requires llm(s.messages, tools).reply.conteudo.Some?
    ensures Run(fuel, s, Stepper(llm, tools, hasKnowledgeBase, ex)).Ok?
    ensures Run(fuel, s, Stepper(llm, tools, hasKnowledgeBase, ex)).value.rounds == s.rounds + 1
    ensures Run(fuel, s, Stepper(llm, tools, hasKnowledgeBase, ex)).value.texto
            == llm(s.messages, tools).reply.conteudo.value
  {
    assert Stepper(llm, tools, hasKnowledgeBase, ex)(s) == Round(s, llm, tools, hasKnowledgeBase, ex);
    RunFinished(fuel, s, Stepper(llm, tools, hasKnowledgeBase, ex));
  }

  /** The reply asks for tools, and every call it makes is readable. */
  predicate CallsReadableTools(rep: LlmReply) {
    CallsTools(rep) && forall i :: 0 <= i < |rep.toolCalls.value| ==> Readable(rep.toolCalls.value[i])
  }

  /** The model asks for tools whatever the conversation so far, always with readable calls. */
  ghost predicate AlwaysCallsTools(llm: Llm, tools: Option<seq<ToolDef>>) {
    forall ms :: llm(ms, tools).Answered? && CallsReadableTools(llm(ms, tools).reply)
  }

  /** A round continues when the model asks for tools and no registered tool raises. */
  lemma {:induction false} RoundContinues(s: LoopState, llm: Llm, tools: Option<seq<ToolDef>>, hasKnowledgeBase: bool, ex: Executors)
    requires AlwaysCallsTools(llm, tools) && RegisteredNeverFail(ex)
    ensures Round(s, llm, tools, hasKnowledgeBase, ex).Continue?
  {
    var rep := llm(s.messages, tools).reply;
    ToolMessages(rep.toolCalls.value, hasKnowledgeBase, ex);
  }

  ghost predicate AlwaysContinues(step: Step) {
    forall t :: step(t).Continue?
  }

  /** When every round continues, the loop uses up its rounds and its answer stays empty. */
  lemma {:induction false} RunExhausts(fuel: nat, s: LoopState, step: Step)
    requires s.texto == "" && Shaped(step) && AlwaysContinues(step)
    ensures var r := Run(fuel, s, step); r.Ok? && r.value.rounds == s.rounds + fuel && r.value.texto == ""
    decreases fuel
  {
    if fuel > 0 {
      assert step(s).Continue? && RoundShape(s, step(s));
      RunContinues(fuel, s, step);
      RunExhausts(fuel - 1, step(s).next, step);
    }
  }

  /** A model that always asks for tools uses up every round and leaves the answer empty. */
  lemma {:induction false} AlwaysToolsExhausts(fuel: nat, s: LoopState, llm: Llm, tools: Option<seq<ToolDef>>,
                                               hasKnowledgeBase: bool, ex: Executors)
    requires s.texto == ""
    requires AlwaysCallsTools(llm, tools) && RegisteredNeverFail(ex)
    ensures var r := Run(fuel, s, Stepper(llm, tools, hasKnowledgeBase, ex));
            r.Ok? && r.value.rounds == s.rounds + fuel && r.value.texto == ""
  {
    var step := Stepper(llm, tools, hasKnowledgeBase, ex);
    forall t ensures step(t).Continue? {
      RoundContinues(t, llm, tools, hasKnowledgeBase, ex);
      assert step(t) == Round(t, llm, tools, hasKnowledgeBase, ex);
    }
    StepperShaped(llm, tools, hasKnowledgeBase, ex);
    RunExhausts(fuel, s, step);
  }

  /** What `processar_mensagem` returns, without the timing and model name. */
  datatype Processed = Processed(texto: string, tokensInput: int, tokensOutput: int, ferramentas: Option<seq<Usage>>,
                                 rounds: nat)

  /** The messages of the first round: the system prompt, the history, then the message being answered. */
  function Opening(p: Profile, stored: seq<StoredMessage>, current: StoredMessage): (r: Result<seq<ChatMessage>>)
    ensures r.Ok? ==> |r.value| >= 2 && r.value[0] == System(SystemPrompt(p)) && r.value[|r.value| - 1].User?
    ensures r.Ok? ==> |r.value| <= HistoryWindow + 2
  {
    var history :- History(stored, current.id);
    var content :- CurrentContent(current);
    Ok([System(SystemPrompt(p))] + history + [User(content)])
  }

  /** The loop before its first round: no answer, no tokens, no tools used. */
  function Start(opening: seq<ChatMessage>): LoopState {
    LoopState("", 0, 0, [], opening, 0)
  }

  /**
    `processar_mensagem`. Failures building the opening messages propagate
    as they are; failures inside the loop are reported as a timeout or as an
    LLM processing error.
   */
  function ProcessMessage(agent: Option<Profile>, stored: seq<StoredMessage>, current: StoredMessage, llm: Llm,
                          tools: Option<seq<ToolDef>>, hasKnowledgeBase: bool, ex: Executors): (r: Result<Processed>)
    ensures agent.None? ==> r == Err(NoAgentText)
    ensures agent.Some? && Opening(agent.value, stored, current).Err? ==>
              r == Err(Opening(agent.value, stored, current).msg)
    ensures agent.Some? && Opening(agent.value, stored, current).Ok? ==>
              r == Converse(Opening(agent.value, stored, current).value, llm, tools, hasKnowledgeBase, ex)
    ensures r.Ok? ==> 1 <= r.value.rounds <= MaxIterations
    ensures r.Ok? ==> (r.value.ferramentas.Some? ==> |r.value.ferramentas.value| > 0)
  {
    if agent.None? then Err(NoAgentText)
    else
      var opening :- Opening(agent.value, stored, current);
      Converse(opening, llm, tools, hasKnowledgeBase, ex)
  }

  /** The loop of `processar_mensagem` from its opening messages, and what it reports. */
  function Converse(opening: seq<ChatMessage>, llm: Llm, tools: Option<seq<ToolDef>>, hasKnowledgeBase: bool,
                    ex: Executors): (r: Result<Processed>)
    ensures r.Ok? ==> 1 <= r.value.rounds <= MaxIterations
    ensures r.Ok? ==> (r.value.ferramentas.Some? ==> |r.value.ferramentas.value| > 0)
  {
    StepperShaped(llm, tools, hasKnowledgeBase, ex);
    var end :- Run(MaxIterations, Start(opening), Stepper(llm, tools, hasKnowledgeBase, ex));
    Ok(Processed(end.texto, end.tokensIn, end.tokensOut, if |end.usages| > 0 then Some(end.usages) else None,
                 end.rounds))
  }

  /** The result is read off the state the loop ends in. */
  lemma {:induction false} ConverseOfRun(opening: seq<ChatMessage>, llm: Llm, tools: Option<seq<ToolDef>>,
                                         hasKnowledgeBase: bool, ex: Executors)
    ensures var run := Run(MaxIterations, Start(opening), Stepper(llm, tools, hasKnowledgeBase, ex));
            run.Ok? ==>
              Converse(opening, llm, tools, hasKnowledgeBase, ex)
              == Ok(Processed(run.value.texto, run.value.tokensIn, run.value.tokensOut,
                              if |run.value.usages| > 0 then Some(run.value.usages) else None, run.value.rounds))
  {
  }

  /**
    A first reply without tool calls is the answer: one round, its content
    as the text, its token counts as the totals, and no tools recorded.
   */
  lemma {:induction false} ProcessFirstAnswer(p: Profile, stored: seq<StoredMessage>, current: StoredMessage, llm: Llm,
                                              tools: Option<seq<ToolDef>>, hasKnowledgeBase: bool, ex: Executors)
    requires Opening(p, stored, current).Ok?
    requires var first := llm(Opening(p, stored, current).value, tools);
             first.Answered? && !CallsTools(first.reply) && first.reply.conteudo.Some?
    ensures var rep := llm(Opening(p, stored, current).value, tools).reply;
            ProcessMessage(Some(p), stored, current, llm, tools, hasKnowledgeBase, ex)
            == Ok(Processed(rep.conteudo.value, AddTokens(0, rep.tokensInput), AddTokens(0, rep.tokensOutput), None, 1))
  {
    var s := Start(Opening(p, stored, current).value);
    var rep := llm(s.messages, tools).reply;
    var step := Stepper(llm, tools, hasKnowledgeBase, ex);
    assert step(s) == Round(s, llm, tools, hasKnowledgeBase, ex) == Finished(AfterAnswer(s, rep, rep.conteudo.value));
    RunFinished(MaxIterations, s, step);
  }

  /** A first reply without tool calls whose content is null fails the message. */
  lemma {:induction false} ProcessNullAnswer(p: Profile, stored: seq<StoredMessage>, current: StoredMessage, llm: Llm,
                                             tools: Option<seq<ToolDef>>, hasKnowledgeBase: bool, ex: Executors)
    requires Opening(p, stored, current).Ok?
    requires var first := llm(Opening(p, stored, current).value, tools);
             first.Answered? && !CallsTools(first.reply) && first.reply.conteudo.None?
    ensures ProcessMessage(Some(p), stored, current, llm, tools, hasKnowledgeBase, ex) == Err(LlmErrorPrefix + NoLenText)
  {
    var s := Start(Opening(p, stored, current).value);
    assert Stepper(llm, tools, hasKnowledgeBase, ex)(s) == Round(s, llm, tools, hasKnowledgeBase, ex);
  }

  /**
    A first reply whose tool calls all run, followed by a reply without tool
    calls, is answered in two rounds: the second reply's content is the
    text, the tokens of both replies are summed, and the tools of the first
    round are reported.
   */
  lemma {:induction false} ToolsThenAnswer(opening: seq<ChatMessage>, llm: Llm, tools: Option<seq<ToolDef>>,
                                           hasKnowledgeBase: bool, ex: Executors, first: LlmReply,
                                           msgs: seq<ChatMessage>, usages: seq<Usage>, second: LlmReply)
    requires llm(opening, tools) == Answered(first) && CallsTools(first)
    requires AnsweredBy(first.toolCalls.value, Answerer(hasKnowledgeBase, ex), msgs, usages)
    requires llm(opening + [AssistantTurn(first.conteudo, first.toolCalls)] + msgs, tools) == Answered(second)
    requires !CallsTools(second) && second.conteudo.Some?
    ensures Converse(opening, llm, tools, hasKnowledgeBase, ex)
            == Ok(Processed(second.conteudo.value,
                            AddTokens(AddTokens(0, first.tokensInput), second.tokensInput),
                            AddTokens(AddTokens(0, first.tokensOutput), second.tokensOutput),
                            if |usages| > 0 then Some(usages) else None, 2))
  {
    var s := Start(opening);
    RunCallsAnswered(first.toolCalls.value, Answerer(hasKnowledgeBase, ex), msgs, usages);
    var s1 := AfterTools(s, first, (msgs, usages));
    assert s1.messages == opening + [AssistantTurn(first.conteudo, first.toolCalls)] + msgs;
    var step := Stepper(llm, tools, hasKnowledgeBase, ex);
    RoundRunsTools(s, llm, tools, hasKnowledgeBase, ex);
    RoundAnswers(s1, llm, tools, hasKnowledgeBase, ex);
    assert step(s) == Continue(s1);
    assert step(s1) == Finished(AfterAnswer(s1, second, second.conteudo.value));
    RunTwoRounds(MaxIterations, s, step);
    var last := AfterAnswer(s1, second, second.conteudo.value);
    assert last.usages == usages && last.rounds == 2;
    ConverseOfRun(opening, llm, tools, hasKnowledgeBase, ex);
  }

  /** A model call that times out fails the message with the timeout text. */
  lemma {:induction false} ProcessTimeout(p: Profile, stored: seq<StoredMessage>, current: StoredMessage, llm: Llm,
                                          tools: Option<seq<ToolDef>>, hasKnowledgeBase: bool, ex: Executors)
    requires Opening(p, stored, current).Ok? && llm(Opening(p, stored, current).value, tools).TimedOut?
    ensures ProcessMessage(Some(p), stored, current, llm, tools, hasKnowledgeBase, ex) == Err(TimeoutText)
  {
    var s := Start(Opening(p, stored, current).value);
    assert Stepper(llm, tools, hasKnowledgeBase, ex)(s) == Round(s, llm, tools, hasKnowledgeBase, ex);
  }

  /**
    A registered tool that times out in the first call of a round fails the
    round with the timeout text, not as an LLM processing error.
   */
  lemma {:induction false} ToolTimeoutStops(s: LoopState, llm: Llm, tools: Option<seq<ToolDef>>, hasKnowledgeBase: bool,
                                            ex: Executors)
    requires llm(s.messages, tools).Answered? && CallsTools(llm(s.messages, tools).reply)
    requires var c := llm(s.messages, tools).reply.toolCalls.value[0];
             Readable(c) && RouteOf(c.name.value, hasKnowledgeBase).ToRegistered?
             && ex.registered(c.name.value, c.args.value).RaisedTimeout?
    ensures Round(s, llm, tools, hasKnowledgeBase, ex) == Stopped(TimeoutText)
  {
    var calls := llm(s.messages, tools).reply.toolCalls.value;
    assert Answerer(hasKnowledgeBase, ex)(calls[0]) == Answer(calls[0], hasKnowledgeBase, ex) == Err(TimeoutText);
  }

  /**
    A model that always asks for tools, with registered tools that never
    raise, uses all ten rounds: the answer text is empty and the tools used
    are reported.
   */
  lemma {:induction false} ProcessExhausts(p: Profile, stored: seq<StoredMessage>, current: StoredMessage, llm: Llm,
                                           tools: Option<seq<ToolDef>>, hasKnowledgeBase: bool, ex: Executors)
    requires Opening(p, stored, current).Ok?
    requires AlwaysCallsTools(llm, tools) && RegisteredNeverFail(ex)
    ensures var r := ProcessMessage(Some(p), stored, current, llm, tools, hasKnowledgeBase, ex);
            r.Ok? && r.value.texto == "" && r.value.rounds == MaxIterations && r.value.ferramentas.Some?
  {
    var s := Start(Opening(p, stored, current).value);
    var step := Stepper(llm, tools, hasKnowledgeBase, ex);
    AlwaysToolsExhausts(MaxIterations, s, llm, tools, hasKnowledgeBase, ex);
    StepperShaped(llm, tools, hasKnowledgeBase, ex);
    RoundContinues(s, llm, tools, hasKnowledgeBase, ex);
    assert step(s) == Round(s, llm, tools, hasKnowledgeBase, ex);
    assert RoundShape(s, step(s));
    RunContinues(MaxIterations, s, step);
  }

  // ---------------------------------------------------------------------------
  // Agents per session
  // ---------------------------------------------------------------------------

  const MaxTools := 20
  const TooManyToolsText := "Um agente pode ter no máximo 20 ferramentas ativas"
  const AgentNotFoundText := "Agente não encontrado"

  datatype Agent = Agent(id: int, sessao: int, codigo: string, profile: Profile)

  /** The stored agents by id, and the id the next insert receives. */
  datatype Store = Store(agents: map<int, Agent>, nextId: int)

  /** Ids are keys, and every key is below the next id. */
  predicate WellFormed(s: Store) {
    forall id :: id in s.agents ==> s.agents[id].id == id && id < s.nextId
  }

  /** No two agents of one session share a code. */
  predicate UniqueCodes(s: Store) {
    forall i, j :: i in s.agents && j in s.agents && i != j && s.agents[i].sessao == s.agents[j].sessao
                   ==> s.agents[i].codigo != s.agents[j].codigo
  }

  /** `obter_por_codigo(...)` finds an agent. */
  predicate CodeTaken(s: Store, sessao: int, codigo: string) {
    exists id :: id in s.agents && s.agents[id].sessao == sessao && s.agents[id].codigo == codigo
  }

  function DuplicateCodeText(codigo: string): string {
    "Já existe um agente com o código '" + codigo + "' nesta sessão"
  }

  /** `criar`: a code already used in the session is refused. */
  function Create(s: Store, sessao: int, codigo: string, profile: Profile): (r: Result<(Store, Agent)>)
    ensures r.Err? <==> CodeTaken(s, sessao, codigo)
    ensures r.Err? ==> r.msg == DuplicateCodeText(codigo)
    ensures r.Ok? ==> r.value.1 == Agent(s.nextId, sessao, codigo, profile)
    ensures r.Ok? ==> r.value.0.agents == s.agents[s.nextId := r.value.1] && r.value.0.nextId == s.nextId + 1
  {
    if CodeTaken(s, sessao, codigo) then Err(DuplicateCodeText(codigo))
    else
      var a := Agent(s.nextId, sessao, codigo, profile);
      Ok((Store(s.agents[s.nextId := a], s.nextId + 1), a))
  }

  /** The fields an update sets; `None` means not set, `Some(None)` sets a column to NULL. */
  datatype Update = Update(
    codigo: Option<string>,
    papel: Option<Option<string>>,
    objetivo: Option<Option<string>>,
    politicas: Option<Option<string>>,
    tarefa: Option<Option<string>>,
    objetivoExplicito: Option<Option<string>>,
    publico: Option<Option<string>>,
    restricoes: Option<Option<string>>)

  function Set<T>(old_: T, update: Option<T>): T {
    if update.Some? then update.value else old_
  }

  function Apply(a: Agent, u: Update): (b: Agent)
    ensures b.id == a.id && b.sessao == a.sessao
    ensures b.codigo == if u.codigo.Some? then u.codigo.value else a.codigo
  {
    var p := a.profile;
    Agent(a.id, a.sessao, Set(a.codigo, u.codigo),
          Profile(Set(p.papel, u.papel), Set(p.objetivo, u.objetivo), Set(p.politicas, u.politicas),
                  Set(p.tarefa, u.tarefa), Set(p.objetivoExplicito, u.objetivoExplicito),
                  Set(p.publico, u.publico), Set(p.restricoes, u.restricoes)))
  }

  /** `atualizar`: `None` for an unknown id; a change to a code used in the session is refused. */
  function Modify(s: Store, id: int, u: Update): (r: Result<Option<(Store, Agent)>>)
    ensures id !in s.agents ==> r == Ok(None)
    ensures id in s.agents ==>
              (r.Err? <==> u.codigo.Some? && u.codigo.value != s.agents[id].codigo
                           && CodeTaken(s, s.agents[id].sessao, u.codigo.value))
    ensures r.Err? ==> r.msg == DuplicateCodeText(u.codigo.value)
    ensures r.Ok? && r.value.Some? ==> id in s.agents && r.value.value.1 == Apply(s.agents[id], u)
    ensures r.Ok? && r.value.Some? ==> r.value.value.0 == Store(s.agents[id := r.value.value.1], s.nextId)
  {
    if id !in s.agents then Ok(None)
    else
      var a := s.agents[id];
      if u.codigo.Some? && u.codigo.value != a.codigo && CodeTaken(s, a.sessao, u.codigo.value) then
        Err(DuplicateCodeText(u.codigo.value))
      else
        var b := Apply(a, u);
        Ok(Some((Store(s.agents[id := b], s.nextId), b)))
  }

  /** Creating an agent keeps the store well formed and codes unique. */
  lemma {:induction false} CreatePreserves(s: Store, sessao: int, codigo: string, profile: Profile)
    requires WellFormed(s) && UniqueCodes(s)
    ensures Create(s, sessao, codigo, profile).Ok? ==>
              WellFormed(Create(s, sessao, codigo, profile).value.0)
              && UniqueCodes(Create(s, sessao, codigo, profile).value.0)
  {
    var r := Create(s, sessao, codigo, profile);
    if r.Ok? {
      var t := r.value.0;
      forall i, j | i in t.agents && j in t.agents && i != j && t.agents[i].sessao == t.agents[j].sessao
        ensures t.agents[i].codigo != t.agents[j].codigo
      {
        if i == s.nextId {
          assert !CodeTaken(s, sessao, codigo);
          assert j in s.agents;
        } else if j == s.nextId {
          assert !CodeTaken(s, sessao, codigo);
          assert i in s.agents;
        }
      }
    }
  }

  /** Updating an agent keeps the store well formed and codes unique. */
  lemma {:induction false} ModifyPreserves(s: Store, id: int, u: Update)
    requires WellFormed(s) && UniqueCodes(s)
    ensures Modify(s, id, u).Ok? && Modify(s, id, u).value.Some? ==>
              WellFormed(Modify(s, id, u).value.value.0) && UniqueCodes(Modify(s, id, u).value.value.0)
  {
    var r := Modify(s, id, u);
    if r.Ok? && r.value.Some? {
      var t := r.value.value.0;
      var a := s.agents[id];
      var b := r.value.value.1;
      forall i, j | i in t.agents && j in t.agents && i != j && t.agents[i].sessao == t.agents[j].sessao
        ensures t.agents[i].codigo != t.agents[j].codigo
      {
        if i == id {
          if b.codigo != a.codigo {
            assert !CodeTaken(s, a.sessao, b.codigo);
            assert j in s.agents && s.agents[j].sessao == a.sessao;
          }
        } else if j == id {
          if b.codigo != a.codigo {
            assert !CodeTaken(s, a.sessao, b.codigo);
            assert i in s.agents && s.agents[i].sessao == a.sessao;
          }
        }
      }
    }
  }

  function UnknownToolText(id: int): string {
    "Ferramenta com ID " + IntToString(id) + " não encontrada"
  }

  /** The first id not in the tool table, if any. */
  function FirstUnknown(ids: seq<int>, known: set<int>): (r: Option<int>)
    ensures r.None? <==> forall i :: 0 <= i < |ids| ==> ids[i] in known
    ensures r.Some? ==> r.value in ids && r.value !in known
  {
    if |ids| == 0 then None
    else if ids[0] !in known then Some(ids[0])
    else FirstUnknown(ids[1..], known)
  }

  /**
    `atualizar_ferramentas`: more than twenty ids are refused before
    anything else is looked at; otherwise the agent's tool list becomes
    exactly the given ids, provided the agent and every tool exist.
   */
  function SetTools(s: Store, links: map<int, seq<int>>, agentId: int, ids: seq<int>, known: set<int>)
    : (r: Result<map<int, seq<int>>>)
    ensures |ids| > MaxTools ==> r == Err(TooManyToolsText)
    ensures r.Ok? <==> |ids| <= MaxTools && agentId in s.agents && forall i :: 0 <= i < |ids| ==> ids[i] in known
    ensures r.Ok? ==> r.value == links[agentId := ids]
  {
    if |ids| > MaxTools then Err(TooManyToolsText)
    else if agentId !in s.agents then Err(AgentNotFoundText)
    else match FirstUnknown(ids, known)
      case Some(t) => Err(UnknownToolText(t))
      case None => Ok(links[agentId := ids])
  }

  /** No agent ever holds more than twenty tools, whatever sequence of updates succeeds. */
  lemma {:induction false} SetToolsKeepsLimit(s: Store, links: map<int, seq<int>>, agentId: int, ids: seq<int>, known: set<int>)
    requires forall a :: a in links ==> |links[a]| <= MaxTools
    ensures SetTools(s, links, agentId, ids, known).Ok? ==>
              forall a :: a in SetTools(s, links, agentId, ids, known).value ==>
                |SetTools(s, links, agentId, ids, known).value[a]| <= MaxTools
  {
  }
}

=== FILE: common.dfy ===
/**
  Shared vocabulary for the model: failure-carrying results, the JSON scalars
  the services read out of decoded responses, and the handful of Python string
  built-ins the services rely on (`str(int)`, `int(str)`, `str.strip`,
  `str.rstrip`, `str.split(sep, n)`, `in`, `endswith`, `lower`).
 */
module Common {

  datatype Option<+T> = None | Some(value: T)

  /** A computation that either yields a value or raises; `msg` is `str(e)`. */
  datatype Result<+T> = Ok(value: T) | Err(msg: string) {
    predicate IsFailure() {
      Err?
    }

    function PropagateFailure<U>(): Result<U>
      requires Err?
    {
      Err(msg)
    }

    function Extract(): T
      requires Ok?
    {
      value
    }
  }

  /** A decoded JSON scalar, as the Python code reads it out of a response. */
  datatype Scalar = Null | Bool(b: bool) | Int(i: int) | Str(s: string)

  /** Python truthiness of a scalar. */
  predicate Truthy(v: Scalar) {
    match v
    case Null => false
    case Bool(b) => b
    case Int(i) => i != 0
    case Str(s) => s != ""
  }

  /** Truthiness of an optional string argument (`None` and `""` are falsy). */
  predicate Given(o: Option<string>) {
    o.Some? && o.value != ""
  }

  /** Truthiness of an optional integer argument (`None` and `0` are falsy). */
  predicate GivenInt(o: Option<int>) {
    o.Some? && o.value != 0
  }

  /** Truthiness of an optional scalar field read with `dict.get`. */
  predicate FieldTruthy(o: Option<Scalar>) {
    o.Some? && Truthy(o.value)
  }

  // ---------------------------------------------------------------------------
  // Decimal text: `str(n)` and `int(s)`
  // ---------------------------------------------------------------------------

  predicate IsDigit(c: char) {
    '0' <= c <= '9'
  }

  predicate AllDigits(s: string) {
    forall i :: 0 <= i < |s| ==> IsDigit(s[i])
  }

  function DigitChar(d: nat): (c: char)
    requires d < 10
    ensures IsDigit(c) && DigitValue(c) == d
  {
    ('0' as int + d) as char
  }

  function DigitValue(c: char): (d: nat)
    requires IsDigit(c)
    ensures d < 10
  {
    (c as int - '0' as int) as nat
  }

  /** `str(n)` for a non-negative integer: no sign, no leading zero. */
  function NatToString(n: nat): (s: string)
    ensures |s| >= 1 && AllDigits(s)
    ensures |s| > 1 ==> s[0] != '0'
  {
    if n < 10 then [DigitChar(n)] else NatToString(n / 10) + [DigitChar(n % 10)]
  }

  /** `str(i)` for a Python int. */
  function IntToString(i: int): (s: string)
    ensures |s| >= 1
    ensures i < 0 <==> s[0] == '-'
  {
    if i < 0 then "-" + NatToString(-i) else NatToString(i)
  }

  /** The value of a non-empty run of decimal digits, most significant first. */
  function DigitsValue(s: string): nat
    requires AllDigits(s)
  {
    if |s| == 0 then 0 else DigitsValue(s[..|s| - 1]) * 10 + DigitValue(s[|s| - 1])
  }

  lemma {:induction false} DigitsValueOfNatToString(n: nat)
    ensures DigitsValue(NatToString(n)) == n
  {
    if n >= 10 {
      var s := NatToString(n);
      assert s[..|s| - 1] == NatToString(n / 10);
      DigitsValueOfNatToString(n / 10);
    }
  }

  /** `s` with every occurrence of `c` removed (Python `s.replace(c, '')`). */
  function RemoveChar(s: string, c: char): (r: string)
    ensures |r| <= |s|
    ensures c !in r
    ensures forall x :: x != c ==> multiset(r)[x] == multiset(s)[x]
  {
    if |s| == 0 then ""
    else
      assert s == [s[0]] + s[1..];
      if s[0] == c then RemoveChar(s[1..], c) else [s[0]] + RemoveChar(s[1..], c)
  }

  lemma {:induction false} RemoveCharAbsent(s: string, c: char)
    requires c !in s
    ensures RemoveChar(s, c) == s
  {
    if |s| > 0 {
      RemoveCharAbsent(s[1..], c);
    }
  }

  /**
    The digit part Python's `int()` accepts: digits, optionally grouped by
    single underscores that sit between two digits.
   */
  predicate IsDigitGroup(s: string) {
    && |s| > 0
    && IsDigit(s[0])
    && IsDigit(s[|s| - 1])
    && (forall i :: 0 <= i < |s| ==> IsDigit(s[i]) || s[i] == '_')
    && NoDoubleUnderscore(s)
  }

  /** No two underscores stand next to each other. */
  predicate NoDoubleUnderscore(s: string) {
    |s| < 2 || (!(s[0] == '_' && s[1] == '_') && NoDoubleUnderscore(s[1..]))
  }

  lemma {:induction false} UnderscoreFreeNoDouble(s: string)
    requires '_' !in s
    ensures NoDoubleUnderscore(s)
  {
    if |s| >= 2 {
      assert s[0] in s;
      UnderscoreFreeNoDouble(s[1..]);
    }
  }

  lemma {:induction false} DigitGroupUnderscoreFree(s: string)
    requires IsDigitGroup(s)
    ensures AllDigits(RemoveChar(s, '_'))
  {
    var r := RemoveChar(s, '_');
    forall i | 0 <= i < |r| ensures IsDigit(r[i]) {
      assert r[i] in multiset(r);
      assert r[i] in multiset(s);
      assert r[i] in s;
    }
  }

  /**
    Python's `int(s)` in base 10 over ASCII digits: surrounding whitespace is
    ignored, one optional sign, then a digit group. `None` is the `ValueError`.
   */
  function ParseInt(s: string): (r: Option<int>)
    ensures r.Some? ==> |Strip(s)| > 0
  {
    ParseSigned(Strip(s))
  }

  /** `int()` of an already stripped text: an optional sign, then a digit group. */
  function ParseSigned(t: string): (r: Option<int>)
    ensures r.Some? ==> |t| > 0
  {
    if |t| == 0 then None
    else if t[0] == '-' then
      match ParseUnsigned(t[1..])
      case Some(v) => Some(-(v as int))
      case None => None
    else if t[0] == '+' then
      match ParseUnsigned(t[1..])
      case Some(v) => Some(v as int)
      case None => None
    else
      match ParseUnsigned(t)
      case Some(v) => Some(v as int)
      case None => None
  }

  /** The value of a digit group, its underscores dropped; `None` for anything else. */
  function ParseUnsigned(body: string): (r: Option<nat>)
    ensures r.Some? <==> IsDigitGroup(body)
  {
    if !IsDigitGroup(body) then None
    else
      DigitGroupUnderscoreFree(body);
      Some(DigitsValue(RemoveChar(body, '_')))
  }

  /** A run of plain digits is a digit group that has no underscore to remove. */
  lemma {:induction false} PlainDigitGroup(digits: string)
    requires |digits| > 0 && AllDigits(digits)
    ensures IsDigitGroup(digits)
    ensures RemoveChar(digits, '_') == digits
  {
    assert '_' !in digits by {
      forall k | 0 <= k < |digits| ensures digits[k] != '_' {
        assert IsDigit(digits[k]);
      }
    }
    UnderscoreFreeNoDouble(digits);
    RemoveCharAbsent(digits, '_');
  }

  lemma {:induction false} ParsePlainDigits(digits: string)
    requires |digits| > 0 && AllDigits(digits)
    ensures ParseUnsigned(digits) == Some(DigitsValue(digits))
  {
    PlainDigitGroup(digits);
  }

  /** `int()` of a text that `strip()` leaves alone is `int()` of the text itself. */
  lemma {:induction false} ParseIntOfStripped(s: string, v: int)
    requires Strip(s) == s && ParseSigned(s) == Some(v)
    ensures ParseInt(s) == Some(v)
  {
  }

  lemma {:induction false} StripDigitEnds(t: string)
    requires |t| > 1 && AllDigits(t[1..]) && !IsSpace(t[0])
    ensures Strip(t) == t
  {
    assert t[|t| - 1] == t[1..][|t| - 2];
    StripNoSpaceEnds(t);
  }

  lemma {:induction false} ParseSignedDigits(digits: string)
    requires |digits| > 0 && AllDigits(digits)
    ensures ParseSigned(digits) == Some(DigitsValue(digits) as int)
  {
    ParsePlainDigits(digits);
  }

  lemma {:induction false} ParseSignedMinus(t: string)
    requires |t| > 1 && t[0] == '-' && AllDigits(t[1..])
    ensures ParseSigned(t) == Some(-(DigitsValue(t[1..]) as int))
  {
    ParsePlainDigits(t[1..]);
  }

  /** `int()` reads a run of plain digits as its value. */
  lemma {:induction false} ParseDigitText(digits: string)
    requires |digits| > 0 && AllDigits(digits)
    ensures ParseInt(digits) == Some(DigitsValue(digits) as int)
  {
    ParseSignedDigits(digits);
    StripNoSpaceEnds(digits);
    ParseIntOfStripped(digits, DigitsValue(digits) as int);
  }

  /** `int()` reads a minus sign followed by a run of plain digits as the negated value. */
  lemma {:induction false} ParseMinusDigitText(t: string)
    requires |t| > 1 && t[0] == '-' && AllDigits(t[1..])
    ensures ParseInt(t) == Some(-(DigitsValue(t[1..]) as int))
  {
    ParseSignedMinus(t);
    StripDigitEnds(t);
    ParseIntOfStripped(t, -(DigitsValue(t[1..]) as int));
  }

  /** `int()` reads back the text of a non-negative number. */
  lemma {:induction false} ParseNatText(n: nat)
    ensures ParseInt(NatToString(n)) == Some(n)
  {
    DigitsValueOfNatToString(n);
    ParseDigitText(NatToString(n));
  }

  /** `str(i)` of a negative `i` is a minus sign and the digits of `-i`. */
  lemma {:induction false} NegativeText(i: int)
    requires i < 0
    ensures |IntToString(i)| > 1 && IntToString(i)[0] == '-'
    ensures IntToString(i)[1..] == NatToString(-i)
  {
    assert IntToString(i) == ['-'] + NatToString(-i);
    SignTail('-', NatToString(-i));
  }

  lemma {:induction false} ParseIntRoundTrip(i: int)
    ensures ParseInt(IntToString(i)) == Some(i)
  {
    if i < 0 {
      ParseNegativeRoundTrip(i);
    } else {
      ParseNonNegativeRoundTrip(i);
    }
  }

  lemma {:induction false} ParseNegativeRoundTrip(i: int)
    requires i < 0
    ensures ParseInt(IntToString(i)) == Some(i)
  {
    NegativeText(i);
    ParseMinusNatText(IntToString(i), -i);
  }

  lemma {:induction false} ParseMinusNatText(t: string, n: nat)
    requires |t| > 1 && t[0] == '-' && t[1..] == NatToString(n)
    ensures ParseInt(t) == Some(-(n as int))
  {
    DigitsValueOfNatToString(n);
    ParseMinusDigitText(t);
  }

  lemma {:induction false} ParseNonNegativeRoundTrip(i: int)
    requires i >= 0
    ensures ParseInt(IntToString(i)) == Some(i)
  {
    NonNegativeText(i);
    ParseNatText(i);
  }

  lemma {:induction false} NonNegativeText(i: int)
    requires i >= 0
    ensures IntToString(i) == NatToString(i)
  {
  }

  lemma {:induction false} SignTail(sign: char, d: string)
    ensures |[sign] + d| == |d| + 1 && ([sign] + d)[0] == sign && ([sign] + d)[1..] == d
  {
  }

  // ---------------------------------------------------------------------------
  // Whitespace and stripping
  // ---------------------------------------------------------------------------

  /** The characters Python's `str.isspace` (and so `str.strip()`) treats as whitespace. */
  predicate IsSpace(c: char) {
    || c == ' ' || c == '\t' || c == '\n' || c == '\r'
    || c == '\U{0B}' || c == '\U{0C}'
    || ('\U{1C}' <= c <= '\U{1F}')
    || c == '\U{85}' || c == '\U{A0}' || c == '\U{1680}'
    || ('\U{2000}' <= c <= '\U{200A}')
    || c == '\U{2028}' || c == '\U{2029}' || c == '\U{202F}' || c == '\U{205F}' || c == '\U{3000}'
  }

  function LStrip(s: string): (r: string)
    ensures |r| <= |s|
    ensures |r| > 0 ==> !IsSpace(r[0])
  {
    if |s| > 0 && IsSpace(s[0]) then LStrip(s[1..]) else s
  }

  function RStrip(s: string): (r: string)
    ensures |r| <= |s| && r == s[..|r|]
    ensures |r| > 0 ==> !IsSpace(r[|r| - 1])
  {
    if |s| > 0 && IsSpace(s[|s| - 1]) then RStrip(s[..|s| - 1]) else s
  }

  /** Python's `s.strip()`. */
  function Strip(s: string): string {
    RStrip(LStrip(s))
  }

  lemma {:induction false} StripNoSpaceEnds(s: string)
    requires |s| > 0 && !IsSpace(s[0]) && !IsSpace(s[|s| - 1])
    ensures Strip(s) == s
  {
  }

  /** Trailing whitespace after a last non-space character is exactly what `RStrip` removes. */
  lemma {:induction false} RStripSpaces(s: string, ws: string)
    requires |s| > 0 && !IsSpace(s[|s| - 1])
    requires forall i :: 0 <= i < |ws| ==> IsSpace(ws[i])
    ensures RStrip(s + ws) == s
  {
    if |ws| > 0 {
      var w := ws[..|ws| - 1];
      assert (s + ws)[..|s + ws| - 1] == s + w;
      RStripSpaces(s, w);
    } else {
      assert s + ws == s;
    }
  }

  /** `strip()` of a text with a non-space first and last character, followed by whitespace. */
  lemma {:induction false} StripTrailing(s: string, ws: string)
    requires |s| > 0 && !IsSpace(s[0]) && !IsSpace(s[|s| - 1])
    requires forall i :: 0 <= i < |ws| ==> IsSpace(ws[i])
    ensures Strip(s + ws) == s
  {
    assert LStrip(s + ws) == s + ws;
    RStripSpaces(s, ws);
  }

  /** Python's `s.rstrip(c)` for a single character `c`. */
  function RStripChar(s: string, c: char): (r: string)
    ensures r <= s
    ensures |r| == 0 || r[|r| - 1] != c
    ensures forall i :: |r| <= i < |s| ==> s[i] == c
  {
    if |s| > 0 && s[|s| - 1] == c then RStripChar(s[..|s| - 1], c) else s
  }

  // ---------------------------------------------------------------------------
  // Substrings
  // ---------------------------------------------------------------------------

  /** Python's `s.endswith(suffix)`. */
  predicate EndsWith(s: string, suffix: string) {
    |suffix| <= |s| && s[|s| - |suffix|..] == suffix
  }

  /** Python's `sub in s`. */
  predicate Contains(s: string, sub: string) {
    sub <= s || (|s| > 0 && Contains(s[1..], sub))
  }

  lemma {:induction false} ContainsAt(s: string, sub: string, k: nat)
    requires k + |sub| <= |s| && s[k..k + |sub|] == sub
    ensures Contains(s, sub)
  {
    if k > 0 {
      assert s[1..][k - 1..k - 1 + |sub|] == sub;
      ContainsAt(s[1..], sub, k - 1);
    }
  }

  lemma {:induction false} ContainsWitness(s: string, sub: string) returns (k: nat)
    requires Contains(s, sub)
    ensures k + |sub| <= |s| && s[k..k + |sub|] == sub
  {
    if sub <= s {
      k := 0;
    } else {
      var j := ContainsWitness(s[1..], sub);
      k := j + 1;
    }
  }

  /** Containment is transitive: whatever contains `big` contains every part of it. */
  lemma {:induction false} ContainsTransitive(s: string, big: string, small: string)
    requires Contains(s, big) && Contains(big, small)
    ensures Contains(s, small)
  {
    var i := ContainsWitness(s, big);
    var j := ContainsWitness(big, small);
    assert forall t :: 0 <= t < |big| ==> s[i + t] == big[t];
    assert s[i + j..i + j + |small|] == big[j..j + |small|];
    ContainsAt(s, small, i + j);
  }

  /** ASCII case folding, the only part of `str.lower()` that the model needs. */
  function LowerChar(c: char): char {
    if 'A' <= c <= 'Z' then (c as int + 32) as char else c
  }

  function Lower(s: string): (r: string)
    ensures |r| == |s|
    ensures forall i :: 0 <= i < |s| ==> r[i] == LowerChar(s[i])
  {
    seq(|s|, i requires 0 <= i < |s| => LowerChar(s[i]))
  }

  // ---------------------------------------------------------------------------
  // Splitting
  // ---------------------------------------------------------------------------

  /** Index of the first `c` in `s`, if any. */
  function FindChar(s: string, c: char): (r: Option<nat>)
    ensures r.Some? ==> r.value < |s| && s[r.value] == c
    ensures r.Some? ==> forall j :: 0 <= j < r.value ==> s[j] != c
    ensures r.None? ==> c !in s
  {
    if |s| == 0 then None
    else if s[0] == c then Some(0)
    else match FindChar(s[1..], c)
      case None => None
      case Some(k) => Some(k + 1)
  }

  /** Python's `s.split(c, maxsplit)` for a single-character separator. */
  function SplitAtMost(s: string, c: char, maxsplit: nat): (parts: seq<string>)
    ensures 1 <= |parts| <= maxsplit + 1
    ensures forall i :: 0 <= i < |parts| - 1 ==> c !in parts[i]
    ensures |parts| <= maxsplit ==> c !in parts[|parts| - 1]
  {
    if maxsplit == 0 then [s]
    else match FindChar(s, c)
      case None => [s]
      case Some(k) => [s[..k]] + SplitAtMost(s[k + 1..], c, maxsplit - 1)
  }

  /** The first `n` elements, or all of them when there are fewer (Python `s[:n]`). */
  function Take<T>(s: seq<T>, n: nat): (r: seq<T>)
    ensures |r| == if |s| <= n then |s| else n
    ensures r <= s
  {
    if |s| <= n then s else s[..n]
  }

  /** `"".join(parts)`. */
  function Concat(parts: seq<string>): (r: string)
    ensures |parts| > 0 ==> EndsWith(r, parts[|parts| - 1])
  {
    if |parts| == 0 then "" else Concat(parts[..|parts| - 1]) + parts[|parts| - 1]
  }

  /** `c.join(parts)`. */
  function Join(parts: seq<string>, c: char): string {
    if |parts| == 0 then ""
    else if |parts| == 1 then parts[0]
    else parts[0] + [c] + Join(parts[1..], c)
  }

  /** Joining a first part onto a non-empty rest puts one separator between them. */
  lemma {:induction false} JoinCons(p: string, rest: seq<string>, c: char)
    requires |rest| >= 1
    ensures Join([p] + rest, c) == p + [c] + Join(rest, c)
  {
    assert ([p] + rest)[0] == p;
    assert ([p] + rest)[1..] == rest;
  }

  /** Cutting `s` at a separator and joining the two sides again gives `s`. */
  lemma {:induction false} JoinAtSeparator(s: string, c: char, k: nat, rest: seq<string>)
    requires k < |s| && s[k] == c && |rest| >= 1 && Join(rest, c) == s[k + 1..]
    ensures Join([s[..k]] + rest, c) == s
  {
    JoinCons(s[..k], rest, c);
    assert s == s[..k] + [c] + s[k + 1..];
  }

  /** Splitting and joining back with the same separator gives the input. */
  lemma {:induction false} JoinSplitAtMost(s: string, c: char, maxsplit: nat)
    ensures Join(SplitAtMost(s, c, maxsplit), c) == s
  {
    if maxsplit > 0 && FindChar(s, c).Some? {
      var k := FindChar(s, c).value;
      var rest := SplitAtMost(s[k + 1..], c, maxsplit - 1);
      assert SplitAtMost(s, c, maxsplit) == [s[..k]] + rest;
      JoinSplitAtMost(s[k + 1..], c, maxsplit - 1);
      JoinAtSeparator(s, c, k, rest);
    }
  }

  lemma {:induction false} FindCharAfter(a: string, c: char, b: string)
    requires c !in a
    ensures FindChar(a + [c] + b, c) == Some(|a|)
  {
    if |a| > 0 {
      assert (a + [c] + b)[1..] == a[1..] + [c] + b;
      FindCharAfter(a[1..], c, b);
    }
  }

  /** A split that still has splits left cuts at the first separator. */
  lemma {:induction false} SplitAtSeparator(a: string, c: char, b: string, maxsplit: nat)
    requires c !in a && maxsplit > 0
    ensures SplitAtMost(a + [c] + b, c, maxsplit) == [a] + SplitAtMost(b, c, maxsplit - 1)
  {
    var s := a + [c] + b;
    FindCharAfter(a, c, b);
    assert s[..|a|] == a;
    assert s[|a| + 1..] == b;
  }

  /**
    Joining parts and splitting again at most `|parts| - 1` times gives the
    parts back, provided no part but the last contains the separator.
   */
  lemma {:induction false} SplitAtMostJoin(parts: seq<string>, c: char)
    requires |parts| >= 1
    requires forall i :: 0 <= i < |parts| - 1 ==> c !in parts[i]
    ensures SplitAtMost(Join(parts, c), c, |parts| - 1) == parts
  {
    if |parts| > 1 {
      var tail := parts[1..];
      assert forall i :: 0 <= i < |tail| - 1 ==> c !in tail[i] by {
        forall i | 0 <= i < |tail| - 1 ensures c !in tail[i] {
          assert tail[i] == parts[i + 1];
        }
      }
      SplitAtMostJoin(tail, c);
      SplitJoinedCons(parts[0], tail, c);
      assert [parts[0]] + tail == parts;
    }
  }

  /** One more leading part without the separator survives the join and split. */
  lemma {:induction false} SplitJoinedCons(p: string, tail: seq<string>, c: char)
    requires |tail| >= 1 && c !in p
    requires SplitAtMost(Join(tail, c), c, |tail| - 1) == tail
    ensures SplitAtMost(Join([p] + tail, c), c, |tail|) == [p] + tail
  {
    JoinCons(p, tail, c);
    SplitAtSeparator(p, c, Join(tail, c), |tail|);
  }

  // ---------------------------------------------------------------------------
  // Ordered key/value lists (query strings, headers, JSON bodies)
  // ---------------------------------------------------------------------------

  /** The value of the first entry with key `k`. */
  function Lookup<V>(kvs: seq<(string, V)>, k: string): (r: Option<V>)
    ensures r.Some? <==> k in KeysOf(kvs)
  {
    if |kvs| == 0 then None
    else
      KeysOfCons(kvs);
      if kvs[0].0 == k then Some(kvs[0].1) else Lookup(kvs[1..], k)
  }

  function KeysOf<V>(kvs: seq<(string, V)>): set<string> {
    set i | 0 <= i < |kvs| :: kvs[i].0
  }

  lemma {:induction false} KeysOfCons<V>(kvs: seq<(string, V)>)
    requires |kvs| > 0
    ensures KeysOf(kvs) == {kvs[0].0} + KeysOf(kvs[1..])
  {
    forall k | k in KeysOf(kvs) ensures k in {kvs[0].0} + KeysOf(kvs[1..]) {
      var i :| 0 <= i < |kvs| && kvs[i].0 == k;
      if i > 0 { assert kvs[1..][i - 1].0 == k; }
    }
  }

  /** Looking up the key of an entry that no earlier entry shares yields that entry. */
  lemma {:induction false} LookupFirst<V>(kvs: seq<(string, V)>, i: nat)
    requires i < |kvs|
    requires forall j :: 0 <= j < i ==> kvs[j].0 != kvs[i].0
    ensures Lookup(kvs, kvs[i].0) == Some(kvs[i].1)
  {
    if i > 0 {
      LookupFirst(kvs[1..], i - 1);
    }
  }

  /** In a list without repeated keys, every entry is the one its key finds. */
  lemma {:induction false} LookupAt<V>(kvs: seq<(string, V)>, i: nat)
    requires i < |kvs| && DistinctKeys(kvs)
    ensures Lookup(kvs, kvs[i].0) == Some(kvs[i].1)
  {
    LookupFirst(kvs, i);
  }

  /** No key appears twice, as in a Python dict. */
  predicate DistinctKeys<V>(kvs: seq<(string, V)>) {
    forall i, j :: 0 <= i < j < |kvs| ==> kvs[i].0 != kvs[j].0
  }

  // ---------------------------------------------------------------------------
  // f-string rendering
  // ---------------------------------------------------------------------------

  /** `f"{v}"` of a decoded JSON scalar. */
  function Show(v: Scalar): (r: string)
    ensures v.Str? ==> r == v.s
  {
    match v
    case Null => "None"
    case Bool(b) => if b then "True" else "False"
    case Int(i) => IntToString(i)
    case Str(s) => s
  }

  /** `str(KeyError(k))`: the missing key, quoted. */
  function KeyErrorText(k: string): string {
    "'" + k + "'"
  }

  /** Read a key that must be present (`d[k]`), raising `KeyError` otherwise. */
  function Required(o: Option<Scalar>, k: string): (r: Result<string>)
    ensures r.Ok? <==> o.Some?
    ensures o.Some? ==> r.value == Show(o.value)
    ensures o.None? ==> r.msg == KeyErrorText(k)
  {
    if o.Some? then Ok(Show(o.value)) else Err(KeyErrorText(k))
  }
}

=== FILE: json.dfy ===
/**
  JSON values and the text `json.dumps(value, ensure_ascii=False)` produces for
  them: `", "` between items, `": "` after keys, and string escapes for the
  quote, the backslash and the control characters only.
 */
module Json {
  import opened Common

  /** A JSON value; object fields keep their insertion order, as a Python dict does. */
  datatype Json =
    | JNull
    | JBool(b: bool)
    | JInt(i: int)
    | JStr(s: string)
    | JArray(items: seq<Json>)
    | JObject(fields: seq<(string, Json)>)

  // ---------------------------------------------------------------------------
  // String escapes
  // ---------------------------------------------------------------------------

  function HexDigit(d: nat): (c: char)
    requires d < 16
  {
    if d < 10 then DigitChar(d) else ('a' as int + d - 10) as char
  }

  function HexValue(c: char): Option<nat> {
    if '0' <= c <= '9' then Some(c as int - '0' as int)
    else if 'a' <= c <= 'f' then Some(c as int - 'a' as int + 10)
    else if 'A' <= c <= 'F' then Some(c as int - 'A' as int + 10)
    else None
  }

  lemma {:induction false} HexRoundTrip(d: nat)
    requires d < 16
    ensures HexValue(HexDigit(d)) == Some(d)
  {
  }

  /** A character the encoder must escape: the quote, the backslash, or a control character. */
  predicate NeedsEscape(c: char) {
    c == '"' || c == '\\' || c < ' '
  }

  /** The escape the encoder writes for one character. */
  function EscapeChar(c: char): (r: string)
    ensures |r| > 0
    ensures !NeedsEscape(c) ==> r == [c]
    ensures NeedsEscape(c) ==> r[0] == '\\'
    ensures forall i :: 0 <= i < |r| ==> r[i] >= ' '
  {
    if c == '"' then "\\\""
    else if c == '\\' then "\\\\"
    else if c == '\n' then "\\n"
    else if c == '\r' then "\\r"
    else if c == '\t' then "\\t"
    else if c == '\U{8}' then "\\b"
    else if c == '\U{C}' then "\\f"
    else if c < ' ' then "\\u00" + [HexDigit(c as int / 16), HexDigit(c as int % 16)]
    else [c]
  }

  /** The body of a JSON string literal for `s`: no control character survives. */
  function Escape(s: string): (r: string)
    ensures forall i :: 0 <= i < |r| ==> r[i] >= ' '
    ensures |r| >= |s|
  {
    if |s| == 0 then "" else EscapeChar(s[0]) + Escape(s[1..])
  }

  /** `s` as a JSON string literal. */
  function Quote(s: string): (r: string)
    ensures |r| >= 2 && r[0] == '"' && r[|r| - 1] == '"'
  {
    "\"" + Escape(s) + "\""
  }

  /** Decodes the escapes a JSON string body may contain, or `None` when one is malformed. */
  function Unescape(r: string): Option<string>
    decreases |r|
  {
    if |r| == 0 then Some("")
    else if r[0] != '\\' then
      match Unescape(r[1..])
      case None => None
      case Some(rest) => Some([r[0]] + rest)
    else if |r| < 2 then None
    else
      var e := r[1];
      var simple :=
        if e == '"' then Some('"') else if e == '\\' then Some('\\') else if e == '/' then Some('/')
        else if e == 'n' then Some('\n') else if e == 'r' then Some('\r') else if e == 't' then Some('\t')
        else if e == 'b' then Some('\U{8}') else if e == 'f' then Some('\U{C}') else None;
      if simple.Some? then
        match Unescape(r[2..])
        case None => None
        case Some(rest) => Some([simple.value] + rest)
      else if e == 'u' && |r| >= 6 then
        match (HexValue(r[2]), HexValue(r[3]), HexValue(r[4]), HexValue(r[5]))
        case (Some(a), Some(b), Some(c), Some(d)) =>
          var code := ((a * 16 + b) * 16 + c) * 16 + d;
          if code < 0xD800 || 0xE000 <= code then
            match Unescape(r[6..])
            case None => None
            case Some(rest) => Some([code as char] + rest)
          else None
        case _ => None
      else None
  }

  lemma {:induction false} UnescapeEscapeChar(c: char, t: string)
    ensures Unescape(EscapeChar(c) + t) ==
              match Unescape(t)
              case None => None
              case Some(rest) => Some([c] + rest)
  {
    var r := EscapeChar(c) + t;
    if NeedsEscape(c) && c < ' ' && c !in "\n\r\t\U{8}\U{C}" {
      var hi := c as int / 16;
      var lo := c as int % 16;
      HexRoundTrip(hi);
      HexRoundTrip(lo);
      assert r[1] == 'u' && r[2] == '0' && r[3] == '0';
      assert r[4] == HexDigit(hi) && r[5] == HexDigit(lo);
      assert r[6..] == t;
      assert ((0 * 16 + 0) * 16 + hi) * 16 + lo == c as int;
    } else if NeedsEscape(c) {
      assert r[2..] == t;
    } else {
      assert r[1..] == t;
    }
  }

  /** Escaping loses nothing: decoding the escaped text gives back the original string. */
  lemma {:induction false} UnescapeEscape(s: string)
    ensures Unescape(Escape(s)) == Some(s)
  {
    if |s| > 0 {
      UnescapeEscape(s[1..]);
      UnescapeEscapeChar(s[0], Escape(s[1..]));
      assert [s[0]] + s[1..] == s;
    }
  }

  /** A string with nothing to escape is written between quotes unchanged. */
  lemma {:induction false} EscapePlain(s: string)
    requires forall i :: 0 <= i < |s| ==> !NeedsEscape(s[i])
    ensures Escape(s) == s
  {
    if |s| > 0 {
      EscapePlain(s[1..]);
      assert [s[0]] + s[1..] == s;
    }
  }

  // ---------------------------------------------------------------------------
  // Values
  // ---------------------------------------------------------------------------

  /** `sep.join(parts)`. */
  function JoinText(sep: string, parts: seq<string>): (r: string)
    ensures |parts| == 1 ==> r == parts[0]
  {
    if |parts| == 0 then ""
    else if |parts| == 1 then parts[0]
    else parts[0] + sep + JoinText(sep, parts[1..])
  }

  function Member(key: string, value: string): string {
    Quote(key) + ": " + value
  }

  /** `json.dumps(j, ensure_ascii=False)`. */
  function Dumps(j: Json): (r: string)
    ensures |r| > 0
    ensures j.JStr? ==> r == Quote(j.s)
    ensures j.JArray? ==> r[0] == '[' && r[|r| - 1] == ']'
    ensures j.JObject? ==> r[0] == '{' && r[|r| - 1] == '}'
  {
    match j
    case JNull => "null"
    case JBool(b) => if b then "true" else "false"
    case JInt(i) => IntToString(i)
    case JStr(s) => Quote(s)
    case JArray(items) =>
      "[" + JoinText(", ", seq(|items|, i requires 0 <= i < |items| => Dumps(items[i]))) + "]"
    case JObject(fields) =>
      "{" + JoinText(", ", seq(|fields|, i requires 0 <= i < |fields| =>
                                 Member(fields[i].0, Dumps(fields[i].1)))) + "}"
  }

  /** A two-member object with plain string values is written as expected. */
  lemma {:induction false} DumpsPair(k1: string, v1: string, k2: string, v2: string)
    requires forall i :: 0 <= i < |k1| ==> !NeedsEscape(k1[i])
    requires forall i :: 0 <= i < |v1| ==> !NeedsEscape(v1[i])
    requires forall i :: 0 <= i < |k2| ==> !NeedsEscape(k2[i])
    requires forall i :: 0 <= i < |v2| ==> !NeedsEscape(v2[i])
    ensures Dumps(JObject([(k1, JStr(v1)), (k2, JStr(v2))]))
            == "{" + PlainMember(k1, v1) + ", " + PlainMember(k2, v2) + "}"
  {
    var m1 := Member(k1, Dumps(JStr(v1)));
    var m2 := Member(k2, Dumps(JStr(v2)));
    PlainMemberText(k1, v1);
    PlainMemberText(k2, v2);
    var fields := [(k1, JStr(v1)), (k2, JStr(v2))];
    var parts := seq(|fields|, i requires 0 <= i < |fields| => Member(fields[i].0, Dumps(fields[i].1)));
    assert parts == [m1, m2];
    assert JoinText(", ", parts) == m1 + ", " + m2;
    assert Dumps(JObject(fields)) == "{" + JoinText(", ", parts) + "}";
    assert "{" + (m1 + ", " + m2) + "}" == "{" + m1 + ", " + m2 + "}";
  }

  /** How a member with a plain key and a plain string value is written. */
  function PlainMember(k: string, v: string): string {
    "\"" + k + "\": \"" + v + "\""
  }

  lemma {:induction false} PlainMemberText(k: string, v: string)
    requires forall i :: 0 <= i < |k| ==> !NeedsEscape(k[i])
    requires forall i :: 0 <= i < |v| ==> !NeedsEscape(v[i])
    ensures Member(k, Dumps(JStr(v))) == PlainMember(k, v)
  {
    EscapePlain(k);
    EscapePlain(v);
  }

  /** `dict.get(key, default)` on a JSON object: the first field with that key. */
  function Get(fields: seq<(string, Json)>, key: string, default: Json): (r: Json)
    ensures key !in KeysOf(fields) ==> r == default
    ensures key in KeysOf(fields) ==> Lookup(fields, key) == Some(r)
  {
    match Lookup(fields, key)
    case Some(v) => v
    case None => default
  }

  /** Python's name for the type a decoded JSON value has, as error messages show it. */
  function TypeName(j: Json): string {
    match j
    case JNull => "NoneType"
    case JBool(_) => "bool"
    case JInt(_) => "int"
    case JStr(_) => "str"
    case JArray(_) => "list"
    case JObject(_) => "dict"
  }

  /** `x.get(...)` on a decoded JSON value: only objects have it. */
  function Fields(j: Json): Result<seq<(string, Json)>> {
    if j.JObject? then Ok(j.fields) else Err("'" + TypeName(j) + "' object has no attribute 'get'")
  }

  /**
    What a `for` loop over a decoded JSON value visits: the items of a list,
    the keys of an object, the one-character strings of a string. Anything
    else raises a `TypeError`.
   */
  function Iterate(j: Json): (r: Result<seq<Json>>)
    ensures r.Ok? <==> j.JArray? || j.JObject? || j.JStr?
    ensures j.JArray? ==> r == Ok(j.items)
    ensures j.JObject? ==> r.Ok? && |r.value| == |j.fields|
                           && forall i :: 0 <= i < |j.fields| ==> r.value[i] == JStr(j.fields[i].0)
    ensures j.JStr? ==> r.Ok? && |r.value| == |j.s| && forall i :: 0 <= i < |j.s| ==> r.value[i] == JStr([j.s[i]])
  {
    match j
    case JArray(items) => Ok(items)
    case JObject(fields) => Ok(seq(|fields|, i requires 0 <= i < |fields| => JStr(fields[i].0)))
    case JStr(s) => Ok(seq(|s|, i requires 0 <= i < |s| => JStr([s[i]])))
    case _ => Err("'" + TypeName(j) + "' object is not iterable")
  }

  /** Python's `repr` of a decoded JSON value, quoting every string with single quotes. */
  function Repr(j: Json): string {
    match j
    case JNull => "None"
    case JBool(b) => if b then "True" else "False"
    case JInt(i) => IntToString(i)
    case JStr(s) => "'" + s + "'"
    case JArray(items) =>
      "[" + JoinText(", ", seq(|items|, i requires 0 <= i < |items| => Repr(items[i]))) + "]"
    case JObject(fields) =>
      "{" + JoinText(", ", seq(|fields|, i requires 0 <= i < |fields| =>
                                 "'" + fields[i].0 + "': " + Repr(fields[i].1))) + "}"
  }

  /** Python's `str` of a decoded JSON value: a string as it is, anything else as its `repr`. */
  function PyStr(j: Json): string {
    if j.JStr? then j.s else Repr(j)
  }

  /** Every part of a joined text occurs in it. */
  lemma {:induction false} JoinTextContains(sep: string, parts: seq<string>, k: nat)
    requires k < |parts|
    ensures Contains(JoinText(sep, parts), parts[k])
  {
    if |parts| == 1 {
      ContainsAt(parts[0], parts[0], 0);
    } else if k == 0 {
      var t := JoinText(sep, parts);
      assert t == parts[0] + (sep + JoinText(sep, parts[1..]));
      assert t[0..|parts[0]|] == parts[0];
      ContainsAt(t, parts[0], 0);
    } else {
      var rest := JoinText(sep, parts[1..]);
      var t := JoinText(sep, parts);
      JoinTextContains(sep, parts[1..], k - 1);
      assert t == (parts[0] + sep) + rest;
      ContainsAt(t, rest, |parts[0] + sep|);
      ContainsTransitive(t, rest, parts[k]);
    }
  }

  /** A string inside a list shows up, quoted, in the list's `str`. */
  lemma {:induction false} ReprListContains(items: seq<Json>, k: nat, sub: string)
    requires k < |items| && items[k].JStr? && Contains(items[k].s, sub)
    ensures Contains(PyStr(JArray(items)), sub)
  {
    var reprs := seq(|items|, i requires 0 <= i < |items| => Repr(items[i]));
    var inner := JoinText(", ", reprs);
    var t := PyStr(JArray(items));
    assert t == "[" + inner + "]";
    JoinTextContains(", ", reprs, k);
    var q := reprs[k];
    assert q == "'" + items[k].s + "'";
    assert q[1..1 + |items[k].s|] == items[k].s;
    ContainsAt(q, items[k].s, 1);
    assert t[1..1 + |inner|] == inner;
    ContainsAt(t, inner, 1);
    ContainsTransitive(t, inner, q);
    ContainsTransitive(t, q, items[k].s);
    ContainsTransitive(t, items[k].s, sub);
  }

  /** Python truthiness of a JSON value. */
  predicate JTruthy(j: Json) {
    match j
    case JNull => false
    case JBool(b) => b
    case JInt(i) => i != 0
    case JStr(s) => |s| > 0
    case JArray(items) => |items| > 0
    case JObject(fields) => |fields| > 0
  }
}

=== FILE: llm_providers.dfy ===
/**
  The provider helpers of the LLM-provider service: cleaning a configured
  base URL, the endpoint URLs derived from it, reading model lists, choosing
  between an OpenAI-compatible and an Ollama server, and the per-provider
  request counters. HTTP answers come in as already-received values.
 */
module LlmProviders {
  import opened Common
  import opened Json

  // ---------------------------------------------------------------------------
  // Base URLs
  // ---------------------------------------------------------------------------

  /** The endpoint paths a configured base URL may already end with, in the order they are tried. */
  const EndpointSuffixes: seq<string> := ["/v1/models", "/v1/chat/completions", "/api/tags", "/api/chat", "/v1"]

  const ModelsPath := "/v1/models"
  const TagsPath := "/api/tags"
  const ChatCompletionsPath := "/v1/chat/completions"
  const OllamaChatPath := "/api/chat"

  /** Removes the first suffix of the list that `u` ends with, and nothing more. */
  function RemoveFirstSuffix(u: string, suffixes: seq<string>): (r: string)
    ensures r <= u
    decreases |suffixes|
  {
    if |suffixes| == 0 then u
    else if EndsWith(u, suffixes[0]) then u[..|u| - |suffixes[0]|]
    else RemoveFirstSuffix(u, suffixes[1..])
  }

  /**
    Exactly one suffix goes, the first of the list that matches; when none
    matches the text is kept.
   */
  lemma {:induction false} RemoveFirstSuffixSpec(u: string, suffixes: seq<string>, k: nat)
    requires k < |suffixes| && EndsWith(u, suffixes[k])
    requires forall j :: 0 <= j < k ==> !EndsWith(u, suffixes[j])
    ensures RemoveFirstSuffix(u, suffixes) + suffixes[k] == u
    decreases k
  {
    if k > 0 {
      assert forall j :: 0 <= j < k - 1 ==> suffixes[1..][j] == suffixes[j + 1];
      RemoveFirstSuffixSpec(u, suffixes[1..], k - 1);
    }
  }

  lemma {:induction false} RemoveNoSuffix(u: string, suffixes: seq<string>)
    requires forall j :: 0 <= j < |suffixes| ==> !EndsWith(u, suffixes[j])
    ensures RemoveFirstSuffix(u, suffixes) == u
    decreases |suffixes|
  {
    if |suffixes| > 0 {
      assert forall j :: 0 <= j < |suffixes| - 1 ==> suffixes[1..][j] == suffixes[j + 1];
      RemoveNoSuffix(u, suffixes[1..]);
    }
  }

  /** The base URL every request is built on: trailing `/` removed, then at most one endpoint suffix. */
  function NormalizeBaseUrl(raw: string): (r: string)
    ensures r <= raw
  {
    RemoveFirstSuffix(RStripChar(raw, '/'), EndpointSuffixes)
  }

  /** Normalising removes one suffix only, so it is not idempotent. */
  lemma {:induction false} NormalizeNotIdempotent()
    ensures NormalizeBaseUrl("a/v1/v1") == "a/v1"
    ensures NormalizeBaseUrl(NormalizeBaseUrl("a/v1/v1")) == "a"
  {
    var u := "a/v1/v1";
    assert RStripChar(u, '/') == u;
    assert !EndsWith(u, EndpointSuffixes[0]) && !EndsWith(u, EndpointSuffixes[1]);
    assert !EndsWith(u, EndpointSuffixes[2]) && !EndsWith(u, EndpointSuffixes[3]);
    assert EndsWith(u, EndpointSuffixes[4]);
    RemoveFirstSuffixSpec(u, EndpointSuffixes, 4);
    var v := "a/v1";
    assert RStripChar(v, '/') == v;
    assert !EndsWith(v, EndpointSuffixes[0]) && !EndsWith(v, EndpointSuffixes[1]);
    assert !EndsWith(v, EndpointSuffixes[2]) && !EndsWith(v, EndpointSuffixes[3]);
    assert EndsWith(v, EndpointSuffixes[4]);
    RemoveFirstSuffixSpec(v, EndpointSuffixes, 4);
  }

  /** `s` does not end with `t` when they differ `k` characters from the end. */
  lemma {:induction false} DiffersFromEnd(s: string, t: string, k: nat)
    requires 1 <= k <= |t| && k <= |s| && s[|s| - k] != t[|t| - k]
    ensures !EndsWith(s, t)
  {
    if |t| <= |s| {
      var tail := s[|s| - |t|..];
      assert tail[|t| - k] == s[|s| - k];
      assert tail != t;
    }
  }

  /** `base + p` ends with `p`, and cutting `p` off leaves `base`. */
  lemma {:induction false} EndsWithOwn(base: string, p: string)
    ensures EndsWith(base + p, p)
    ensures (base + p)[..|base + p| - |p|] == base
  {
    assert (base + p)[|base|..] == p;
  }

  /** `base + p` does not end with `q` when `p` and `q` differ `k` characters from their ends. */
  lemma {:induction false} NotEndingWith(base: string, p: string, q: string, k: nat)
    requires 1 <= k <= |p| && k <= |q| && p[|p| - k] != q[|q| - k]
    ensures !EndsWith(base + p, q)
  {
    var u := base + p;
    assert u[|u| - k] == p[|p| - k];
    DiffersFromEnd(u, q, k);
  }

  /**
    A URL that already points at one of the endpoints leads back to its
    base: normalising `base + suffix` gives `base` for every suffix of the
    list, whatever `base` is.
   */
  lemma {:induction false} EndpointLeadsBack(base: string, k: nat)
    requires k < |EndpointSuffixes|
    ensures NormalizeBaseUrl(base + EndpointSuffixes[k]) == base
  {
    var S := EndpointSuffixes;
    var p := S[k];
    if k == 1 {
      NotEndingWith(base, p, S[0], 2);
    } else if k == 2 {
      NotEndingWith(base, p, S[0], 2);
      NotEndingWith(base, p, S[1], 2);
    } else if k == 3 {
      NotEndingWith(base, p, S[0], 1);
      NotEndingWith(base, p, S[1], 1);
      NotEndingWith(base, p, S[2], 1);
    } else if k == 4 {
      NotEndingWith(base, p, S[0], 1);
      NotEndingWith(base, p, S[1], 1);
      NotEndingWith(base, p, S[2], 1);
      NotEndingWith(base, p, S[3], 1);
    }
    LeadsBackPast(base, k);
  }

  /** `base + suffix` normalises to `base` once no earlier suffix of the list matches it. */
  lemma {:induction false} LeadsBackPast(base: string, k: nat)
    requires k < |EndpointSuffixes|
    requires forall j :: 0 <= j < k ==> !EndsWith(base + EndpointSuffixes[k], EndpointSuffixes[j])
    ensures NormalizeBaseUrl(base + EndpointSuffixes[k]) == base
  {
    var p := EndpointSuffixes[k];
    var u := base + p;
    assert u[|u| - 1] == p[|p| - 1];
    assert RStripChar(u, '/') == u;
    EndsWithOwn(base, p);
    RemoveFirstSuffixSpec(u, EndpointSuffixes, k);
  }

  function ModelsUrl(raw: string): string { NormalizeBaseUrl(raw) + ModelsPath }
  function TagsUrl(raw: string): string { NormalizeBaseUrl(raw) + TagsPath }
  function ChatCompletionsUrl(raw: string): string { NormalizeBaseUrl(raw) + ChatCompletionsPath }
  function OllamaChatUrl(raw: string): string { NormalizeBaseUrl(raw) + OllamaChatPath }

  /** Every derived endpoint URL normalises back to the base it was built from. */
  lemma {:induction false} DerivedUrlsLeadBack(raw: string)
    ensures NormalizeBaseUrl(ModelsUrl(raw)) == NormalizeBaseUrl(raw)
    ensures NormalizeBaseUrl(TagsUrl(raw)) == NormalizeBaseUrl(raw)
    ensures NormalizeBaseUrl(ChatCompletionsUrl(raw)) == NormalizeBaseUrl(raw)
    ensures NormalizeBaseUrl(OllamaChatUrl(raw)) == NormalizeBaseUrl(raw)
  {
    var b := NormalizeBaseUrl(raw);
    EndpointLeadsBack(b, 0);
    EndpointLeadsBack(b, 1);
    EndpointLeadsBack(b, 2);
    EndpointLeadsBack(b, 3);
  }

  // ---------------------------------------------------------------------------
  // HTTP answers
  // ---------------------------------------------------------------------------

  /** What one request attempt gave: no response at all, or a status, its text and the decoded body. */
  datatype Probe =
    | NoResponse
    | Response(status: int, text: string, body: Result<Json>)

  predicate Ok200(p: Probe) {
    p.Response? && p.status == 200
  }

  // ---------------------------------------------------------------------------
  // Model ids of an OpenAI-compatible server
  // ---------------------------------------------------------------------------

  /** What one entry of `data` contributes: its id, nothing, or the error that abandons the listing. */
  datatype Entry = Id(value: Json) | Skip | Abort

  function EntryOf(model: Json): Entry {
    match model
    case JObject(fields) => if "id" in KeysOf(fields) then Id(Get(fields, "id", JNull)) else Skip
    case JStr(s) => if Contains(s, "id") then Abort else Skip
    case JArray(items) => if JStr("id") in items then Abort else Skip
    case _ => Abort
  }

  /** The ids of the entries in order, or `None` once an entry raises. */
  function IdsOf(entries: seq<Json>): (r: Option<seq<Json>>)
    ensures r.Some? ==> |r.value| <= |entries|
  {
    if |entries| == 0 then Some([])
    else
      match EntryOf(entries[0])
      case Abort => None
      case Skip => IdsOf(entries[1..])
      case Id(v) =>
        match IdsOf(entries[1..])
        case None => None
        case Some(rest) => Some([v] + rest)
  }

  function Single(e: Entry): Option<seq<Json>> {
    match e
    case Abort => None
    case Skip => Some([])
    case Id(v) => Some([v])
  }

  function Both(a: Option<seq<Json>>, b: Option<seq<Json>>): Option<seq<Json>> {
    if a.Some? && b.Some? then Some(a.value + b.value) else None
  }

  /** The listing is made entry by entry, in order: the ids of a concatenation are the concatenated ids. */
  lemma {:induction false} IdsOfAppend(a: seq<Json>, b: seq<Json>)
    ensures IdsOf(a + b) == Both(IdsOf(a), IdsOf(b))
  {
    if |a| > 0 {
      assert (a + b)[0] == a[0];
      assert (a + b)[1..] == a[1..] + b;
      IdsOfAppend(a[1..], b);
      var e := EntryOf(a[0]);
      if e.Id? && IdsOf(a[1..]).Some? && IdsOf(b).Some? {
        assert [e.value] + (IdsOf(a[1..]).value + IdsOf(b).value)
               == ([e.value] + IdsOf(a[1..]).value) + IdsOf(b).value;
      }
    } else {
      assert a + b == b;
      if IdsOf(b).Some? {
        assert [] + IdsOf(b).value == IdsOf(b).value;
      }
    }
  }

  lemma {:induction false} IdsOfOne(e: Json)
    ensures IdsOf([e]) == Single(EntryOf(e))
  {
    assert [e][1..] == [];
    if EntryOf(e).Id? {
      assert [EntryOf(e).value] + [] == [EntryOf(e).value];
    }
  }

  /**
    `buscar_modelos_api`: the ids of the `data` entries of a 2xx answer to
    `GET {base}/v1/models`. Any failure on the way gives the empty list.
   */
  function ModelIds(answer: Probe): (r: seq<Json>)
    ensures !(answer.Response? && 200 <= answer.status < 300 && answer.body.Ok?) ==> r == []
    ensures answer.Response? && 200 <= answer.status < 300 && answer.body.Ok? && answer.body.value.JObject?
            && Get(answer.body.value.fields, "data", JNull).JArray?
            && IdsOf(Get(answer.body.value.fields, "data", JNull).items).Some?
            ==> r == IdsOf(Get(answer.body.value.fields, "data", JNull).items).value
    ensures (answer.Response? && 200 <= answer.status < 300 && answer.body.Ok? && answer.body.value.JObject?
             && (Iterate(Get(answer.body.value.fields, "data", JNull)).Err?
                 || IdsOf(Iterate(Get(answer.body.value.fields, "data", JNull)).value).None?))
            ==> r == []
  {
    if answer.Response? && 200 <= answer.status < 300 && answer.body.Ok? then ModelIdsOf(answer.body.value)
    else []
  }

  function ModelIdsOf(data: Json): (r: seq<Json>)
    ensures !data.JObject? ==> r == []
    ensures data.JObject? && "data" !in KeysOf(data.fields) ==> r == []
    ensures data.JObject? && "data" in KeysOf(data.fields) && Get(data.fields, "data", JNull).JArray?
            && IdsOf(Get(data.fields, "data", JNull).items).Some?
            ==> r == IdsOf(Get(data.fields, "data", JNull).items).value
    ensures (data.JObject? && "data" in KeysOf(data.fields)
             && (Iterate(Get(data.fields, "data", JNull)).Err? || IdsOf(Iterate(Get(data.fields, "data", JNull)).value).None?))
            ==> r == []
  {
    if data.JObject? && "data" in KeysOf(data.fields) then
      match Iterate(Get(data.fields, "data", JNull))
      case Err(_) => []
      case Ok(entries) =>
        match IdsOf(entries)
        case None => []
        case Some(ids) => ids
    else []
  }

  /** A list of objects that all carry an `id` gives exactly those ids, in order. */
  lemma {:induction false} IdsOfKeyed(entries: seq<Json>)
    requires forall i :: 0 <= i < |entries| ==> entries[i].JObject? && "id" in KeysOf(entries[i].fields)
    ensures IdsOf(entries).Some? && |IdsOf(entries).value| == |entries|
    ensures forall i :: 0 <= i < |entries| ==> IdsOf(entries).value[i] == Get(entries[i].fields, "id", JNull)
  {
    if |entries| > 0 {
      assert forall i :: 0 < i < |entries| ==> entries[i] == entries[1..][i - 1];
      IdsOfKeyed(entries[1..]);
    }
  }

  /** Entries that are objects never abandon the listing; those with an `id` give it, in order. */
  lemma {:induction false} IdsOfObjects(entries: seq<Json>)
    requires forall i :: 0 <= i < |entries| ==> entries[i].JObject?
    ensures IdsOf(entries).Some?
    ensures |entries| > 0 && "id" in KeysOf(entries[0].fields)
            ==> IdsOf(entries).value[0] == Get(entries[0].fields, "id", JNull)
  {
    if |entries| > 0 {
      IdsOfObjects(entries[1..]);
    }
  }

  // ---------------------------------------------------------------------------
  // Choosing the endpoint
  // ---------------------------------------------------------------------------

  datatype Kind = OpenAi | Ollama

  function KindName(k: Kind): string {
    match k
    case OpenAi => "openai"
    case Ollama => "ollama"
  }

  const NoServerAnswer := "Nenhuma resposta do servidor"

  /** The report for a request that never got a 200. */
  function HttpError(p: Probe): string {
    if p.Response? then "Erro HTTP " + IntToString(p.status) + ": " + p.text
    else "Erro HTTP N/A: " + NoServerAnswer
  }

  /** Which server answered, or the report of the last answer obtained. */
  datatype Detection = Detected(kind: Kind, body: Result<Json>) | Undetected(message: string)

  /**
    The OpenAI-compatible endpoint is asked first; the Ollama endpoint only
    when that gave no 200. A second attempt that raises leaves the first
    answer as the one reported.
   */
  function Detect(openai: Probe,
                   ollama: Probe): (r: Detection)
    ensures r.Detected? <==> Ok200(openai) || Ok200(ollama)
  {
    if Ok200(openai) then Detected(OpenAi, openai.body)
    else if Ok200(ollama) then Detected(Ollama, ollama.body)
    else Undetected(HttpError(if ollama.Response? then ollama else openai))
  }

  /** The endpoints contacted, in order. */
  function Contacted(openai: Probe, first: string, second: string): (r: seq<string>)
    ensures 1 <= |r| <= 2 && r[0] == first
  {
    if Ok200(openai) then [first] else [first, second]
  }

  /**
    The OpenAI-compatible answer wins whenever it is a 200: the Ollama
    endpoint is then neither contacted nor consulted. Ollama is chosen
    exactly when it alone answered 200.
   */
  lemma {:induction false} DetectOrder(openai: Probe, ollama: Probe, other: Probe, first: string, second: string)
    ensures Ok200(openai) ==> Detect(openai, ollama) == Detect(openai, other) == Detected(OpenAi, openai.body)
    ensures Ok200(openai) <==> Contacted(openai, first, second) == [first]
    ensures (Detect(openai, ollama).Detected? && Detect(openai, ollama).kind == Ollama)
            <==> !Ok200(openai) && Ok200(ollama)
  {
  }

  /** Without a 200 the report names the status and text of the latest answer received. */
  lemma {:induction false} DetectFailure(openai: Probe,
                   ollama: Probe)
    requires !Ok200(openai) && !Ok200(ollama)
    ensures ollama.Response? ==> Detect(openai, ollama).message == HttpError(ollama)
    ensures ollama.NoResponse? && openai.Response? ==> Detect(openai, ollama).message == HttpError(openai)
    ensures ollama.NoResponse? && openai.NoResponse?
            ==> Detect(openai, ollama).message == "Erro HTTP N/A: " + NoServerAnswer
  {
  }

  // ---------------------------------------------------------------------------
  // Model records and capability flags
  // ---------------------------------------------------------------------------

  /** One entry of the model cache. */
  datatype ModelInfo = ModelInfo(
    id: Json,
    nome: Json,
    contexto: Json,
    suportaImagens: bool,
    suportaFerramentas: bool,
    tamanho: Json,
    quantizacao: Json)

  /** `x.lower()` needs a string. */
  function StrOf(j: Json): Result<string> {
    if j.JStr? then Ok(j.s) else Err("'" + TypeName(j) + "' object has no attribute 'lower'")
  }

  /** An Ollama model accepts images when its name mentions `llava` or `bakllava`. */
  predicate OllamaImages(name: string) {
    Contains(Lower(name), "llava") || Contains(Lower(name), "bakllava")
  }

  /** The `bakllava` test adds nothing: every name containing it contains `llava`. */
  lemma {:induction false} OllamaImagesLlava(name: string)
    ensures OllamaImages(name) <==> Contains(Lower(name), "llava")
  {
    var b := "bakllava";
    assert b[3..3 + |"llava"|] == "llava";
    ContainsAt(b, "llava", 3);
    if Contains(Lower(name), b) {
      ContainsTransitive(Lower(name), b, "llava");
    }
  }

  /** An OpenAI-compatible model accepts images when its id mentions `vision`. */
  predicate OpenAiImages(id: string) {
    Contains(Lower(id), "vision")
  }

  lemma {:induction false} LowerTwice(s: string)
    ensures Lower(Lower(s)) == Lower(s)
  {
  }

  /** Both image tests ignore letter case. */
  lemma {:induction false} ImagesIgnoreCase(s: string)
    ensures OpenAiImages(Lower(s)) == OpenAiImages(s)
    ensures OllamaImages(Lower(s)) == OllamaImages(s)
  {
    LowerTwice(s);
  }

  /** An OpenAI-compatible model offers tools when the text of its `capabilities` mentions them. */
  predicate OpenAiTools(capabilities: Json) {
    Contains(PyStr(capabilities), "tools")
  }

  /** A capability list naming `tools` turns the flag on. */
  lemma {:induction false} ToolsCapability(caps: seq<Json>, k: nat)
    requires k < |caps| && caps[k] == JStr("tools")
    ensures OpenAiTools(JArray(caps))
  {
    ContainsAt("tools", "tools", 0);
    ReprListContains(caps, k, "tools");
  }

  /** One entry of Ollama's `models` list. Ollama models never offer tools. */
  function OllamaModel(entry: Json): (r: Result<ModelInfo>)
    ensures r.Ok? <==> entry.JObject? && Get(entry.fields, "details", JObject([])).JObject?
                       && Get(entry.fields, "name", JStr("")).JStr?
    ensures r.Ok? ==> !r.value.suportaFerramentas
    ensures r.Ok? ==> entry.JObject? && r.value.id == r.value.nome == Get(entry.fields, "name", JStr(""))
    ensures r.Ok? ==> r.value.nome.JStr? && (r.value.suportaImagens <==> Contains(Lower(r.value.nome.s), "llava"))
  {
    var fields :- Fields(entry);
    var name := Get(fields, "name", JStr(""));
    var details :- Fields(Get(fields, "details", JObject([])));
    var n :- StrOf(name);
    OllamaImagesLlava(n);
    Ok(ModelInfo(name, name, Get(details, "parameter_size", JNull), OllamaImages(n), false,
                 Get(fields, "size", JNull), Get(details, "quantization_level", JNull)))
  }

  /** One entry of an OpenAI-compatible `data` list. */
  function OpenAiModel(entry: Json): (r: Result<ModelInfo>)
    ensures r.Ok? <==> entry.JObject? && Get(entry.fields, "id", JStr("")).JStr?
    ensures r.Ok? ==> entry.JObject? && r.value.id == r.value.nome == Get(entry.fields, "id", JStr(""))
    ensures r.Ok? ==> r.value.contexto == Get(entry.fields, "context_length", JNull)
    ensures r.Ok? ==> (r.value.suportaImagens <==> Contains(Lower(r.value.id.s), "vision"))
    ensures r.Ok? ==> (r.value.suportaFerramentas <==> Contains(PyStr(Get(entry.fields, "capabilities", JArray([]))), "tools"))
    ensures r.Ok? ==> r.value.tamanho == JNull && r.value.quantizacao == JNull
  {
    var fields :- Fields(entry);
    var id := Get(fields, "id", JStr(""));
    var s :- StrOf(id);
    Ok(ModelInfo(id, id, Get(fields, "context_length", JNull), OpenAiImages(s),
                 OpenAiTools(Get(fields, "capabilities", JArray([]))), JNull, JNull))
  }

  function ModelOf(kind: Kind, entry: Json): Result<ModelInfo> {
    match kind
    case OpenAi => OpenAiModel(entry)
    case Ollama => OllamaModel(entry)
  }

  /** All entries in order; the first one that cannot be read fails the whole list. */
  function ModelsFrom(kind: Kind, entries: seq<Json>): (r: Result<seq<ModelInfo>>)
    ensures r.Ok? ==> |r.value| == |entries|
  {
    if |entries| == 0 then Ok([])
    else
      var m :- ModelOf(kind, entries[0]);
      var rest :- ModelsFrom(kind, entries[1..]);
      Ok([m] + rest)
  }

  lemma {:induction false} ModelsFromEach(kind: Kind, entries: seq<Json>)
    ensures var r := ModelsFrom(kind, entries);
            r.Ok? <==> forall i :: 0 <= i < |entries| ==> ModelOf(kind, entries[i]).Ok?
    ensures var r := ModelsFrom(kind, entries);
            r.Ok? ==> forall i :: 0 <= i < |entries| ==> r.value[i] == ModelOf(kind, entries[i]).value
  {
    ModelsFromOk(kind, entries);
    if forall i :: 0 <= i < |entries| ==> ModelOf(kind, entries[i]).Ok? {
      ModelsFromAllOk(kind, entries);
    }
  }

  lemma {:induction false} ModelsFromOk(kind: Kind, entries: seq<Json>)
    ensures var r := ModelsFrom(kind, entries);
            r.Ok? ==> forall i :: 0 <= i < |entries| ==>
                        ModelOf(kind, entries[i]).Ok? && r.value[i] == ModelOf(kind, entries[i]).value
  {
    var r := ModelsFrom(kind, entries);
    if |entries| > 0 && r.Ok? {
      ModelsFromOk(kind, entries[1..]);
      var rest := ModelsFrom(kind, entries[1..]).value;
      assert r.value == [ModelOf(kind, entries[0]).value] + rest;
      forall i | 1 <= i < |entries|
        ensures ModelOf(kind, entries[i]).Ok? && r.value[i] == ModelOf(kind, entries[i]).value
      {
        assert entries[1..][i - 1] == entries[i];
      }
    }
  }

  lemma {:induction false} ModelsFromAllOk(kind: Kind, entries: seq<Json>)
    requires forall i :: 0 <= i < |entries| ==> ModelOf(kind, entries[i]).Ok?
    ensures ModelsFrom(kind, entries).Ok?
  {
    if |entries| > 0 {
      assert ModelOf(kind, entries[0]).Ok?;
      forall i | 0 <= i < |entries| - 1 ensures ModelOf(kind, entries[1..][i]).Ok? {
        assert entries[1..][i] == entries[i + 1];
      }
      ModelsFromAllOk(kind, entries[1..]);
    }
  }

  /** The model list of a detected server: Ollama's `models`, or the OpenAI-style `data`. */
  function ModelsOf(kind: Kind, data: Json): Result<seq<ModelInfo>> {
    var d :- Fields(data);
    var list := Get(d, if kind == Ollama then "models" else "data", JArray([]));
    var entries :- Iterate(list);
    ModelsFrom(kind, entries)
  }

  // ---------------------------------------------------------------------------
  // Testing a connection
  // ---------------------------------------------------------------------------

  datatype Provider = Provider(ativo: bool, baseUrl: string)

  /** The provider status a test leaves behind. */
  datatype Status = Active | Failing

  const ProviderNotFound := "Provedor não encontrado"
  const ProviderInactive := "Provedor não está ativo"

  /** What `testar_conexao` answers, the status it stores, the URLs it asked and the models it caches. */
  datatype Tested = Tested(
    sucesso: bool,
    mensagem: string,
    modelos: seq<ModelInfo>,
    status: Option<Status>,
    contacted: seq<string>,
    cached: Option<seq<ModelInfo>>)

  function SuccessText(kind: Kind, n: nat): string {
    "Conexão bem-sucedida (" + KindName(kind) + "). " + IntToString(n) + " modelos encontrados"
  }

  /**
    `testar_conexao`: `GET /v1/models` and, failing a 200, `GET /api/tags`.
    A readable model list marks the provider active and replaces its cached
    models; anything else marks it failing.
   */
  function TestConnection(provider: Option<Provider>, openai: Probe,
                   ollama: Probe): (r: Tested)
    ensures provider.None? ==> r == Tested(false, ProviderNotFound, [], None, [], None)
    ensures provider.Some? ==> r.status == Some(if r.sucesso then Active else Failing)
    ensures r.sucesso <==> r.cached.Some?
    ensures r.sucesso ==> r.cached == Some(r.modelos)
  {
    if provider.None? then Tested(false, ProviderNotFound, [], None, [], None)
    else
      var base := provider.value.baseUrl;
      var asked := Contacted(openai, ModelsUrl(base), TagsUrl(base));
      match Detect(openai, ollama)
      case Undetected(msg) => Tested(false, msg, [], Some(Failing), asked, None)
      case Detected(kind, body) =>
        var models := if body.Ok? then ModelsOf(kind, body.value) else Err(body.msg);
        match models
        case Err(e) => Tested(false, "Erro: " + e, [], Some(Failing), asked, None)
        case Ok(ms) => Tested(true, SuccessText(kind, |ms|), ms, Some(Active), asked, Some(ms))
  }

  /**
    A failed test says why: without a 200, the status and text of the latest
    answer received; with a 200 that cannot be read, `Erro: ` and the error
    reading it raised.
   */
  lemma {:induction false} TestConnectionFails(provider: Provider, openai: Probe,
                   ollama: Probe)
    ensures var r := TestConnection(Some(provider), openai, ollama);
            !Ok200(openai) && !Ok200(ollama) ==>
              !r.sucesso && r.mensagem == HttpError(if ollama.Response? then ollama else openai)
    ensures var r := TestConnection(Some(provider), openai, ollama);
            var d := Detect(openai, ollama);
            d.Detected? && d.body.Err? ==> !r.sucesso && r.mensagem == "Erro: " + d.body.msg
    ensures var r := TestConnection(Some(provider), openai, ollama);
            var d := Detect(openai, ollama);
            d.Detected? && d.body.Ok? && ModelsOf(d.kind, d.body.value).Err? ==>
              !r.sucesso && r.mensagem == "Erro: " + ModelsOf(d.kind, d.body.value).msg
  {
  }

  /** A test succeeds exactly when some endpoint answered 200 with a readable model list. */
  lemma {:induction false} TestConnectionSucceeds(provider: Provider, openai: Probe,
                   ollama: Probe)
    ensures var r := TestConnection(Some(provider), openai, ollama);
            var d := Detect(openai, ollama);
            r.sucesso <==> d.Detected? && d.body.Ok? && ModelsOf(d.kind, d.body.value).Ok?
    ensures var r := TestConnection(Some(provider), openai, ollama);
            var d := Detect(openai, ollama);
            r.sucesso ==> r.mensagem == SuccessText(d.kind, |r.modelos|)
                          && r.contacted == Contacted(openai, ModelsUrl(provider.baseUrl), TagsUrl(provider.baseUrl))
  {
  }

  // ---------------------------------------------------------------------------
  // Request statistics
  // ---------------------------------------------------------------------------

  /** The request counters kept per provider. */
  datatype Stats = Stats(total: int, sucesso: int, erro: int)

  /** A fresh record, created on the first request. */
  const NewStats := Stats(0, 0, 0)

  function Current(stats: Option<Stats>): Stats {
    if stats.Some? then stats.value else NewStats
  }

  predicate Balanced(s: Stats) {
    s.total == s.sucesso + s.erro
  }

  /** `_atualizar_estatisticas`: one more request, counted as a success or as an error. */
  function Record(stats: Option<Stats>, sucesso: bool): (r: Stats)
    ensures r.total == Current(stats).total + 1
    ensures r.sucesso == Current(stats).sucesso + (if sucesso then 1 else 0)
    ensures r.erro == Current(stats).erro + (if sucesso then 0 else 1)
  {
    var s := Current(stats);
    Stats(s.total + 1, s.sucesso + (if sucesso then 1 else 0), s.erro + (if sucesso then 0 else 1))
  }

  /** Every update keeps `total == sucesso + erro`, which holds for a fresh record. */
  lemma {:induction false} RecordBalanced(stats: Option<Stats>, sucesso: bool)
    requires Balanced(Current(stats))
    ensures Balanced(Record(stats, sucesso))
  {
  }

  lemma {:induction false} NewStatsBalanced()
    ensures Balanced(NewStats) && NewStats.total == 0
  {
  }

  // ---------------------------------------------------------------------------
  // Sending a request
  // ---------------------------------------------------------------------------

  /** What a successful request gives back. */
  datatype Reply = Reply(conteudo: Json, modelo: string, tokensUsados: Json)

  /** The answer or error of `enviar_requisicao`, the counters afterwards and the URLs it asked. */
  datatype Sent = Sent(result: Result<Reply>, stats: Option<Stats>, contacted: seq<string>)

  /** `x[0]` on a decoded JSON value. */
  function First(j: Json): Result<Json> {
    match j
    case JArray(items) => if |items| > 0 then Ok(items[0]) else Err(IndexOutOfRange)
    case JStr(s) => if |s| > 0 then Ok(JStr([s[0]])) else Err("string index out of range")
    case JObject(_) => Err("0")
    case _ => Err("'" + TypeName(j) + "' object is not subscriptable")
  }

  const IndexOutOfRange := "list index out of range"

  /** The content and token count of a chat answer, read the way the detected server writes them. */
  function ReplyContent(kind: Kind, data: Json): Result<(Json, Json)> {
    var d :- Fields(data);
    match kind
    case Ollama =>
      var m :- Fields(Get(d, "message", JObject([])));
      Ok((Get(m, "content", JStr("")), Get(d, "eval_count", JNull)))
    case OpenAi =>
      var choice :- First(Get(d, "choices", JArray([JObject([])])));
      var c :- Fields(choice);
      var m :- Fields(Get(c, "message", JObject([])));
      var usage :- Fields(Get(d, "usage", JObject([])));
      Ok((Get(m, "content", JStr("")), Get(usage, "total_tokens", JNull)))
  }

  /** How a request to an active provider ends, before the counters are touched. */
  datatype Attempt = Answered(reply: Reply) | Unreadable(error: string) | NoAnswer(error: string)

  /** Whichever server answered 200 is read the way that server writes its answer. */
  function AttemptOf(modelo: string, openai: Probe, ollama: Probe): (a: Attempt)
    ensures a.NoAnswer? <==> !Ok200(openai) && !Ok200(ollama)
    ensures a.Answered? ==> a.reply.modelo == modelo
    ensures a.Answered? <==> Detect(openai, ollama).Detected? && Detect(openai, ollama).body.Ok?
                             && ReplyContent(Detect(openai, ollama).kind, Detect(openai, ollama).body.value).Ok?
  {
    match Detect(openai, ollama)
    case Undetected(msg) => NoAnswer(msg)
    case Detected(kind, body) =>
      var content := if body.Ok? then ReplyContent(kind, body.value) else Err(body.msg);
      match content
      case Err(e) => Unreadable(e)
      case Ok(ct) => Answered(Reply(ct.0, modelo, ct.1))
  }

  /**
    `enviar_requisicao`, as written. A missing or inactive provider is
    rejected before any request. Otherwise `POST /v1/chat/completions` is
    tried, then `POST /api/chat` when that gave no 200. A success counts
    once; a request that got no 200 is counted as an error when it is
    reported and again when the error passes through the handler; an
    unreadable 200 answer counts once, as an error.
   */
  function SendRequest(provider: Option<Provider>, modelo: string, stats: Option<Stats>, openai: Probe, ollama: Probe)
    : (r: Sent)
    ensures provider.None? ==> r == Sent(Err(ProviderNotFound), stats, [])
    ensures provider.Some? && !provider.value.ativo ==> r == Sent(Err(ProviderInactive), stats, [])
    ensures r.result.Ok? ==> r.result.value.modelo == modelo
  {
    if provider.None? then Sent(Err(ProviderNotFound), stats, [])
    else if !provider.value.ativo then Sent(Err(ProviderInactive), stats, [])
    else
      var base := provider.value.baseUrl;
      var asked := Contacted(openai, ChatCompletionsUrl(base), OllamaChatUrl(base));
      match AttemptOf(modelo, openai, ollama)
      case NoAnswer(msg) => Sent(Err(msg), Some(Record(Some(Record(stats, false)), false)), asked)
      case Unreadable(e) => Sent(Err(e), Some(Record(stats, false)), asked)
      case Answered(reply) => Sent(Ok(reply), Some(Record(stats, true)), asked)
  }

  /** `enviar_requisicao` with every request counted once: the same answer, one counter update. */
  function SendRequestOnce(provider: Option<Provider>, modelo: string, stats: Option<Stats>, openai: Probe,
                           ollama: Probe): (r: Sent)
    ensures provider.None? ==> r == Sent(Err(ProviderNotFound), stats, [])
    ensures provider.Some? && !provider.value.ativo ==> r == Sent(Err(ProviderInactive), stats, [])
    ensures r.result.Ok? ==> r.result.value.modelo == modelo
  {
    if provider.None? then Sent(Err(ProviderNotFound), stats, [])
    else if !provider.value.ativo then Sent(Err(ProviderInactive), stats, [])
    else
      var base := provider.value.baseUrl;
      var asked := Contacted(openai, ChatCompletionsUrl(base), OllamaChatUrl(base));
      match AttemptOf(modelo, openai, ollama)
      case NoAnswer(msg) => Sent(Err(msg), Some(Record(stats, false)), asked)
      case Unreadable(e) => Sent(Err(e), Some(Record(stats, false)), asked)
      case Answered(reply) => Sent(Ok(reply), Some(Record(stats, true)), asked)
  }

  /**
    With every request counted once, a request to an active provider adds
    exactly one to the total, and one to the successes exactly when it
    succeeds; its answer is the one the code as written gives.
   */
  lemma {:induction false} SendRequestOnceCounts(provider: Provider, modelo: string, stats: Option<Stats>, openai: Probe, ollama: Probe)
    requires provider.ativo
    ensures var r := SendRequestOnce(Some(provider), modelo, stats, openai, ollama);
            r.stats.Some? && r.stats.value.total == Current(stats).total + 1
            && (r.result.Ok? <==> r.stats.value.sucesso == Current(stats).sucesso + 1)
            && (r.result.Err? <==> r.stats.value.erro == Current(stats).erro + 1)
    ensures SendRequestOnce(Some(provider), modelo, stats, openai, ollama).result
            == SendRequest(Some(provider), modelo, stats, openai, ollama).result
  {
  }

  /** A request to an active provider that never got a 200 adds two to the total and two errors. */
  lemma {:induction false} FailedRequestCountsTwice(provider: Provider, modelo: string, stats: Option<Stats>, openai: Probe,
                                 ollama: Probe)
    requires provider.ativo && !Ok200(openai) && !Ok200(ollama)
    ensures var r := SendRequest(Some(provider), modelo, stats, openai, ollama);
            r.result.Err? && r.stats.Some?
            && r.stats.value.total == Current(stats).total + 2
            && r.stats.value.erro == Current(stats).erro + 2
            && r.stats.value.sucesso == Current(stats).sucesso
  {
  }

  /**
    Any request that reaches a server counts as exactly one success when it
    succeeds, and keeps the counters balanced either way.
   */
  lemma {:induction false} SendCounts(provider: Provider, modelo: string, stats: Option<Stats>, openai: Probe, ollama: Probe)
    requires provider.ativo
    ensures var r := SendRequest(Some(provider), modelo, stats, openai, ollama);
            r.stats.Some? && (r.result.Ok? ==> r.stats.value.total == Current(stats).total + 1
                                               && r.stats.value.sucesso == Current(stats).sucesso + 1)
    ensures var r := SendRequest(Some(provider), modelo, stats, openai, ollama);
            Balanced(Current(stats)) ==> Balanced(r.stats.value)
    ensures var r := SendRequest(Some(provider), modelo, stats, openai, ollama);
            r.result.Ok? <==> Detect(openai, ollama).Detected? && Detect(openai, ollama).body.Ok?
                              && ReplyContent(Detect(openai, ollama).kind, Detect(openai, ollama).body.value).Ok?
  {
    var a := AttemptOf(modelo, openai, ollama);
    var r := SendRequest(Some(provider), modelo, stats, openai, ollama);
    if a.NoAnswer? {
      assert r.stats == Some(Record(Some(Record(stats, false)), false));
      if Balanced(Current(stats)) {
        RecordBalanced(stats, false);
        RecordBalanced(Some(Record(stats, false)), false);
      }
    } else {
      assert r.stats == Some(Record(stats, a.Answered?));
      if Balanced(Current(stats)) {
        RecordBalanced(stats, a.Answered?);
      }
    }
  }
}

=== FILE: pront_client.dfy ===
/**
  The HTTP client of the Pront clinical-records API: configuration resolution
  and, for every backend capability, the request it sends. Sending the request
  and decoding the JSON reply are not modelled here; each operation returns the
  `Request` value that the client would hand to the transport.
 */
module ProntClient {
  import opened Common

  const DefaultBaseUrl := "http://localhost:81/pront/api"
  const EndpointPath := "/fluxi_api.php"
  const MissingKeyMessage := "PRONT_API_KEY não configurada. Defina via .env ou parâmetro"
  const NoSearchKeyMessage := "Informe pelo menos um parâmetro: cpf, nome ou numero"
  const DefaultTipoAtendimento := "PRESENCIAL"
  const StatusAgendado := "agendado"

  /** Seconds the transport waits: 10 for the health check, 15 for everything else. */
  const HealthTimeout := 10
  const CallTimeout := 15

  /** The two environment variables the client reads; `None` when unset. */
  datatype Env = Env(apiUrl: Option<string>, apiKey: Option<string>)

  /** A constructed client: its base URL, its key and the headers sent on every call. */
  datatype Config = Config(baseUrl: string, apiKey: string, headers: seq<(string, string)>)

  datatype Verb = Get | Post | Put

  type Query = seq<(string, string)>
  type Body = seq<(string, Scalar)>

  /**
    One HTTP request. `query` holds every query parameter, including the
    `action` that selects the backend capability, whether the source writes it
    into the URL or passes it as `params`.
   */
  datatype Request = Request(
    verb: Verb,
    url: string,
    query: Query,
    headers: seq<(string, string)>,
    body: Option<Body>,
    timeout: nat)

  /** The wall-clock time of day that `datetime.now()` would return. */
  datatype TimeOfDay = TimeOfDay(hour: nat, minute: nat, second: nat)
  type Clock = t: TimeOfDay | t.hour < 24 && t.minute < 60 && t.second < 60
    witness TimeOfDay(0, 0, 0)

  // ---------------------------------------------------------------------------
  // Construction
  // ---------------------------------------------------------------------------

  function Headers(apiKey: string): seq<(string, string)> {
    [("X-API-Key", apiKey), ("Content-Type", "application/json")]
  }

  /**
    `ProntClient(base_url, api_key)`: an explicit truthy argument wins, then the
    environment, then (for the URL only) the built-in default. Without a key
    from either source the constructor raises.
   */
  function NewClient(baseUrl: Option<string>, apiKey: Option<string>, env: Env): (r: Result<Config>)
    ensures r.Ok? <==> Given(apiKey) || Given(env.apiKey)
    ensures r.Err? ==> r.msg == MissingKeyMessage
    ensures r.Ok? && Given(apiKey) ==> r.value.apiKey == apiKey.value
    ensures r.Ok? && !Given(apiKey) ==> r.value.apiKey == env.apiKey.value
    ensures r.Ok? && Given(baseUrl) ==> r.value.baseUrl == baseUrl.value
    ensures r.Ok? && !Given(baseUrl) && env.apiUrl.Some? ==> r.value.baseUrl == env.apiUrl.value
    ensures r.Ok? && !Given(baseUrl) && env.apiUrl.None? ==> r.value.baseUrl == DefaultBaseUrl
    ensures r.Ok? ==> r.value.apiKey != ""
    ensures r.Ok? ==> KeysOf(r.value.headers) == {"X-API-Key", "Content-Type"}
    ensures r.Ok? ==> Lookup(r.value.headers, "X-API-Key") == Some(r.value.apiKey)
    ensures r.Ok? ==> Lookup(r.value.headers, "Content-Type") == Some("application/json")
  {
    var url := if Given(baseUrl) then baseUrl.value
               else if env.apiUrl.Some? then env.apiUrl.value
               else DefaultBaseUrl;
    var key := if Given(apiKey) then apiKey else env.apiKey;
    if !Given(key) then Err(MissingKeyMessage)
    else
      var hs := Headers(key.value);
      assert KeysOf(hs) == {hs[0].0, hs[1].0};
      Ok(Config(url, key.value, hs))
  }

  // ---------------------------------------------------------------------------
  // Building blocks
  // ---------------------------------------------------------------------------

  function Call(cfg: Config, verb: Verb, action: string, params: Query, body: Option<Body>, timeout: nat): Request {
    Request(verb, cfg.baseUrl + EndpointPath, [("action", action)] + params, cfg.headers, body, timeout)
  }

  /** A query parameter that is sent only when its value is truthy. */
  function OptionalText(key: string, value: Option<string>): (q: Query)
    ensures |q| <= 1 && (|q| == 1 ==> q[0].0 == key)
    ensures Lookup(q, key) == if Given(value) then Some(value.value) else None
  {
    if Given(value) then [(key, value.value)] else []
  }

  /** An integer query parameter, stringified, sent only when non-zero. */
  function OptionalNumber(key: string, value: Option<int>): (q: Query)
    ensures |q| <= 1 && (|q| == 1 ==> q[0].0 == key)
    ensures Lookup(q, key) == if GivenInt(value) then Some(IntToString(value.value)) else None
  {
    if GivenInt(value) then [(key, IntToString(value.value))] else []
  }

  lemma {:induction false} LookupAppend<V>(a: seq<(string, V)>, b: seq<(string, V)>, k: string)
    ensures Lookup(a + b, k) == if k in KeysOf(a) then Lookup(a, k) else Lookup(b, k)
  {
    if |a| > 0 {
      assert (a + b)[0] == a[0];
      assert (a + b)[1..] == a[1..] + b;
      KeysOfCons(a);
      LookupAppend(a[1..], b, k);
    } else {
      assert a + b == b;
    }
  }

  /** Every key of `q` lies in `keys`. */
  predicate KeysWithin(q: Query, keys: set<string>) {
    forall i :: 0 <= i < |q| ==> q[i].0 in keys
  }

  /** The preconditions shared by the facts about `ActionQuery`. */
  predicate OptionalParts(p1: Query, k1: string, p2: Query, k2: string, p3: Query, k3: string) {
    && |p1| <= 1 && (|p1| == 1 ==> p1[0].0 == k1)
    && |p2| <= 1 && (|p2| == 1 ==> p2[0].0 == k2)
    && |p3| <= 1 && (|p3| == 1 ==> p3[0].0 == k3)
    && k1 != "action" && k2 != "action" && k3 != "action" && k1 != k2 && k1 != k3 && k2 != k3
  }

  lemma {:induction false} ActionQueryKeys(action: string, p1: Query, k1: string, p2: Query, k2: string, p3: Query, k3: string)
    requires OptionalParts(p1, k1, p2, k2, p3, k3)
    ensures var q := [("action", action)] + p1 + p2 + p3;
      DistinctKeys(q) && KeysWithin(q, {"action", k1, k2, k3})
  {
    var q := [("action", action)] + p1 + p2 + p3;
    forall i | 0 <= i < |q|
      ensures q[i].0 == if i == 0 then "action" else if i < 1 + |p1| then k1 else if i < 1 + |p1| + |p2| then k2 else k3
    {
    }
  }

  lemma {:induction false} ActionQueryLookups(action: string, p1: Query, k1: string, p2: Query, k2: string, p3: Query, k3: string)
    requires OptionalParts(p1, k1, p2, k2, p3, k3)
    ensures var q := [("action", action)] + p1 + p2 + p3;
      && Lookup(q, "action") == Some(action)
      && Lookup(q, k1) == Lookup(p1, k1)
      && Lookup(q, k2) == Lookup(p2, k2)
      && Lookup(q, k3) == Lookup(p3, k3)
  {
    var a: Query := [("action", action)];
    assert a[0].0 in KeysOf(a);
    assert KeysOf(a) == {"action"};
    PartKeys(p1, k1);
    PartKeys(p2, k2);
    PartKeys(p3, k3);
    LookupActionKey(a, action, p1, p2, p3);
    LookupFirstPart(a, p1, p2, p3, k1);
    LookupSecondPart(a, p1, p2, p3, k2);
    LookupThirdPart(a, p1, p2, p3, k3);
  }

  lemma {:induction false} LookupActionKey(a: Query, action: string, p1: Query, p2: Query, p3: Query)
    requires a == [("action", action)]
    requires "action" !in KeysOf(p1) && "action" !in KeysOf(p2) && "action" !in KeysOf(p3)
    ensures Lookup(a + p1 + p2 + p3, "action") == Some(action)
  {
    KeysOfAppend(p1, p2);
    KeysOfAppend(p1 + p2, p3);
    assert a + p1 + p2 + p3 == [] + a + (p1 + p2 + p3);
    LookupMiddle([], a, p1 + p2 + p3, "action");
  }

  lemma {:induction false} LookupFirstPart(a: Query, p1: Query, p2: Query, p3: Query, k: string)
    requires k !in KeysOf(a) && k !in KeysOf(p2) && k !in KeysOf(p3)
    ensures Lookup(a + p1 + p2 + p3, k) == Lookup(p1, k)
  {
    KeysOfAppend(p2, p3);
    assert a + p1 + p2 + p3 == a + p1 + (p2 + p3);
    LookupMiddle(a, p1, p2 + p3, k);
  }

  lemma {:induction false} LookupSecondPart(a: Query, p1: Query, p2: Query, p3: Query, k: string)
    requires k !in KeysOf(a) && k !in KeysOf(p1) && k !in KeysOf(p3)
    ensures Lookup(a + p1 + p2 + p3, k) == Lookup(p2, k)
  {
    KeysOfAppend(a, p1);
    LookupMiddle(a + p1, p2, p3, k);
  }

  lemma {:induction false} LookupThirdPart(a: Query, p1: Query, p2: Query, p3: Query, k: string)
    requires k !in KeysOf(a) && k !in KeysOf(p1) && k !in KeysOf(p2)
    ensures Lookup(a + p1 + p2 + p3, k) == Lookup(p3, k)
  {
    KeysOfAppend(a, p1);
    KeysOfAppend(a + p1, p2);
    assert a + p1 + p2 + p3 == a + p1 + p2 + p3 + [];
    LookupMiddle(a + p1 + p2, p3, [], k);
  }

  /** The keys of an optional part: at most its own key. */
  lemma {:induction false} PartKeys(p: Query, k: string)
    requires |p| <= 1 && (|p| == 1 ==> p[0].0 == k)
    ensures KeysOf(p) <= {k}
  {
  }

  lemma {:induction false} KeysOfAppend<V>(a: seq<(string, V)>, b: seq<(string, V)>)
    ensures KeysOf(a + b) == KeysOf(a) + KeysOf(b)
  {
    forall k | k in KeysOf(a + b) ensures k in KeysOf(a) + KeysOf(b) {
      var i :| 0 <= i < |a + b| && (a + b)[i].0 == k;
      if i >= |a| {
        assert (a + b)[i] == b[i - |a|];
      }
    }
    forall k | k in KeysOf(a) + KeysOf(b) ensures k in KeysOf(a + b) {
      if k in KeysOf(a) {
        var i :| 0 <= i < |a| && a[i].0 == k;
        assert (a + b)[i] == a[i];
      } else {
        var i :| 0 <= i < |b| && b[i].0 == k;
        assert (a + b)[|a| + i] == b[i];
      }
    }
  }

  /** A key found in neither the part before nor the part after is looked up in the middle. */
  lemma {:induction false} LookupMiddle(l: Query, p: Query, r: Query, k: string)
    requires k !in KeysOf(l) && k !in KeysOf(r)
    ensures Lookup(l + p + r, k) == Lookup(p, k)
  {
    LookupAppend(l + p, r, k);
    LookupAppend(l, p, k);
    KeysOfAppend(l, p);
  }

  /**
    The query `action=<action>` followed by up to three optional parameters,
    each under its own key.
   */
  function ActionQuery(action: string, p1: Query, k1: string, p2: Query, k2: string, p3: Query, k3: string): (q: Query)
    requires OptionalParts(p1, k1, p2, k2, p3, k3)
    ensures |q| > 0 && q[0] == ("action", action)
    ensures DistinctKeys(q)
    ensures KeysWithin(q, {"action", k1, k2, k3})
    ensures Lookup(q, "action") == Some(action)
    ensures Lookup(q, k1) == Lookup(p1, k1)
    ensures Lookup(q, k2) == Lookup(p2, k2)
    ensures Lookup(q, k3) == Lookup(p3, k3)
  {
    ActionQueryKeys(action, p1, k1, p2, k2, p3, k3);
    ActionQueryLookups(action, p1, k1, p2, k2, p3, k3);
    [("action", action)] + p1 + p2 + p3
  }

  function Send(cfg: Config, verb: Verb, query: Query, body: Option<Body>, timeout: nat): Request {
    Request(verb, cfg.baseUrl + EndpointPath, query, cfg.headers, body, timeout)
  }

  // ---------------------------------------------------------------------------
  // CPF normalisation
  // ---------------------------------------------------------------------------

  /** `cpf.replace('.', '').replace('-', '')`. */
  function NormalizeCpf(cpf: string): (r: string)
    ensures '.' !in r && '-' !in r
    ensures forall c :: c != '.' && c != '-' ==> multiset(r)[c] == multiset(cpf)[c]
  {
    var noDots := RemoveChar(cpf, '.');
    var r := RemoveChar(noDots, '-');
    assert multiset(r)['.'] == multiset(noDots)['.'] == 0;
    r
  }

  /** Normalising an already normalised CPF changes nothing. */
  lemma {:induction false} NormalizeCpfIdempotent(cpf: string)
    ensures NormalizeCpf(NormalizeCpf(cpf)) == NormalizeCpf(cpf)
  {
    var once := NormalizeCpf(cpf);
    RemoveCharAbsent(once, '.');
    RemoveCharAbsent(once, '-');
  }

  lemma {:induction false} RemoveCharAppend(a: string, b: string, c: char)
    ensures RemoveChar(a + b, c) == RemoveChar(a, c) + RemoveChar(b, c)
  {
    if |a| > 0 {
      assert (a + b)[0] == a[0];
      assert (a + b)[1..] == a[1..] + b;
      RemoveCharAppend(a[1..], b, c);
    } else {
      assert a + b == b;
    }
  }

  /**
    Normalisation works character by character and keeps the order of what it
    keeps: it distributes over concatenation, drops `.` and `-`, and leaves
    every other single character as it is.
   */
  lemma {:induction false} NormalizeCpfPointwise(a: string, b: string, c: char)
    ensures NormalizeCpf(a + b) == NormalizeCpf(a) + NormalizeCpf(b)
    ensures NormalizeCpf([c]) == if c == '.' || c == '-' then "" else [c]
  {
    RemoveCharAppend(a, b, '.');
    RemoveCharAppend(RemoveChar(a, '.'), RemoveChar(b, '.'), '-');
    assert [c][1..] == "";
  }

  // ---------------------------------------------------------------------------
  // The capabilities
  // ---------------------------------------------------------------------------

  function HealthCheck(cfg: Config): (r: Request)
    ensures r.verb == Get && r.query == [("action", "health")] && r.body.None?
    ensures r.timeout == HealthTimeout
  {
    Call(cfg, Get, "health", [], None, HealthTimeout)
  }

  /**
    `buscar_paciente`: refuses before building any request unless one of cpf,
    nome or numero is truthy; sends exactly the truthy ones, the CPF normalised
    and the number stringified.
   */
  function BuscarPaciente(cfg: Config, cpf: Option<string>, nome: Option<string>, numero: Option<int>): (r: Result<Request>)
    ensures r.Err? <==> !Given(cpf) && !Given(nome) && !GivenInt(numero)
    ensures r.Err? ==> r.msg == NoSearchKeyMessage
    ensures r.Ok? ==> r.value.verb == Get && r.value.url == cfg.baseUrl + EndpointPath
    ensures r.Ok? ==> r.value.headers == cfg.headers && r.value.body.None? && r.value.timeout == CallTimeout
    ensures r.Ok? ==> DistinctKeys(r.value.query) && |r.value.query| > 0 && r.value.query[0] == ("action", "paciente")
    ensures r.Ok? ==> KeysWithin(r.value.query, {"action", "cpf", "nome", "numero"})
    ensures r.Ok? ==> Lookup(r.value.query, "cpf") == if Given(cpf) then Some(NormalizeCpf(cpf.value)) else None
    ensures r.Ok? ==> Lookup(r.value.query, "nome") == if Given(nome) then Some(nome.value) else None
    ensures r.Ok? ==> Lookup(r.value.query, "numero") == if GivenInt(numero) then Some(IntToString(numero.value)) else None
  {
    if !Given(cpf) && !Given(nome) && !GivenInt(numero) then Err(NoSearchKeyMessage)
    else
      // A truthy CPF is sent even when nothing is left of it after normalisation.
      var p1: Query := if Given(cpf) then [("cpf", NormalizeCpf(cpf.value))] else [];
      var p2 := OptionalText("nome", nome);
      var p3 := OptionalNumber("numero", numero);
      var q := ActionQuery("paciente", p1, "cpf", p2, "nome", p3, "numero");
      Ok(Send(cfg, Get, q, None, CallTimeout))
  }

  /** `cadastrar_paciente`: the patient record goes out unchanged as the body. */
  function CadastrarPaciente(cfg: Config, dados: Body): (r: Request)
    ensures r.verb == Post && r.query == [("action", "paciente")] && r.body == Some(dados)
  {
    Call(cfg, Post, "paciente", [], Some(dados), CallTimeout)
  }

  /** `atualizar_paciente`: the record number in the query, the changes unchanged as the body. */
  function AtualizarPaciente(cfg: Config, numero: int, dados: Body): (r: Request)
    ensures r.verb == Put && r.body == Some(dados)
    ensures DistinctKeys(r.query) && KeysWithin(r.query, {"action", "numero"})
    ensures Lookup(r.query, "action") == Some("paciente")
    ensures Lookup(r.query, "numero") == Some(IntToString(numero))
  {
    var r := Call(cfg, Put, "paciente", [("numero", IntToString(numero))], Some(dados), CallTimeout);
    LookupFirst(r.query, 0);
    LookupFirst(r.query, 1);
    r
  }

  /** An optional text argument as a JSON body value (`None` becomes `null`). */
  function TextOrNull(o: Option<string>): Scalar {
    if o.Some? then Str(o.value) else Null
  }

  /**
    `agendar_consulta`: the five arguments pass through unchanged (absent
    optional ones as `null`) and the status is always `agendado`.
   */
  function AgendarConsulta(cfg: Config, pacienteNumero: int, data: string, horario: string,
                           profissional: Option<string>, observacao: Option<string>): (r: Request)
    ensures r.verb == Post && r.query == [("action", "agendar")] && r.body.Some?
    ensures DistinctKeys(r.body.value) && |r.body.value| == 6
    ensures Lookup(r.body.value, "status") == Some(Str(StatusAgendado))
    ensures Lookup(r.body.value, "paciente_numero") == Some(Int(pacienteNumero))
    ensures Lookup(r.body.value, "data") == Some(Str(data))
    ensures Lookup(r.body.value, "horario") == Some(Str(horario))
    ensures Lookup(r.body.value, "profissional") == Some(TextOrNull(profissional))
    ensures Lookup(r.body.value, "observacao") == Some(TextOrNull(observacao))
  {
    var body := [
      ("paciente_numero", Int(pacienteNumero)),
      ("data", Str(data)),
      ("horario", Str(horario)),
      ("profissional", TextOrNull(profissional)),
      ("observacao", TextOrNull(observacao)),
      ("status", Str(StatusAgendado))
    ];
    assert DistinctKeys(body);
    LookupAt(body, 0); LookupAt(body, 1); LookupAt(body, 2);
    LookupAt(body, 3); LookupAt(body, 4); LookupAt(body, 5);
    Call(cfg, Post, "agendar", [], Some(body), CallTimeout)
  }

  /** `listar_agendamentos`: the fixed action plus only the truthy filters. */
  function ListarAgendamentos(cfg: Config, pacienteNumero: Option<int>, data: Option<string>, status: Option<string>): (r: Request)
    ensures r.verb == Get && r.body.None? && |r.query| > 0 && r.query[0] == ("action", "agendamentos")
    ensures DistinctKeys(r.query)
    ensures KeysWithin(r.query, {"action", "paciente_numero", "data", "status"})
    ensures Lookup(r.query, "paciente_numero") == if GivenInt(pacienteNumero) then Some(IntToString(pacienteNumero.value)) else None
    ensures Lookup(r.query, "data") == if Given(data) then Some(data.value) else None
    ensures Lookup(r.query, "status") == if Given(status) then Some(status.value) else None
  {
    var p1 := OptionalNumber("paciente_numero", pacienteNumero);
    var p2 := OptionalText("data", data);
    var p3 := OptionalText("status", status);
    var q := ActionQuery("agendamentos", p1, "paciente_numero", p2, "data", p3, "status");
    Send(cfg, Get, q, None, CallTimeout)
  }

  // ---------------------------------------------------------------------------
  // Time of day as HH:MM:SS
  // ---------------------------------------------------------------------------

  function TwoDigits(n: nat): (s: string)
    requires n < 100
    ensures |s| == 2 && AllDigits(s)
  {
    [DigitChar(n / 10), DigitChar(n % 10)]
  }

  /** `strftime('%H:%M:%S')`. */
  function FormatClock(t: Clock): (s: string)
    ensures |s| == 8 && s[2] == ':' && s[5] == ':'
    ensures forall i :: 0 <= i < 8 && i != 2 && i != 5 ==> IsDigit(s[i])
  {
    TwoDigits(t.hour) + ":" + TwoDigits(t.minute) + ":" + TwoDigits(t.second)
  }

  /** Reads back an `HH:MM:SS` text. */
  function ParseClock(s: string): Option<TimeOfDay> {
    if |s| == 8 && s[2] == ':' && s[5] == ':' && AllDigits(s[..2]) && AllDigits(s[3..5]) && AllDigits(s[6..])
    then Some(TimeOfDay(DigitsValue(s[..2]), DigitsValue(s[3..5]), DigitsValue(s[6..])))
    else None
  }

  lemma {:induction false} TwoDigitsValue(n: nat)
    requires n < 100
    ensures DigitsValue(TwoDigits(n)) == n
  {
    var s := TwoDigits(n);
    assert s[..1] == [DigitChar(n / 10)] && s[..1][..0] == [];
    assert DigitsValue(s[..1][..0]) == 0;
    assert DigitValue(DigitChar(n / 10)) == n / 10 && DigitValue(DigitChar(n % 10)) == n % 10;
  }

  /** The default attendance time is a faithful rendering of the clock. */
  lemma {:induction false} FormatClockRoundTrip(t: Clock)
    ensures ParseClock(FormatClock(t)) == Some(t)
  {
    var s := FormatClock(t);
    assert s[..2] == TwoDigits(t.hour) && s[3..5] == TwoDigits(t.minute) && s[6..] == TwoDigits(t.second);
    TwoDigitsValue(t.hour);
    TwoDigitsValue(t.minute);
    TwoDigitsValue(t.second);
  }

  /**
    `registrar_presenca`: an absent or empty time becomes the current clock
    time as HH:MM:SS; everything else passes through, a `None` type as null.
   */
  function RegistrarPresenca(cfg: Config, pacienteNumero: int, data: string, horario: Option<string>,
                             tipoAtendimento: Option<string>, observacao: Option<string>, now: Clock): (r: Request)
    ensures r.verb == Post && r.query == [("action", "registrar_presenca")] && r.body.Some?
    ensures DistinctKeys(r.body.value) && |r.body.value| == 5
    ensures Given(horario) ==> Lookup(r.body.value, "horario") == Some(Str(horario.value))
    ensures !Given(horario) ==> Lookup(r.body.value, "horario") == Some(Str(FormatClock(now)))
    ensures Lookup(r.body.value, "tipo_atendimento") == Some(TextOrNull(tipoAtendimento))
    ensures Lookup(r.body.value, "paciente_numero") == Some(Int(pacienteNumero))
    ensures Lookup(r.body.value, "data") == Some(Str(data))
    ensures Lookup(r.body.value, "observacao") == Some(TextOrNull(observacao))
  {
    var body := [
      ("paciente_numero", Int(pacienteNumero)),
      ("data", Str(data)),
      ("horario", Str(if Given(horario) then horario.value else FormatClock(now))),
      ("tipo_atendimento", TextOrNull(tipoAtendimento)),
      ("observacao", TextOrNull(observacao))
    ];
    assert DistinctKeys(body);
    LookupAt(body, 0); LookupAt(body, 1); LookupAt(body, 2);
    LookupAt(body, 3); LookupAt(body, 4);
    Call(cfg, Post, "registrar_presenca", [], Some(body), CallTimeout)
  }

  /** `listar_aniversariantes`: the fixed action plus only the truthy month and day. */
  function ListarAniversariantes(cfg: Config, mes: Option<int>, dia: Option<int>): (r: Request)
    ensures r.verb == Get && r.body.None? && |r.query| > 0 && r.query[0] == ("action", "aniversariantes")
    ensures DistinctKeys(r.query)
    ensures KeysWithin(r.query, {"action", "mes", "dia"})
    ensures Lookup(r.query, "mes") == if GivenInt(mes) then Some(IntToString(mes.value)) else None
    ensures Lookup(r.query, "dia") == if GivenInt(dia) then Some(IntToString(dia.value)) else None
  {
    var p1 := OptionalNumber("mes", mes);
    var p2 := OptionalNumber("dia", dia);
    var q := ActionQuery("aniversariantes", p1, "mes", p2, "dia", [], "_");
    Send(cfg, Get, q, None, CallTimeout)
  }
}

=== FILE: pront_tools.dfy ===
/**
  The Pront tool adapters: the catalog a function-calling model sees, and the
  five adapter functions behind it. Each adapter normalises its arguments,
  builds the client request, looks at the `{success, data, error}` envelope of
  the reply and renders a text for the model. Every exception the source would
  catch is an `Err` here, and every adapter is a total function returning text:
  none of them can raise.
 */
module ProntTools {
  import opened Common
  import ProntClient

  type Config = ProntClient.Config
  type Request = ProntClient.Request
  type Clock = ProntClient.Clock

  // ---------------------------------------------------------------------------
  // Replies and records
  // ---------------------------------------------------------------------------

  /** The `data` entry of an envelope: absent, JSON `null`, or a value. */
  datatype Payload<T> = Missing | JsonNull | Value(v: T)

  /** A decoded backend reply; `None` marks a key that is absent. */
  datatype Envelope<T> = Envelope(success: Option<Scalar>, data: Payload<T>, error: Option<Scalar>)

  /** What came back from the client call: an exception, or a decoded envelope. */
  datatype Reply<T> = Raised(msg: string) | Replied(envelope: Envelope<T>)

  /** What an adapter call did: the request it sent, if any, and the text it returned. */
  datatype Exchange = Exchange(sent: Option<Request>, text: string)

  datatype Guardian = Guardian(nome: Option<Scalar>, cpf: Option<Scalar>)

  /** A patient as the backend lists it; `responsaveis` is `None` when absent or null. */
  datatype Patient = Patient(
    numero: Option<Scalar>,
    nome: Option<Scalar>,
    cpf: Option<Scalar>,
    dataNascimento: Option<Scalar>,
    telefone: Option<Scalar>,
    responsaveis: Option<seq<Guardian>>)

  datatype Appointment = Appointment(
    id: Option<Scalar>,
    pacienteNome: Option<Scalar>,
    pacienteNumero: Option<Scalar>,
    data: Option<Scalar>,
    horario: Option<Scalar>,
    status: Option<Scalar>,
    profissional: Option<Scalar>,
    observacao: Option<Scalar>)

  datatype Birthday = Birthday(
    nome: Option<Scalar>,
    numero: Option<Scalar>,
    dataNascimento: Option<Scalar>,
    idade: Option<Scalar>,
    telefone: Option<Scalar>)

  /** The record a create operation returns; only its `id` is read. */
  datatype Created = Created(id: Option<Scalar>)

  // ---------------------------------------------------------------------------
  // Fixed texts
  // ---------------------------------------------------------------------------

  const UnknownError := "Erro desconhecido"
  const Separator := "\n---\n\n"
  const NoPatients := "❌ Nenhum paciente " + "encontrado com esses critérios."
  const NoAppointments := "📅 Nenhum agendamento " + "encontrado com esses filtros."
  const CurrentTime := "Horário atual"
  const IndexErrorText := "list index out of range"
  const NoneAttributeText := "'NoneType' object has no attribute 'get'"

  /** The marker every failure text starts with. */
  const FailureMarker := "❌ Erro"

  /** Prefixes of the catch-all handlers, one per adapter. */
  const CaughtSearch := "❌ Erro ao buscar paciente: "
  const CaughtSchedule := "❌ Erro ao agendar consulta: "
  const CaughtListing := "❌ Erro ao consultar agendamentos: "
  const CaughtAttendance := "❌ Erro ao registrar presença: "
  const CaughtBirthdays := "❌ Erro ao listar aniversariantes: "

  /** Prefixes for a reply whose `success` is falsy. */
  const FailedPlain := "❌ Erro: "
  const FailedSchedule := "❌ Erro ao agendar: "
  const FailedAttendance := "❌ Erro ao registrar presença: "

  /** How many entries each listing renders. */
  const PatientLimit := 5
  const AppointmentLimit := 10
  const BirthdayLimit := 20

  // ---------------------------------------------------------------------------
  // Envelope handling
  // ---------------------------------------------------------------------------

  /** `resultado.get('success')` is truthy. */
  predicate Succeeded<T>(e: Envelope<T>) {
    FieldTruthy(e.success)
  }

  /** `resultado.get('error', 'Erro desconhecido')`, as an f-string renders it. */
  function ErrorText(error: Option<Scalar>): (t: string)
    ensures error.None? ==> t == UnknownError
    ensures error.Some? && error.value.Str? ==> t == error.value.s
  {
    if error.Some? then Show(error.value) else UnknownError
  }

  /** `resultado.get('data', [])` for a listing: absent and null both read as no entries. */
  function Entries<T>(p: Payload<seq<T>>): seq<T> {
    if p.Value? then p.v else []
  }

  /** `resultado.get('data', {}).get('id')`: null data raises, absent data or id reads as `None`. */
  function CreatedId(p: Payload<Created>): (r: Result<string>)
    ensures r.Err? <==> p.JsonNull?
    ensures p.Missing? ==> r == Ok("None")
    ensures p.Value? && p.v.id.None? ==> r == Ok("None")
    ensures p.Value? && p.v.id.Some? ==> r == Ok(Show(p.v.id.value))
  {
    match p
    case Missing => Ok("None")
    case JsonNull => Err(NoneAttributeText)
    case Value(c) => Ok(if c.id.Some? then Show(c.id.value) else "None")
  }

  // ---------------------------------------------------------------------------
  // Rendering
  // ---------------------------------------------------------------------------

  /** A labelled line that appears only when the field is truthy. */
  function OptionalLine(caption: string, field: Option<Scalar>): string {
    if FieldTruthy(field) then caption + Show(field.value) + "\n" else ""
  }

  function GuardianLine(g: Guardian): Result<string> {
    var nome :- Required(g.nome, "nome");
    Ok("   - " + nome + (if FieldTruthy(g.cpf) then " (CPF: " + Show(g.cpf.value) + ")" else "") + "\n")
  }

  /**
    Renders every entry in order; the first entry that cannot be rendered
    decides the error, as the first exception in a Python loop does.
   */
  function RenderAll<T>(items: seq<T>, block: T -> Result<string>): (r: Result<seq<string>>)
    ensures r.Ok? ==> |r.value| == |items|
    ensures r.Ok? ==> forall i :: 0 <= i < |items| ==> block(items[i]) == Ok(r.value[i])
    ensures r.Ok? <==> forall i :: 0 <= i < |items| ==> block(items[i]).Ok?
    ensures r.Err? ==> exists i :: 0 <= i < |items| && block(items[i]) == Err(r.msg)
  {
    if |items| == 0 then Ok([])
    else
      var first :- block(items[0]);
      var rest :- RenderAll(items[1..], block);
      assert forall i :: 1 <= i < |items| ==> items[i] == items[1..][i - 1];
      Ok([first] + rest)
  }

  function GuardianLines(gs: seq<Guardian>): Result<string> {
    var lines :- RenderAll(gs, GuardianLine);
    Ok(Concat(lines))
  }

  function PatientBlock(p: Patient): (r: Result<string>)
    ensures r.Ok? ==> EndsWith(r.value, Separator)
    ensures r.Err? && p.numero.None? ==> r.msg == KeyErrorText("numero")
  {
    var numero :- Required(p.numero, "numero");
    var nome :- Required(p.nome, "nome");
    var guardians := if p.responsaveis.Some? then p.responsaveis.value else [];
    var lines :- GuardianLines(guardians);
    Ok("📋 **Prontuário:** " + numero + "\n"
       + "👤 **Nome:** " + nome + "\n"
       + OptionalLine("🆔 **CPF:** ", p.cpf)
       + OptionalLine("🎂 **Data Nasc:** ", p.dataNascimento)
       + OptionalLine("📞 **Telefone:** ", p.telefone)
       + (if |guardians| > 0 then "👨‍👩‍👧 **Responsáveis:**\n" + lines else "")
       + Separator)
  }

  function AppointmentBlock(a: Appointment): (r: Result<string>)
    ensures r.Ok? ==> EndsWith(r.value, Separator)
  {
    var id :- Required(a.id, "id");
    var nome :- Required(a.pacienteNome, "paciente_nome");
    var numero :- Required(a.pacienteNumero, "paciente_numero");
    var data :- Required(a.data, "data");
    var horario :- Required(a.horario, "horario");
    var status :- Required(a.status, "status");
    Ok("🆔 **ID:** " + id + "\n"
       + "👤 **Paciente:** " + nome + " (Nº " + numero + ")\n"
       + "📅 **Data:** " + data + "\n"
       + "⏰ **Horário:** " + horario + "\n"
       + "📊 **Status:** " + status + "\n"
       + OptionalLine("👨‍⚕️ **Profissional:** ", a.profissional)
       + OptionalLine("📝 **Obs:** ", a.observacao)
       + Separator)
  }

  function BirthdayBlock(b: Birthday): (r: Result<string>)
    ensures r.Ok? ==> EndsWith(r.value, Separator)
  {
    var nome :- Required(b.nome, "nome");
    var numero :- Required(b.numero, "numero");
    var nascimento :- Required(b.dataNascimento, "data_nascimento");
    var idade :- Required(b.idade, "idade");
    Ok("👤 **" + nome + "** (Nº " + numero + ")\n"
       + "🎂 **Aniversário:** " + nascimento + "\n"
       + "🎈 **Idade:** " + idade + " anos\n"
       + OptionalLine("📞 **Telefone:** ", b.telefone)
       + Separator)
  }

  function PatientsHeader(n: nat): string {
    "✅ " + IntToString(n) + " paciente(s) encontrado(s):\n\n"
  }

  function AppointmentsHeader(n: nat): string {
    "📅 **" + IntToString(n) + " agendamento(s) encontrado(s):**\n\n"
  }

  function BirthdaysHeader(n: nat): string {
    "🎂 **" + IntToString(n) + " aniversariante(s):**\n\n"
  }

  /**
    The blocks a listing shows: one per entry, for at most `limit` entries,
    each ending with the separator.
   */
  function ListingBlocks<T>(items: seq<T>, limit: nat, block: T -> Result<string>): (r: Result<seq<string>>)
    ensures r.Ok? ==> |r.value| == if |items| <= limit then |items| else limit
    ensures r.Ok? ==> forall i :: 0 <= i < |r.value| ==> block(items[i]) == Ok(r.value[i])
    ensures r.Ok? <==> forall i :: 0 <= i < |items| && i < limit ==> block(items[i]).Ok?
  {
    var shown := Take(items, limit);
    assert forall i :: 0 <= i < |shown| ==> shown[i] == items[i];
    RenderAll(shown, block)
  }

  /** The text of a non-empty listing: the header with the full count, then the shown blocks, stripped. */
  function Listing<T>(items: seq<T>, limit: nat, header: string, block: T -> Result<string>): Result<string>
  {
    var blocks :- ListingBlocks(items, limit, block);
    Ok(Strip(header + Concat(blocks)))
  }

  /**
    The common shape of the three listing adapters: a raised exception and a
    rendering error go to the catch-all, a falsy `success` to the error text,
    no entries to the fixed empty text, anything else to the listing.
   */
  function ListingText<T>(reply: Reply<seq<T>>, caught: string, empty: Result<string>,
                          limit: nat, header: nat -> string, block: T -> Result<string>): string
  {
    match reply
    case Raised(m) => caught + m
    case Replied(env) =>
      if !Succeeded(env) then FailedPlain + ErrorText(env.error)
      else
        var items := Entries(env.data);
        var outcome := if |items| == 0 then empty else Listing(items, limit, header(|items|), block);
        match outcome
        case Ok(t) => t
        case Err(m) => caught + m
  }

  /** A text the model reads as an error report. */
  predicate IsFailureText(t: string) {
    FailureMarker <= t
  }

  /** The entries that make it into a listing all render to blocks ending with the separator. */
  predicate BlocksEndWithSeparator<T>(items: seq<T>, block: T -> Result<string>) {
    forall i :: 0 <= i < |items| ==> block(items[i]).Ok? ==> EndsWith(block(items[i]).value, Separator)
  }

  /** What a listing header must look like for the listing lemmas: a visible, non-error first character. */
  predicate PlainHeader(h: string) {
    |h| > 0 && !IsSpace(h[0]) && h[0] != FailureMarker[0]
  }

  lemma {:induction false} ConcatEndsWithSeparator(blocks: seq<string>)
    requires |blocks| > 0
    requires forall i :: 0 <= i < |blocks| ==> EndsWith(blocks[i], Separator)
    ensures EndsWith(Concat(blocks), Separator)
  {
    var c := Concat(blocks);
    var b := blocks[|blocks| - 1];
    assert c[|c| - |b|..] == b;
    assert c[|c| - |Separator|..] == b[|b| - |Separator|..];
  }

  /**
    A successful, non-empty listing is its header with the total count,
    followed by the blocks of the first `limit` entries; `strip()` removes
    only the blank line after the last separator.
   */
  lemma {:induction false} ListingTextStripped<T>(env: Envelope<seq<T>>, caught: string, empty: Result<string>, limit: nat,
                               header: nat -> string, block: T -> Result<string>)
    requires Succeeded(env) && |Entries(env.data)| > 0 && limit > 0
    requires PlainHeader(header(|Entries(env.data)|))
    requires BlocksEndWithSeparator(Entries(env.data), block)
    ensures ListingBlocks(Entries(env.data), limit, block).Ok? ==>
              ListingText(Replied(env), caught, empty, limit, header, block) + "\n\n"
              == header(|Entries(env.data)|) + Concat(ListingBlocks(Entries(env.data), limit, block).value)
    ensures ListingBlocks(Entries(env.data), limit, block).Err? ==>
              ListingText(Replied(env), caught, empty, limit, header, block)
              == caught + ListingBlocks(Entries(env.data), limit, block).msg
  {
    var items := Entries(env.data);
    var bs := ListingBlocks(items, limit, block);
    ListingTextOfBlocks(env, caught, empty, limit, header, block);
    if bs.Ok? {
      forall i | 0 <= i < |bs.value| ensures EndsWith(bs.value[i], Separator) {
        assert block(items[i]) == Ok(bs.value[i]);
      }
      StripListing(header(|items|), bs.value);
    }
  }

  /** A non-empty successful listing is the stripped header and blocks, or the catch-all on a rendering error. */
  lemma {:induction false} ListingTextOfBlocks<T>(env: Envelope<seq<T>>, caught: string, empty: Result<string>,
                                                limit: nat, header: nat -> string, block: T -> Result<string>)
    requires Succeeded(env) && |Entries(env.data)| > 0
    ensures ListingBlocks(Entries(env.data), limit, block).Ok? ==>
              ListingText(Replied(env), caught, empty, limit, header, block)
              == Strip(header(|Entries(env.data)|) + Concat(ListingBlocks(Entries(env.data), limit, block).value))
    ensures ListingBlocks(Entries(env.data), limit, block).Err? ==>
              ListingText(Replied(env), caught, empty, limit, header, block)
              == caught + ListingBlocks(Entries(env.data), limit, block).msg
  {
  }

  /** `strip()` of a plain header followed by separator-terminated blocks drops just the final blank line. */
  lemma {:induction false} StripListing(h: string, blocks: seq<string>)
    requires PlainHeader(h) && |blocks| > 0
    requires forall i :: 0 <= i < |blocks| ==> EndsWith(blocks[i], Separator)
    ensures Strip(h + Concat(blocks)) + "\n\n" == h + Concat(blocks)
  {
    ConcatEndsWithSeparator(blocks);
    var x := h + Concat(blocks);
    var y := x[..|x| - 2];
    assert x == y + "\n\n";
    assert y[|y| - 1] == Separator[|Separator| - 3];
    assert y[0] == h[0];
    StripTrailing(y, "\n\n");
  }

  /**
    A listing's text depends only on `success`, `error`, the number of
    entries and the entries it shows: whatever lies past the limit, and
    the whole `data` of a failed reply, is never read.
   */
  lemma {:induction false} ListingTextReadsShownOnly<T>(env1: Envelope<seq<T>>, env2: Envelope<seq<T>>, caught: string,
                                     empty: Result<string>, limit: nat, header: nat -> string,
                                     block: T -> Result<string>)
    requires env1.success == env2.success && env1.error == env2.error
    requires Succeeded(env1) ==> |Entries(env1.data)| == |Entries(env2.data)|
    requires Succeeded(env1) ==> Take(Entries(env1.data), limit) == Take(Entries(env2.data), limit)
    ensures ListingText(Replied(env1), caught, empty, limit, header, block)
            == ListingText(Replied(env2), caught, empty, limit, header, block)
  {
  }

  /**
    A listing reports an error exactly when the call raised, the reply was
    not a success, the empty text could not be built, or one of the shown
    entries could not be rendered.
   */
  lemma {:induction false} ListingTextFailure<T>(reply: Reply<seq<T>>, caught: string, empty: Result<string>, limit: nat,
                              header: nat -> string, block: T -> Result<string>)
    requires IsFailureText(caught)
    requires empty.Ok? ==> !IsFailureText(empty.value)
    requires limit > 0
    requires reply.Replied? ==> PlainHeader(header(|Entries(reply.envelope.data)|))
    requires reply.Replied? ==> BlocksEndWithSeparator(Entries(reply.envelope.data), block)
    ensures IsFailureText(ListingText(reply, caught, empty, limit, header, block)) <==>
            || reply.Raised?
            || !Succeeded(reply.envelope)
            || (|Entries(reply.envelope.data)| == 0 && empty.Err?)
            || (exists i :: 0 <= i < |Entries(reply.envelope.data)| && i < limit
                           && block(Entries(reply.envelope.data)[i]).Err?)
  {
    var t := ListingText(reply, caught, empty, limit, header, block);
    match reply
    case Raised(m) =>
      assert t[..|FailureMarker|] == caught[..|FailureMarker|];
    case Replied(env) =>
      var items := Entries(env.data);
      if !Succeeded(env) {
        assert t[..|FailureMarker|] == FailedPlain[..|FailureMarker|];
      } else if |items| == 0 {
        if empty.Err? {
          assert t[..|FailureMarker|] == caught[..|FailureMarker|];
        }
      } else {
        ListedFailure(env, caught, empty, limit, header, block);
      }
  }

  /** A non-empty successful listing reports an error exactly when a shown entry fails to render. */
  lemma {:induction false} ListedFailure<T>(env: Envelope<seq<T>>, caught: string, empty: Result<string>, limit: nat,
                                          header: nat -> string, block: T -> Result<string>)
    requires IsFailureText(caught)
    requires Succeeded(env) && |Entries(env.data)| > 0 && limit > 0
    requires PlainHeader(header(|Entries(env.data)|))
    requires BlocksEndWithSeparator(Entries(env.data), block)
    ensures IsFailureText(ListingText(Replied(env), caught, empty, limit, header, block)) <==>
            exists i :: 0 <= i < |Entries(env.data)| && i < limit && block(Entries(env.data)[i]).Err?
  {
    var t := ListingText(Replied(env), caught, empty, limit, header, block);
    var items := Entries(env.data);
    var bs := ListingBlocks(items, limit, block);
    ListingTextStripped(env, caught, empty, limit, header, block);
    if bs.Ok? {
      var h := header(|items|);
      assert (t + "\n\n")[0] == h[0];
      assert !IsFailureText(t);
    } else {
      assert t[..|FailureMarker|] == caught[..|FailureMarker|];
    }
  }

  /** The three listing headers satisfy what the listing lemmas ask of a header. */
  lemma {:induction false} HeadersPlain(n: nat)
    ensures PlainHeader(PatientsHeader(n))
    ensures PlainHeader(AppointmentsHeader(n))
    ensures PlainHeader(BirthdaysHeader(n))
  {
  }

  // ---------------------------------------------------------------------------
  // Argument normalisation
  // ---------------------------------------------------------------------------

  /** A five-character time `HH:MM` gets seconds appended; any other length is kept. */
  function NormalizeHorario(h: string): (r: string)
    ensures |h| == 5 ==> |r| == 8 && r[..5] == h && r[5..] == ":00"
    ensures |h| != 5 ==> r == h
  {
    if |h| == 5 then h + ":00" else h
  }

  /** `HH:MM`: two digits, a colon, two digits. */
  predicate IsHourMinute(h: string) {
    |h| == 5 && IsDigit(h[0]) && IsDigit(h[1]) && h[2] == ':' && IsDigit(h[3]) && IsDigit(h[4])
  }

  /** `HH:MM:SS`. */
  predicate IsHourMinuteSecond(h: string) {
    |h| == 8 && IsHourMinute(h[..5]) && h[5] == ':' && IsDigit(h[6]) && IsDigit(h[7])
  }

  /**
    Normalisation turns `HH:MM` into `HH:MM:SS`, keeps what is already
    `HH:MM:SS`, is idempotent, and never changes the first five characters,
    which is what the schedule confirmation shows.
   */
  lemma {:induction false} NormalizeHorarioProperties(h: string)
    ensures IsHourMinute(h) ==> IsHourMinuteSecond(NormalizeHorario(h))
    ensures IsHourMinuteSecond(h) ==> NormalizeHorario(h) == h
    ensures NormalizeHorario(NormalizeHorario(h)) == NormalizeHorario(h)
    ensures Take(NormalizeHorario(h), 5) == Take(h, 5)
  {
    if |h| == 5 {
      assert NormalizeHorario(h)[..5] == h;
    }
  }

  /** The attendance adapter normalises only a truthy time. */
  function NormalizeOptionalHorario(h: Option<string>): (r: Option<string>)
    ensures !Given(h) ==> r == h
    ensures Given(h) ==> r == Some(NormalizeHorario(h.value))
    ensures Given(r) <==> Given(h)
  {
    if Given(h) && |h.value| == 5 then Some(h.value + ":00") else h
  }

  // ---------------------------------------------------------------------------
  // The five adapters
  // ---------------------------------------------------------------------------

  /** `buscar_paciente_pront`. */
  function BuscarPacientePront(client: Result<Config>, cpf: Option<string>, nome: Option<string>,
                               numero: Option<int>, reply: Reply<seq<Patient>>): (x: Exchange)
    ensures client.Err? ==> x == Exchange(None, CaughtSearch + client.msg)
    ensures client.Ok? && !Given(cpf) && !Given(nome) && !GivenInt(numero)
            ==> x == Exchange(None, CaughtSearch + ProntClient.NoSearchKeyMessage)
    ensures x.sent.Some? <==> client.Ok? && (Given(cpf) || Given(nome) || GivenInt(numero))
    ensures x.sent.Some? ==> x.sent == Some(ProntClient.BuscarPaciente(client.value, cpf, nome, numero).value)
    ensures x.sent.Some? && reply.Raised? ==> x.text == CaughtSearch + reply.msg
    ensures x.sent.Some? && reply.Replied? && !Succeeded(reply.envelope)
            ==> x.text == FailedPlain + ErrorText(reply.envelope.error)
    ensures x.sent.Some? && reply.Replied? && Succeeded(reply.envelope) && |Entries(reply.envelope.data)| == 0
            ==> x.text == NoPatients
  {
    match client
    case Err(m) => Exchange(None, CaughtSearch + m)
    case Ok(cfg) =>
      match ProntClient.BuscarPaciente(cfg, cpf, nome, numero)
      case Err(m) => Exchange(None, CaughtSearch + m)
      case Ok(req) =>
        Exchange(Some(req), ListingText(reply, CaughtSearch, Ok(NoPatients), PatientLimit, PatientsHeader, PatientBlock))
  }

  /** `agendar_consulta_pront`. */
  function AgendarConsultaPront(client: Result<Config>, pacienteNumero: int, data: string, horario: string,
                                profissional: Option<string>, observacao: Option<string>,
                                reply: Reply<Created>): (x: Exchange)
    ensures client.Err? <==> x.sent.None?
    ensures client.Err? ==> x.text == CaughtSchedule + client.msg
    ensures client.Ok? ==> x.sent == Some(ProntClient.AgendarConsulta(
              client.value, pacienteNumero, data, NormalizeHorario(horario), profissional, observacao))
    ensures client.Ok? && reply.Raised? ==> x.text == CaughtSchedule + reply.msg
    ensures client.Ok? && reply.Replied? && !Succeeded(reply.envelope)
            ==> x.text == FailedSchedule + ErrorText(reply.envelope.error)
    ensures client.Ok? && reply.Replied? && Succeeded(reply.envelope) && reply.envelope.data.JsonNull?
            ==> x.text == CaughtSchedule + NoneAttributeText
    ensures client.Ok? && reply.Replied? && Succeeded(reply.envelope) && !reply.envelope.data.JsonNull?
            ==> x.text == ScheduledHeading + ScheduleDetails(CreatedId(reply.envelope.data).value, pacienteNumero, data,
                                                             Take(horario, 5), profissional, observacao)
  {
    NormalizeHorarioProperties(horario);
    match client
    case Err(m) => Exchange(None, CaughtSchedule + m)
    case Ok(cfg) =>
      var h := NormalizeHorario(horario);
      var req := ProntClient.AgendarConsulta(cfg, pacienteNumero, data, h, profissional, observacao);
      Exchange(Some(req), ScheduleText(pacienteNumero, data, h, profissional, observacao, reply))
  }

  function ScheduleText(pacienteNumero: int, data: string, horario: string, profissional: Option<string>,
                        observacao: Option<string>, reply: Reply<Created>): string
  {
    match reply
    case Raised(m) => CaughtSchedule + m
    case Replied(env) =>
      if !Succeeded(env) then FailedSchedule + ErrorText(env.error)
      else
        match CreatedId(env.data)
        case Err(m) => CaughtSchedule + m
        case Ok(id) => ScheduledHeading + ScheduleDetails(id, pacienteNumero, data, Take(horario, 5), profissional, observacao)
  }

  const ScheduledHeading := "✅ **Consulta agendada com sucesso!**\n\n"

  /** The confirmation lines; `shownTime` is the time as displayed. */
  function ScheduleDetails(id: string, pacienteNumero: int, data: string, shownTime: string,
                           profissional: Option<string>, observacao: Option<string>): string
  {
    "📋 **ID do Agendamento:** " + id + "\n"
    + "👤 **Paciente (Prontuário):** " + IntToString(pacienteNumero) + "\n"
    + "📅 **Data:** " + data + "\n"
    + "⏰ **Horário:** " + shownTime + "\n"
    + (if Given(profissional) then "👨‍⚕️ **Profissional:** " + profissional.value + "\n" else "")
    + (if Given(observacao) then "📝 **Observação:** " + observacao.value + "\n" else "")
  }

  /** `consultar_agendamentos_pront`. */
  function ConsultarAgendamentosPront(client: Result<Config>, pacienteNumero: Option<int>, data: Option<string>,
                                      status: Option<string>, reply: Reply<seq<Appointment>>): (x: Exchange)
    ensures client.Err? <==> x.sent.None?
    ensures client.Err? ==> x.text == CaughtListing + client.msg
    ensures client.Ok? ==> x.sent == Some(ProntClient.ListarAgendamentos(client.value, pacienteNumero, data, status))
    ensures client.Ok? && reply.Raised? ==> x.text == CaughtListing + reply.msg
    ensures client.Ok? && reply.Replied? && !Succeeded(reply.envelope)
            ==> x.text == FailedPlain + ErrorText(reply.envelope.error)
    ensures client.Ok? && reply.Replied? && Succeeded(reply.envelope) && |Entries(reply.envelope.data)| == 0
            ==> x.text == NoAppointments
  {
    match client
    case Err(m) => Exchange(None, CaughtListing + m)
    case Ok(cfg) =>
      var req := ProntClient.ListarAgendamentos(cfg, pacienteNumero, data, status);
      Exchange(Some(req), ListingText(reply, CaughtListing, Ok(NoAppointments), AppointmentLimit,
                                      AppointmentsHeader, AppointmentBlock))
  }

  /**
    The `tipo_atendimento` the adapter passes on: `PRESENCIAL` when the
    argument is omitted (`None`), otherwise what was given, where
    `Some(None)` is an explicit null.
   */
  function TipoOf(tipoAtendimento: Option<Option<string>>): (t: Option<string>)
    ensures tipoAtendimento.None? ==> t == Some(ProntClient.DefaultTipoAtendimento)
    ensures tipoAtendimento.Some? ==> t == tipoAtendimento.value
  {
    if tipoAtendimento.Some? then tipoAtendimento.value else Some(ProntClient.DefaultTipoAtendimento)
  }

  /** `registrar_presenca_pront`. */
  function RegistrarPresencaPront(client: Result<Config>, pacienteNumero: int, data: string,
                                  horario: Option<string>, tipoAtendimento: Option<Option<string>>,
                                  observacao: Option<string>, now: Clock, reply: Reply<Created>): (x: Exchange)
    ensures client.Err? <==> x.sent.None?
    ensures client.Err? ==> x.text == CaughtAttendance + client.msg
    ensures client.Ok? ==> x.sent == Some(ProntClient.RegistrarPresenca(
              client.value, pacienteNumero, data, NormalizeOptionalHorario(horario),
              TipoOf(tipoAtendimento), observacao, now))
    ensures client.Ok? && reply.Raised? ==> x.text == CaughtAttendance + reply.msg
    ensures client.Ok? && reply.Replied? && !Succeeded(reply.envelope)
            ==> x.text == FailedAttendance + ErrorText(reply.envelope.error)
    ensures client.Ok? && reply.Replied? && Succeeded(reply.envelope) && reply.envelope.data.JsonNull?
            ==> x.text == CaughtAttendance + NoneAttributeText
    ensures client.Ok? && reply.Replied? && Succeeded(reply.envelope) && !reply.envelope.data.JsonNull?
            ==> x.text == RegisteredHeading
                          + AttendanceDetails(CreatedId(reply.envelope.data).value, pacienteNumero, data,
                                              if Given(horario) then NormalizeHorario(horario.value) else CurrentTime,
                                              if tipoAtendimento.None? then "PRESENCIAL"
                                              else if tipoAtendimento.value.None? then "None"
                                              else tipoAtendimento.value.value,
                                              observacao)
  {
    match client
    case Err(m) => Exchange(None, CaughtAttendance + m)
    case Ok(cfg) =>
      var h := NormalizeOptionalHorario(horario);
      var tipo := TipoOf(tipoAtendimento);
      var req := ProntClient.RegistrarPresenca(cfg, pacienteNumero, data, h, tipo, observacao, now);
      Exchange(Some(req), AttendanceText(pacienteNumero, data, h, tipo, observacao, reply))
  }

  /**
    The type sent is `PRESENCIAL` only when the argument is omitted: an
    explicit null reaches the backend as null.
   */
  lemma {:induction false} RegistrarPresencaTipo(cfg: Config, pacienteNumero: int, data: string,
                                                 horario: Option<string>, tipoAtendimento: Option<Option<string>>,
                                                 observacao: Option<string>, now: Clock, reply: Reply<Created>)
    ensures var x := RegistrarPresencaPront(Ok(cfg), pacienteNumero, data, horario, tipoAtendimento, observacao, now, reply);
            x.sent.Some? && x.sent.value.body.Some?
            && Lookup(x.sent.value.body.value, "tipo_atendimento")
               == Some(if tipoAtendimento.None? then Str("PRESENCIAL")
                       else if tipoAtendimento.value.None? then Null
                       else Str(tipoAtendimento.value.value))
  {
  }

  function AttendanceText(pacienteNumero: int, data: string, horario: Option<string>, tipo: Option<string>,
                          observacao: Option<string>, reply: Reply<Created>): string
  {
    match reply
    case Raised(m) => CaughtAttendance + m
    case Replied(env) =>
      if !Succeeded(env) then FailedAttendance + ErrorText(env.error)
      else
        match CreatedId(env.data)
        case Err(m) => CaughtAttendance + m
        case Ok(id) =>
          RegisteredHeading + AttendanceDetails(id, pacienteNumero, data, if Given(horario) then horario.value else CurrentTime,
                                                Show(ProntClient.TextOrNull(tipo)), observacao)
  }

  const RegisteredHeading := "✅ **Presença registrada com sucesso!**\n\n"

  /** The confirmation lines; `shownTime` and `shownTipo` are the time and type as displayed. */
  function AttendanceDetails(id: string, pacienteNumero: int, data: string, shownTime: string,
                             shownTipo: string, observacao: Option<string>): string
  {
    "🆔 **ID da Presença:** " + id + "\n"
    + "👤 **Paciente (Prontuário):** " + IntToString(pacienteNumero) + "\n"
    + "📅 **Data:** " + data + "\n"
    + "⏰ **Horário:** " + shownTime + "\n"
    + "📍 **Tipo:** " + shownTipo + "\n"
    + (if Given(observacao) then "📝 **Observação:** " + observacao.value + "\n" else "")
  }

  /** Portuguese month names, indexed 1..12; index 0 is the empty string. */
  const MonthNames := ["", "Janeiro", "Fevereiro", "Março", "Abril", "Maio", "Junho",
                       "Julho", "Agosto", "Setembro", "Outubro", "Novembro", "Dezembro"]

  /** `mes_nome[mes]` with Python indexing: negatives count from the end. */
  function MonthName(mes: int): (r: Result<string>)
    ensures r.Ok? <==> -13 <= mes < 13
    ensures 0 <= mes < 13 ==> r == Ok(MonthNames[mes])
    ensures -13 <= mes < 0 ==> r == Ok(MonthNames[13 + mes])
    ensures r.Err? ==> r.msg == IndexErrorText
  {
    if 0 <= mes < 13 then Ok(MonthNames[mes])
    else if -13 <= mes < 0 then Ok(MonthNames[13 + mes])
    else Err(IndexErrorText)
  }

  /**
    The "nothing found" text of the birthday listing: the month's name, or
    `atual` without a month, and the day when one is given. A month outside
    Python's index range raises.
   */
  function NoBirthdays(mes: Option<int>, dia: Option<int>): (r: Result<string>)
    ensures r.Ok? <==> !GivenInt(mes) || -13 <= mes.value < 13
    ensures r.Err? ==> r.msg == IndexErrorText
    ensures r.Ok? ==> r.value == "🎂 Nenhum aniversariante encontrado em "
                                 + (if GivenInt(mes) then MonthName(mes.value).value else "atual")
                                 + (if GivenInt(dia) then " do dia " + IntToString(dia.value) else "") + "."
  {
    var filtro := if GivenInt(dia) then " do dia " + IntToString(dia.value) else "";
    var mesTexto :- if GivenInt(mes) then MonthName(mes.value) else Ok("atual");
    Ok(NoBirthdaysSentence(mesTexto, filtro))
  }

  function NoBirthdaysSentence(mesTexto: string, filtro: string): (r: string)
    ensures |r| > 0 && r[0] == '🎂'
  {
    var lead := "🎂 Nenhum aniversariante encontrado em ";
    var t := lead + (mesTexto + filtro + ".");
    assert t[0] == lead[0];
    t
  }

  /** `listar_aniversariantes_pront`. */
  function ListarAniversariantesPront(client: Result<Config>, mes: Option<int>, dia: Option<int>,
                                      reply: Reply<seq<Birthday>>): (x: Exchange)
    ensures client.Err? <==> x.sent.None?
    ensures client.Err? ==> x.text == CaughtBirthdays + client.msg
    ensures client.Ok? ==> x.sent == Some(ProntClient.ListarAniversariantes(client.value, mes, dia))
    ensures client.Ok? && reply.Raised? ==> x.text == CaughtBirthdays + reply.msg
    ensures client.Ok? && reply.Replied? && !Succeeded(reply.envelope)
            ==> x.text == FailedPlain + ErrorText(reply.envelope.error)
    ensures client.Ok? && reply.Replied? && Succeeded(reply.envelope) && |Entries(reply.envelope.data)| == 0
            ==> x.text == if NoBirthdays(mes, dia).Ok? then NoBirthdays(mes, dia).value else CaughtBirthdays + IndexErrorText
  {
    match client
    case Err(m) => Exchange(None, CaughtBirthdays + m)
    case Ok(cfg) =>
      var req := ProntClient.ListarAniversariantes(cfg, mes, dia);
      Exchange(Some(req), ListingText(reply, CaughtBirthdays, NoBirthdays(mes, dia), BirthdayLimit,
                                      BirthdaysHeader, BirthdayBlock))
  }

  // ---------------------------------------------------------------------------
  // When an adapter reports an error
  // ---------------------------------------------------------------------------

  lemma {:induction false} StartsWithMarker(prefix: string, rest: string)
    requires IsFailureText(prefix)
    ensures IsFailureText(prefix + rest)
  {
    assert (prefix + rest)[..|FailureMarker|] == prefix[..|FailureMarker|];
  }

  lemma {:induction false} NoMarker(prefix: string, rest: string, k: nat)
    requires k < |prefix| && k < |FailureMarker| && prefix[k] != FailureMarker[k]
    ensures !IsFailureText(prefix + rest)
  {
    assert (prefix + rest)[k] == prefix[k];
  }

  lemma {:induction false} PatientBlocksEndWithSeparator(items: seq<Patient>)
    ensures BlocksEndWithSeparator(items, PatientBlock)
  {
  }

  /**
    The patient search answers with an error text exactly when the client
    could not be built, no search key was given, the call raised, the reply
    was not a success, or one of the first five patients lacks a required
    field. "No patient found" is not an error text.
   */
  lemma {:induction false} BuscarPacienteProntFailure(client: Result<Config>, cpf: Option<string>, nome: Option<string>,
                                   numero: Option<int>, reply: Reply<seq<Patient>>)
    ensures IsFailureText(BuscarPacientePront(client, cpf, nome, numero, reply).text) <==>
            || client.Err?
            || (!Given(cpf) && !Given(nome) && !GivenInt(numero))
            || reply.Raised?
            || !Succeeded(reply.envelope)
            || (exists i :: 0 <= i < |Entries(reply.envelope.data)| && i < PatientLimit
                           && PatientBlock(Entries(reply.envelope.data)[i]).Err?)
  {
    var x := BuscarPacientePront(client, cpf, nome, numero, reply);
    if client.Err? {
      StartsWithMarker(CaughtSearch, client.msg);
    } else if !Given(cpf) && !Given(nome) && !GivenInt(numero) {
      StartsWithMarker(CaughtSearch, ProntClient.NoSearchKeyMessage);
    } else {
      PatientListingFailure(reply);
    }
  }

  lemma {:induction false} PatientListingFailure(reply: Reply<seq<Patient>>)
    ensures IsFailureText(ListingText(reply, CaughtSearch, Ok(NoPatients), PatientLimit, PatientsHeader, PatientBlock))
            <==>
            || reply.Raised?
            || !Succeeded(reply.envelope)
            || (exists i :: 0 <= i < |Entries(reply.envelope.data)| && i < PatientLimit
                           && PatientBlock(Entries(reply.envelope.data)[i]).Err?)
  {
    if reply.Replied? {
      HeadersPlain(|Entries(reply.envelope.data)|);
      PatientBlocksEndWithSeparator(Entries(reply.envelope.data));
    }
    assert NoPatients[2] == 'N' && FailureMarker[2] == 'E';
    NoMarker(NoPatients, "", 2);
    assert NoPatients + "" == NoPatients;
    ListingTextFailure(reply, CaughtSearch, Ok(NoPatients), PatientLimit, PatientsHeader, PatientBlock);
  }

  /**
    The appointment listing answers with an error text exactly when the
    client could not be built, the call raised, the reply was not a success,
    or one of the first ten appointments lacks a required field.
   */
  lemma {:induction false} ConsultarAgendamentosProntFailure(client: Result<Config>, pacienteNumero: Option<int>,
                                          data: Option<string>, status: Option<string>,
                                          reply: Reply<seq<Appointment>>)
    ensures IsFailureText(ConsultarAgendamentosPront(client, pacienteNumero, data, status, reply).text) <==>
            || client.Err?
            || reply.Raised?
            || !Succeeded(reply.envelope)
            || (exists i :: 0 <= i < |Entries(reply.envelope.data)| && i < AppointmentLimit
                           && AppointmentBlock(Entries(reply.envelope.data)[i]).Err?)
  {
    if client.Err? {
      StartsWithMarker(CaughtListing, client.msg);
    } else {
      AppointmentListingFailure(reply);
    }
  }

  lemma {:induction false} AppointmentListingFailure(reply: Reply<seq<Appointment>>)
    ensures IsFailureText(ListingText(reply, CaughtListing, Ok(NoAppointments), AppointmentLimit,
                                      AppointmentsHeader, AppointmentBlock))
            <==>
            || reply.Raised?
            || !Succeeded(reply.envelope)
            || (exists i :: 0 <= i < |Entries(reply.envelope.data)| && i < AppointmentLimit
                           && AppointmentBlock(Entries(reply.envelope.data)[i]).Err?)
  {
    if reply.Replied? {
      HeadersPlain(|Entries(reply.envelope.data)|);
    }
    assert NoAppointments[0] == '📅' && FailureMarker[0] == '❌';
    NoMarker(NoAppointments, "", 0);
    assert NoAppointments + "" == NoAppointments;
    ListingTextFailure(reply, CaughtListing, Ok(NoAppointments), AppointmentLimit,
                       AppointmentsHeader, AppointmentBlock);
  }

  /** The "nothing found" birthday text exists exactly when the month, if given, indexes the table. */
  lemma {:induction false} NoBirthdaysText(mes: Option<int>, dia: Option<int>)
    ensures NoBirthdays(mes, dia).Err? <==> GivenInt(mes) && !(-13 <= mes.value < 13)
    ensures NoBirthdays(mes, dia).Ok? ==> !IsFailureText(NoBirthdays(mes, dia).value)
  {
    var r := NoBirthdays(mes, dia);
    if r.Ok? {
      assert r.value[0] == '🎂';
    }
  }

  /**
    The birthday listing answers with an error text exactly when the client
    could not be built, the call raised, the reply was not a success, an
    empty result came with a month outside the name table, or one of the
    first twenty entries lacks a required field.
   */
  lemma {:induction false} ListarAniversariantesProntFailure(client: Result<Config>, mes: Option<int>, dia: Option<int>,
                                          reply: Reply<seq<Birthday>>)
    ensures IsFailureText(ListarAniversariantesPront(client, mes, dia, reply).text) <==>
            || client.Err?
            || reply.Raised?
            || !Succeeded(reply.envelope)
            || (|Entries(reply.envelope.data)| == 0 && GivenInt(mes) && !(-13 <= mes.value < 13))
            || (exists i :: 0 <= i < |Entries(reply.envelope.data)| && i < BirthdayLimit
                           && BirthdayBlock(Entries(reply.envelope.data)[i]).Err?)
  {
    if client.Err? {
      StartsWithMarker(CaughtBirthdays, client.msg);
    } else {
      BirthdayListingFailure(mes, dia, reply);
    }
  }

  lemma {:induction false} BirthdayListingFailure(mes: Option<int>, dia: Option<int>, reply: Reply<seq<Birthday>>)
    ensures IsFailureText(ListingText(reply, CaughtBirthdays, NoBirthdays(mes, dia), BirthdayLimit,
                                      BirthdaysHeader, BirthdayBlock))
            <==>
            || reply.Raised?
            || !Succeeded(reply.envelope)
            || (|Entries(reply.envelope.data)| == 0 && GivenInt(mes) && !(-13 <= mes.value < 13))
            || (exists i :: 0 <= i < |Entries(reply.envelope.data)| && i < BirthdayLimit
                           && BirthdayBlock(Entries(reply.envelope.data)[i]).Err?)
  {
    if reply.Replied? {
      HeadersPlain(|Entries(reply.envelope.data)|);
    }
    NoBirthdaysText(mes, dia);
    ListingTextFailure(reply, CaughtBirthdays, NoBirthdays(mes, dia), BirthdayLimit,
                       BirthdaysHeader, BirthdayBlock);
  }

  /**
    Scheduling answers with an error text exactly when the client could not
    be built, the call raised, the reply was not a success, or its `data`
    was null; the confirmation shows the first five characters of the time
    as the caller wrote it, whether or not seconds were appended.
   */
  lemma {:induction false} AgendarConsultaProntFailure(client: Result<Config>, pacienteNumero: int, data: string, horario: string,
                                    profissional: Option<string>, observacao: Option<string>,
                                    reply: Reply<Created>)
    ensures IsFailureText(AgendarConsultaPront(client, pacienteNumero, data, horario, profissional,
                                               observacao, reply).text) <==>
            || client.Err?
            || reply.Raised?
            || !Succeeded(reply.envelope)
            || reply.envelope.data.JsonNull?
    ensures Take(NormalizeHorario(horario), 5) == Take(horario, 5)
  {
    var t := AgendarConsultaPront(client, pacienteNumero, data, horario, profissional, observacao, reply).text;
    NormalizeHorarioProperties(horario);
    if client.Err? {
      StartsWithMarker(CaughtSchedule, client.msg);
    } else if reply.Raised? {
      StartsWithMarker(CaughtSchedule, reply.msg);
    } else if !Succeeded(reply.envelope) {
      StartsWithMarker(FailedSchedule, ErrorText(reply.envelope.error));
    } else if reply.envelope.data.JsonNull? {
      StartsWithMarker(CaughtSchedule, NoneAttributeText);
    } else {
      var id := CreatedId(reply.envelope.data).value;
      NoMarker(ScheduledHeading, ScheduleDetails(id, pacienteNumero, data, Take(NormalizeHorario(horario), 5),
                                                 profissional, observacao), 0);
    }
  }

  /**
    Registering attendance answers with an error text exactly when the
    client could not be built, the call raised, the reply was not a
    success, or its `data` was null.
   */
  lemma {:induction false} RegistrarPresencaProntFailure(client: Result<Config>, pacienteNumero: int, data: string,
                                      horario: Option<string>, tipoAtendimento: Option<Option<string>>,
                                      observacao: Option<string>, now: Clock, reply: Reply<Created>)
    ensures IsFailureText(RegistrarPresencaPront(client, pacienteNumero, data, horario, tipoAtendimento,
                                                 observacao, now, reply).text) <==>
            || client.Err?
            || reply.Raised?
            || !Succeeded(reply.envelope)
            || reply.envelope.data.JsonNull?
  {
    var t := RegistrarPresencaPront(client, pacienteNumero, data, horario, tipoAtendimento, observacao, now, reply).text;
    if client.Err? {
      StartsWithMarker(CaughtAttendance, client.msg);
    } else if reply.Raised? {
      StartsWithMarker(CaughtAttendance, reply.msg);
    } else if !Succeeded(reply.envelope) {
      StartsWithMarker(FailedAttendance, ErrorText(reply.envelope.error));
    } else if reply.envelope.data.JsonNull? {
      StartsWithMarker(CaughtAttendance, NoneAttributeText);
    } else {
      var id := CreatedId(reply.envelope.data).value;
      var h := NormalizeOptionalHorario(horario);
      var tipo := TipoOf(tipoAtendimento);
      NoMarker(RegisteredHeading, AttendanceDetails(id, pacienteNumero, data, if Given(h) then h.value else CurrentTime,
                                                    Show(ProntClient.TextOrNull(tipo)), observacao), 0);
    }
  }

  // ---------------------------------------------------------------------------
  // The catalog and the name -> function map
  // ---------------------------------------------------------------------------

  datatype ParamType = StringParam | IntegerParam

  datatype ParamSpec = ParamSpec(name: string, kind: ParamType, choices: seq<string>,
                                 minimum: Option<int>, maximum: Option<int>)

  /** One `PRONT_TOOLS` entry: name, description, declared parameters and the required ones. */
  datatype ToolSpec = ToolSpec(name: string, description: string, properties: seq<ParamSpec>, required: seq<string>)

  function Plain(name: string, kind: ParamType): ParamSpec {
    ParamSpec(name, kind, [], None, None)
  }

  const Catalog: seq<ToolSpec> := [
    ToolSpec("buscar_paciente_pront",
      "Busca informações de um paciente no sistema Pront por CPF, nome ou número do prontuário",
      [Plain("cpf", StringParam), Plain("nome", StringParam), Plain("numero", IntegerParam)],
      []),
    ToolSpec("agendar_consulta_pront",
      "Agenda uma consulta ou atendimento para um paciente no sistema Pront",
      [Plain("paciente_numero", IntegerParam), Plain("data", StringParam), Plain("horario", StringParam),
       Plain("profissional", StringParam), Plain("observacao", StringParam)],
      ["paciente_numero", "data", "horario"]),
    ToolSpec("consultar_agendamentos_pront",
      "Consulta agendamentos do sistema Pront. Pode filtrar por paciente, data ou status",
      [Plain("paciente_numero", IntegerParam), Plain("data", StringParam),
       ParamSpec("status", StringParam, ["agendado", "confirmado", "realizado", "cancelado"], None, None)],
      []),
    ToolSpec("registrar_presenca_pront",
      "Registra a presença de um paciente em um atendimento no sistema Pront",
      [Plain("paciente_numero", IntegerParam), Plain("data", StringParam), Plain("horario", StringParam),
       ParamSpec("tipo_atendimento", StringParam, ["PRESENCIAL", "ONLINE", "TELEMEDICINA"], None, None),
       Plain("observacao", StringParam)],
      ["paciente_numero", "data"]),
    ToolSpec("listar_aniversariantes_pront",
      "Lista aniversariantes do mês no sistema Pront. Útil para enviar mensagens de parabéns",
      [ParamSpec("mes", IntegerParam, [], Some(1), Some(12)),
       ParamSpec("dia", IntegerParam, [], Some(1), Some(31))],
      [])
  ]

  /** A Python parameter of an adapter function: its name and whether it has a default. */
  datatype Param = Param(name: string, hasDefault: bool)

  /** `PRONT_TOOL_FUNCTIONS`, each entry standing for its function's parameter list. */
  const ToolFunctions: map<string, seq<Param>> := map[
    "buscar_paciente_pront" := [Param("cpf", true), Param("nome", true), Param("numero", true)],
    "agendar_consulta_pront" := [Param("paciente_numero", false), Param("data", false), Param("horario", false),
                                 Param("profissional", true), Param("observacao", true)],
    "consultar_agendamentos_pront" := [Param("paciente_numero", true), Param("data", true), Param("status", true)],
    "registrar_presenca_pront" := [Param("paciente_numero", false), Param("data", false), Param("horario", true),
                                   Param("tipo_atendimento", true), Param("observacao", true)],
    "listar_aniversariantes_pront" := [Param("mes", true), Param("dia", true)]
  ]

  function CatalogNames(tools: seq<ToolSpec>): (names: set<string>)
    ensures forall i :: 0 <= i < |tools| ==> tools[i].name in names
    ensures forall n :: n in names ==> exists i :: 0 <= i < |tools| && tools[i].name == n
  {
    set i | 0 <= i < |tools| :: tools[i].name
  }

  function PropertyNames(ps: seq<ParamSpec>): seq<string> {
    seq(|ps|, i requires 0 <= i < |ps| => ps[i].name)
  }

  function ParamNames(ps: seq<Param>): seq<string> {
    seq(|ps|, i requires 0 <= i < |ps| => ps[i].name)
  }

  /**
    A catalog entry agrees with the function it names: it declares the
    function's parameters in order, and requires exactly those without a
    default, which Python places first.
   */
  predicate InStep(t: ToolSpec, ps: seq<Param>) {
    PropertyNames(t.properties) == ParamNames(ps)
    && |t.required| <= |ps|
    && t.required == ParamNames(ps)[..|t.required|]
    && forall i :: 0 <= i < |ps| ==> (ps[i].hasDefault <==> i >= |t.required|)
  }

  lemma {:induction false} EntryInStep(i: nat)
    requires i < |Catalog|
    ensures Catalog[i].name in ToolFunctions
    ensures InStep(Catalog[i], ToolFunctions[Catalog[i].name])
  {
    var t := Catalog[i];
    var ps := ToolFunctions[t.name];
    assert PropertyNames(t.properties) == ParamNames(ps);
  }

  /**
    The catalog and the dispatch map describe the same five tools: the same
    names, each declaring exactly its function's parameters in order, and
    requiring exactly those without a default.
   */
  lemma {:induction false} CatalogInStep()
    ensures |Catalog| == 5
    ensures CatalogNames(Catalog) == ToolFunctions.Keys
    ensures forall i :: 0 <= i < |Catalog| ==> InStep(Catalog[i], ToolFunctions[Catalog[i].name])
    ensures forall i, j :: 0 <= i < j < |Catalog| ==> Catalog[i].name != Catalog[j].name
  {
    CatalogNamesAreKeys();
    CatalogNamesDistinct();
    forall i | 0 <= i < |Catalog|
      ensures InStep(Catalog[i], ToolFunctions[Catalog[i].name])
    {
      EntryInStep(i);
    }
  }

  lemma {:induction false} CatalogNamesDistinct()
    ensures forall i, j :: 0 <= i < j < |Catalog| ==> Catalog[i].name != Catalog[j].name
  {
    var names := [Catalog[0].name, Catalog[1].name, Catalog[2].name, Catalog[3].name, Catalog[4].name];
    assert names == ["buscar_paciente_pront", "agendar_consulta_pront", "consultar_agendamentos_pront",
                     "registrar_presenca_pront", "listar_aniversariantes_pront"];
    assert forall i :: 0 <= i < 5 ==> Catalog[i].name == names[i];
    assert names[0][0] == 'b' && names[1][0] == 'a' && names[2][0] == 'c' && names[3][0] == 'r' && names[4][0] == 'l';
  }

  lemma {:induction false} CatalogNamesAreKeys()
    ensures CatalogNames(Catalog) == ToolFunctions.Keys
  {
    var names := [Catalog[0].name, Catalog[1].name, Catalog[2].name, Catalog[3].name, Catalog[4].name];
    assert names == ["buscar_paciente_pront", "agendar_consulta_pront", "consultar_agendamentos_pront",
                     "registrar_presenca_pront", "listar_aniversariantes_pront"];
    assert CatalogNames(Catalog) == {names[0], names[1], names[2], names[3], names[4]};
  }

}
